=== FILE: README.md ===
# Frozen-food price comparison, modelled in Dafny

This project models the value-level core of a frozen-food price scraper and
comparison pipeline. The model has three parts:

- **Scraper.** From a retailer's product detail page, the scraper reads a
  price, a product id, a size, a unit of measure and a price per unit.
- **Normaliser.** It cleans every scraped field into a canonical form.
- **Processor.** It matches each product of the first retailer against the
  other retailers by name similarity. It keeps the groups that have prices
  from at least two retailers, sorts them by name into a comparison table and
  reports per-retailer counts and price statistics.

Modules:

- `Wrappers` (`wrappers.dfy`): the `Option` and `Result` types.
- `Seqs` (`seqs.dfy`): order-preserving de-duplication (`Series.unique()`) and
  the positions a filter keeps.
- `Text` (`text.dfy`): the character classes Python uses; `str.lower`,
  `str.strip` and `re.sub(r'\s+', ' ', ...)`; Python's `float()` on plain
  decimal literals; Python's string order.
- `Regex` (`regex.dfy`): every regular expression of the core, written as a
  deterministic matcher anchored at a position. `Search` is the leftmost
  match (`re.search`) and `RemoveAll` is the substitution (`re.sub`). None of
  these patterns can change its match by backtracking, so on ASCII digits,
  letters and word characters each matcher follows the regex engine exactly.
- `Normalizer` (`normalizer.dfy`): `DataNormalizer` in `utils/normalizer.py`.
- `Matcher` (`matcher.dfy`): `find_similar_products` in `process_data.py`.
- `Table` (`table.dfy`): `create_comparison_table` and `_print_statistics` in
  `process_data.py`.
- `Scraper` (`scraper.dfy`): the value derivations of
  `scrapers/universal_scraper.py`.

Python's dynamic values appear as datatypes:

- A raw cell is `Missing`, `NaN`, a number or a string.
- A pandas price cell is `NoneCell`, `NaNCell` or a number. A column that
  holds some price stores a missing one as `NaN`; a column with no price
  keeps `None`.
- A scraped record is a product datatype with optional string fields.

Floating-point numbers are exact reals.

The fuzzy scorer (`fuzz.token_sort_ratio`) is a parameter of the matcher. Any
function scoring between 0 and 100 can be supplied.

## Model

| member | source | states |
|---|---|---|
| Normalizer.NullGuard | utils/normalizer.py:19-78 | the guard shared by `clean_text` (line 19), `clean_price` (line 31) and `parse_weight_volume` (line 77): `None`, `NaN` and any casing of "none", "nan" or the empty string give no text, no price and no size |
| Normalizer.CleanText | utils/normalizer.py:17-26 | no value exactly when the input is a null sentinel or only whitespace; otherwise the words of the text joined by single spaces: non-empty, no leading, trailing or doubled space |
| Normalizer.CleanPrice | utils/normalizer.py:29-49 | null sentinels give no price; a number is kept as it is; a string `float()` accepts is read directly; otherwise the value of the leftmost `\d+[.,]\d{2}` with the comma read as a decimal point, or no price when there is none |
| Normalizer.ParseWeightVolume | utils/normalizer.py:72-100 | a weight exactly when the input is not null and search finds a number followed by a weight unit in the lower-cased, stripped text; the weight is that of the match found and is non-negative |
| Normalizer.WeightIn | utils/normalizer.py:83-98 | kilograms and litres are scaled by 1000, grams and millilitres kept; the value is `float()` of the matched number; a weight implies the text has a digit |
| Normalizer.WeightInFirst | utils/normalizer.py:83-98 | with `m` the leftmost numeral followed by spaces and one of kg, g, l, ml, described without the scanner, the weight is the numeral's value, times 1000 for kg and l |
| Normalizer.WeightInNone | utils/normalizer.py:83-85 | a text with no numeral followed by spaces and a weight unit has no weight |
| Normalizer.WeightReadsGroup | utils/normalizer.py:87 | `float()` of the matched number group succeeds and equals the exact value of the digits |
| Normalizer.WeightMatch | utils/normalizer.py:83-88 | a weight match is a numeral followed by one of kg, g, l, ml |
| Normalizer.ParseWeightVolumeIgnoresCase | utils/normalizer.py:80 | the parsed weight of a text and of its lower-cased form agree |
| Normalizer.ParsedSizeHasText | utils/normalizer.py:112-113 | whenever a normalised size is parsed, the cleaned size text is present too |
| Normalizer.NormalizeProductName | utils/normalizer.py:52-69 | an empty name gives ""; a non-empty name is lower-cased and stripped, loses every `NxM unit` pack token, then every `number unit` size token, and comes out as its words joined by single spaces; the result is lower-case and made only of spaces and characters of the lower-cased name |
| Normalizer.NameWithoutDigits | utils/normalizer.py:63-64 | the pack and size deletions leave digit-free text unchanged |
| Normalizer.NameDropsSize | utils/normalizer.py:60-67 | any digit-free name followed by a space and a size such as `500g` (ml, g, kg, l or mm) normalises to the name's lower-cased words: the size token is removed |
| Normalizer.NameDropsPack | utils/normalizer.py:60-67 | any digit-free name followed by a space and a pack size such as `6x330ml` (ml, g, kg or l) normalises to the name's lower-cased words: the pack token is removed |
| Normalizer.NormalizeProduct | utils/normalizer.py:103-117 | each output field is its own raw column cleaned: `clean_text` for name, brand, size text, unit, retailer and URL, `clean_price` for price and price per unit, `parse_weight_volume` of the size text for the normalised size; every text field is absent or cleanly spaced and a normalised size comes with a size text and is non-negative |
| Normalizer.NormalizeProductFieldwise | utils/normalizer.py:107-117 | each of the nine output fields depends only on its own raw column |
| Text.CollapseStrip | utils/normalizer.py:22-24 | strip followed by whitespace collapsing gives the words of the text joined by single spaces |
| Text.SqueezeEmpty | utils/normalizer.py:26 | the cleaned text is empty exactly when the input is only whitespace |
| Text.SqueezeStrip | utils/normalizer.py:67 | stripping before collapsing whitespace changes nothing |
| Text.LexLeTotal | process_data.py:267 | any two product names are ordered one way or the other |
| Text.LexLeTransitive | process_data.py:267 | the name order is transitive |
| Regex.UnitAt | utils/normalizer.py:83 | the first alternative of the unit list that occurs, or none exactly when no listed unit occurs |
| Regex.PriceAt | utils/normalizer.py:41 | the match of `\d+[.,]\d{2}` at a position exists exactly when some span there has that shape, and it is that span |
| Regex.FirstPrice | utils/normalizer.py:41 | a price is found exactly when some span has the price shape; the match found is the leftmost such span |
| Regex.PriceTextReads | utils/normalizer.py:43-45 | `float()` of the matched price, with a comma turned into a dot, always succeeds and gives the exact value of the match |
| Regex.PriceTextShape | utils/normalizer.py:43 | the matched price text is digits, a dot and two digits |
| Regex.NumeralReads | utils/normalizer.py:87 | `float()` of a matched numeral group, with or without a fraction, gives its exact value |
| Regex.SizeAt | utils/normalizer.py:64 | a size match starts with a digit and is a numeral, spaces and a unit; with `\b` it is not followed by a word character |
| Regex.SizeAtExact | utils/normalizer.py:64 | the size scanner returns a span at a position exactly when that span is a size match starting there: it misses none and backtracking cannot give another |
| Regex.FirstSize | utils/normalizer.py:83 | search finds the size pattern exactly when some size match exists, and it finds the leftmost one |
| Regex.LeftmostSizeUnique | utils/normalizer.py:83 | at most one size match is leftmost |
| Regex.LooseSizeAtExact | scrapers/universal_scraper.py:382 | the scanner for a run of digits and dots, spaces and one of kg, g, l, ml returns a span at a position exactly when that span is such a match starting there |
| Regex.FirstLooseSize | scrapers/universal_scraper.py:382 | search finds that pattern exactly when some match of it exists, and it finds the leftmost one |
| Regex.PackAt | utils/normalizer.py:63 | a pack token found at a position is a split of the text into digits, spaces, an `x`, spaces, digits, spaces and one of the listed units |
| Regex.PackAtNone | utils/normalizer.py:63 | when the scanner finds no pack token at a position, no split of the pattern fits there |
| Regex.PackAtSplit | utils/normalizer.py:63 | every split of the pack pattern at a position is what the scanner returns there |
| Regex.PackSplitUnique | utils/normalizer.py:63 | a pack token splits into the pattern's runs in only one way |
| Regex.IdAt | scrapers/universal_scraper.py:513 | `/(\d{6,})` matches at a position exactly when a slash there is followed by at least six digits |
| Regex.Search | utils/normalizer.py:83 | the match found is one at its position and none starts earlier; no match means none at any position |
| Regex.RemoveAll | utils/normalizer.py:63-64 | substitution never lengthens the text nor introduces a character |
| Regex.RemoveAllNoMatch | utils/normalizer.py:63-64 | without a match, substitution copies the text |
| Regex.RemoveAllLeftmost | utils/normalizer.py:63-64 | substitution copies the text before the leftmost match, drops the match and continues after it |
| Regex.RemoveAllNoDigit | utils/normalizer.py:63-64 | the pack and size patterns leave digit-free text unchanged |
| Regex.TaggedPriceFindsFirstPrice | scrapers/universal_scraper.py:259-261 | the leftmost `R?\s*(\d+[.,]\d{2})` captures exactly the leftmost `\d+[.,]\d{2}` |
| Seqs.Unique | process_data.py:162 | the distinct retailers, each once, in order of first appearance, the first retailer first |
| Matcher.StoreColumn | process_data.py:142 | a column keeps its numbers; a missing price is stored as `NaN` when the column holds a number and as `None` otherwise |
| Matcher.Frame | process_data.py:142 | one row per product with its fields and URL; a missing price or price per unit becomes `NaN` exactly when some other product has one, and `None` otherwise |
| Matcher.OfRetailer | process_data.py:167 | the rows of the given retailer at the increasing positions where the frame has that retailer, each once, and nothing else |
| Matcher.NameKey | process_data.py:210 | a candidate's key is its normalised name, so it is squeezed and has no upper-case letters; a row without a name (`str(None)`) is matched by the word `none` |
| Matcher.Scores | process_data.py:213-217 | one score per candidate row |
| Matcher.BestIndex | process_data.py:213-217 | the position of the highest score, the first one on ties |
| Matcher.MatchIn | process_data.py:213-221 | a candidate is attached exactly when the best score reaches the threshold, and it is the best-scoring one |
| Matcher.Expected | process_data.py:203-226 | the entry attached for a retailer carries that retailer |
| Matcher.Attach | process_data.py:199-226 | at most one entry per other retailer, each being the one that retailer's best match gives |
| Matcher.AttachPicks | process_data.py:199-226 | for every other retailer the group holds exactly the entry its best match gives, or none |
| Matcher.AttachDistinct | process_data.py:199-201 | no retailer contributes two entries to a group |
| Matcher.BuildGroup | process_data.py:187-196 | a group carries the base product's name, brand and size, the base retailer's entry first, then the attached entries |
| Matcher.PricedPair | process_data.py:230-233 | a group passes the filter exactly when two of its entries have a price that is not `None` (a `NaN` counts) |
| Matcher.PricedSome | process_data.py:231 | the priced count is positive exactly when some entry has a price that is not `None` |
| Matcher.Candidate | process_data.py:179-196 | a base row proposes a group exactly when it has a non-empty name |
| Matcher.Keep | process_data.py:175-235 | the kept groups are the proposed ones that pass the filter, in base-row order |
| Matcher.BaseRetailer | process_data.py:166 | the base retailer is the retailer of the first product |
| Matcher.OtherRetailers | process_data.py:199-201 | every other retailer once, never the base retailer |
| Matcher.FindSimilarProducts | process_data.py:147-239 | fails exactly when there are no rows or a retailer is missing; otherwise at most one group per base product, each with at least two priced entries and the base retailer's entry first, and every base row's group that passes the filter is among them |
| Matcher.GroupsFromBases | process_data.py:187-196 | every group is the one a named base-retailer row seeds |
| Matcher.GroupsInBaseOrder | process_data.py:175-235 | the groups are the filtered groups of the base rows at increasing positions, and the group of every base row that passes the filter is there |
| Matcher.KeepIndexed | process_data.py:175-235 | the kept groups are the passing candidates at increasing positions, and every passing candidate's position is among them |
| Matcher.CandidatesKept | process_data.py:230-235 | every base row whose group passes the filter has that group among the kept ones |
| Matcher.NoConsumption | process_data.py:199-226 | matching does not use up candidates: groups with the same normalised name get the same matches |
| Table.InsertByName | process_data.py:267 | inserting a group into a sorted table keeps it sorted and adds exactly that group |
| Table.SortByName | process_data.py:267 | the table is in ascending name order and holds exactly the original groups |
| Table.Column | process_data.py:299-301 | a retailer's price column, row by row |
| Table.PriceIn | process_data.py:301 | a row's price for a retailer is a number exactly when the row has that retailer's entry with a numeric price |
| Table.TallyEmpty | process_data.py:302 | the count of a column is zero exactly when it holds no number |
| Table.TallyFull | process_data.py:293 | the count equals the number of rows exactly when every row has a price |
| Table.TallyBounds | process_data.py:305-306 | the minimum and maximum bound every price of the column |
| Table.TallyAttained | process_data.py:305-306 | the minimum and maximum are prices of the column |
| Table.TallySum | process_data.py:304-306 | the sum lies between count times the minimum and count times the maximum |
| Table.MeanBetween | process_data.py:304-306 | the average lies between the minimum and the maximum |
| Table.TallySort | process_data.py:267 | sorting leaves each column's count, sum, minimum and maximum unchanged |
| Table.Numbers | process_data.py:302 | `dropna`: the kept numbers are exactly the values of the present cells, and there are no more of them than cells |
| Table.Count | process_data.py:293 | the number of prices in the retailer's column, after dropping the missing ones: zero exactly when no row has one, all rows exactly when every row has one |
| Table.TallyNumbers | process_data.py:293-306 | the running tally counts and sums exactly the prices the column keeps after `dropna` |
| Table.MeanOfNumbers | process_data.py:301-304 | the average is the sum of the kept prices divided by their number |
| Table.Summarize | process_data.py:301-306 | statistics exist exactly when the column holds a price; the average is the sum of the kept prices over their number; the minimum and maximum are prices of the column and bound all of them |
| Table.Stats | process_data.py:299-306 | a retailer's statistics exist exactly when some row has its price; the average is the column's sum over its count, and min ≤ average ≤ max |
| Table.SortKeepsStatistics | process_data.py:267-277 | the counts and statistics of the sorted table equal those of the unsorted groups |
| Table.EntryRetailers | process_data.py:264 | exactly the retailers that have an entry in some group |
| Table.EntryRetailersOrder | process_data.py:264 | the retailers are listed group by group in entry order: entry `j` of group `i` sits after all entries of the groups before it |
| Table.PriceColumns | process_data.py:264 | the price columns: each retailer with an entry in some group, once, in order of first appearance |
| Table.RemoveLiteral | process_data.py:291 | `str.replace(p, '')` never lengthens the text nor introduces a character |
| Table.RemoveLiteralSuffix | process_data.py:291 | removing a suffix whose first character does not occur before it gives the text back |
| Table.Label | process_data.py:291 | the label of the `<retailer>_price` column is the retailer's own name when that name has no underscore |
| Table.LabelPlain | process_data.py:291 | a retailer name without an underscore is printed as itself |
| Table.CountLines | process_data.py:288-294 | one count line per price column, in column order, with the label and the number of priced rows |
| Table.StatsLines | process_data.py:298-306 | the statistics lines are, in label order, exactly those of the labels that name a price column whose statistics exist, each carrying those statistics |
| Table.Statistics | process_data.py:279-306 | the report holds the number of matches, one count line per column and the statistics lines |
| Table.PlainNamesAllReported | process_data.py:289-306 | with underscore-free retailer names, every retailer with a price gets a statistics line |
| Table.CreateComparisonTable | process_data.py:241-277 | no data exactly for an empty input; a failed match exactly when a retailer is missing; no table when no group is found; otherwise the groups sorted by name, their price columns and their statistics |
| Scraper.ProductTemplate | scrapers/universal_scraper.py:269-291 | a fresh record has the frozen-food category, the retailer and the scrape date, and every other field unset |
| Scraper.ExtractPrice | scrapers/universal_scraper.py:252-267 | no price for a missing or empty text; otherwise a price exactly when the text contains `\d+[.,]\d{2}`, and it is the leftmost such number with the comma read as a dot |
| Scraper.ExtractedPriceShape | scrapers/universal_scraper.py:259-261 | an extracted price is digits, a dot and two digits, and `float()` reads it as the exact value of the match |
| Scraper.LooseSize | scrapers/universal_scraper.py:382 | a size is found exactly when search finds the pattern; its number is digits and dots and its unit token spells the unit, up to case when case is ignored |
| Scraper.NameSize | scrapers/universal_scraper.py:482 | a size is found in a name exactly when the case-insensitive search finds the pattern; its number starts with a digit and its unit token spells a weight unit up to case |
| Scraper.LooseSizeFirst | scrapers/universal_scraper.py:382 | a size is found exactly when the text has a run of digits and dots, spaces and a weight unit; what is found are the number and unit text of the leftmost such run |
| Scraper.LeftmostLooseUnique | scrapers/universal_scraper.py:382 | at most one such run is leftmost |
| Scraper.NameSizeFirst | scrapers/universal_scraper.py:482 | a size in a name is found exactly when a numeral, spaces and a unit ending at a word boundary occur, in any case; what is found are the groups of the leftmost one |
| Scraper.ShopriteUnit | scrapers/universal_scraper.py:386-390 | kg and g give "kg"; l and ml give "L" |
| Scraper.PicknPayUnit | scrapers/universal_scraper.py:487-491 | tokens "kg" and "g" give "kg", "L" and "ml" give "L", any other token keeps the unit |
| Scraper.UnitRulesDiffer | scrapers/universal_scraper.py:482-491 | the two retailers agree on kg, g and ml but PicknPay ignores a lower-case "l" and an upper-case "KG" |
| Scraper.GetField | scrapers/universal_scraper.py:373-375 | a table entry replaces the field when its key is present, otherwise the field is kept |
| Scraper.ShopriteWeight | scrapers/universal_scraper.py:379-390 | a non-empty weight text becomes the size; with a size match it also sets the net weight and the unit of measure |
| Scraper.ShopriteWeightIgnoresCase | scrapers/universal_scraper.py:382 | the unit and net weight do not depend on the weight text's case |
| Scraper.ShopriteTable | scrapers/universal_scraper.py:372-410 | an empty table changes nothing; otherwise brand, barcode and unit come from the table; the weight (or else volume) text becomes the size text, and when it holds a number and unit these set the net weight and decide the unit; width, height and gross weight are copied when non-empty; depth (or else length) goes to both depth and length |
| Scraper.EitherOf | scrapers/universal_scraper.py:377 | `a or b` on two table lookups: the first value when it is non-empty, otherwise the second or "" |
| Scraper.ShopriteDimensions | scrapers/universal_scraper.py:392-410 | width, height and gross weight are copied only when non-empty; depth or else length is written to both; nothing else changes |
| Scraper.PicknPayName | scrapers/universal_scraper.py:481-493 | no size in the name sets the unit to "EA"; a size sets size text, net weight and the unit rule's result |
| Scraper.PicknPayUnitKinds | scrapers/universal_scraper.py:486-493 | the unit of measure becomes "kg", "L", "EA" or stays as it was |
| Scraper.PicknPayInfo | scrapers/universal_scraper.py:469-493 | no sections change nothing; a present barcode replaces it; a non-empty Description section fills an empty description and an existing one is kept; a named product with a size gets that size, the net weight with a space and the case-sensitive kg or L unit; a named product without a size gets "EA"; without a sized name, size and net weight are unchanged; no other field changes |
| Scraper.IdSearch | scrapers/universal_scraper.py:513 | the id pattern matches exactly when some slash is followed by six digits, and the match is at the leftmost such slash |
| Scraper.ProductId | scrapers/universal_scraper.py:513-515 | an id exactly when the URL has a slash followed by six or more digits; it is the whole digit run after the leftmost such slash |
| Scraper.SizeAmount | scrapers/universal_scraper.py:526-538 | an amount exists exactly when the loose search finds a number that `float()` reads; it is that number, divided by 1000 for g and ml |
| Scraper.SizeAmountFirst | scrapers/universal_scraper.py:526-538 | with `m` the leftmost run of digits and dots followed by a weight unit in any case, the amount is `float()` of its number, divided by 1000 for g and ml, or none when `float()` rejects the number |
| Scraper.SizeAmountNone | scrapers/universal_scraper.py:526-527 | a size text without such a run has no amount |
| Scraper.Divide | scrapers/universal_scraper.py:542 | the quotient times the divisor gives the dividend, and it is non-negative for a non-negative dividend |
| Scraper.PerUnitRate | scrapers/universal_scraper.py:518-543 | no price gives no price per unit; "EA" copies the price, and only "EA" does; otherwise no size text, no readable amount or a non-positive amount gives none, and with a positive amount the value exists exactly when `float()` reads the price and equals price divided by amount |
| Scraper.RateNonNegative | scrapers/universal_scraper.py:541-543 | a readable non-negative price and a positive amount give a non-negative price per unit |
| Scraper.ExtractedPriceReads | scrapers/universal_scraper.py:511 | a price read from the page is non-empty and `float()` reads it as a non-negative number |
| Scraper.PerUnitRateSet | scrapers/universal_scraper.py:518-543 | with a page price, a unit other than "EA" and a positive size amount, a non-negative price per unit is recorded |
| Scraper.RetailerFields | scrapers/universal_scraper.py:343-508 | the retailer dispatch never changes the product's URL, name, category, retailer or scrape date; for a retailer other than Shoprite and PicknPay, brand, size and barcode come from the page's generic selectors and nothing else changes |
| Scraper.ExtractDetails | scrapers/universal_scraper.py:293-547 | Shoprite without an information table gives an empty record; otherwise the record carries the category, retailer, date, URL, the extracted price, the product id of the URL and the price per unit derived from them |
| Scraper.EachPricedAsIs | scrapers/universal_scraper.py:518-521 | a product sold each has its price as its price per unit |

## Left out

- Browser automation, page navigation, waiting, scrolling, pagination and the HTML-to-text extraction are not modelled. A product page enters the model as the texts its selectors yield (`Scraper.Page`).
- Collecting PicknPay's h3 sections and Shoprite's information table from HTML is not modelled. They enter as maps from heading to text.
- The clock: the scrape date is a parameter. The final timestamp line of the statistics is not modelled.
- Logging, file listing, reading JSON and CSV, and writing Excel are not modelled; neither are `load_raw_files`, the title-casing of retailer names from file names, or the per-record exception handling of `normalize_data`.
- Retailer configuration (URLs and selectors) is not modelled; it is data, not logic.
- Matcher.Config: `fuzz.token_sort_ratio` and `process.extractOne` are an opaque scorer in the range 0 to 100. The first best-scoring candidate winning ties is assumed, not derived from rapidfuzz.
- Matcher.FindSimilarProducts: the `matched_base_indices` check is left out, because each base row is visited once, so it never skips a row.
- Normalizer.CleanPrice: `float()` is modelled for plain decimal literals only. Exponents, `inf`, `nan` spellings and digit underscores in a price string are not modelled.
- Normalizer.ParseWeightVolume: the product `value * 1000` is exact, with no binary floating-point rounding.
- Scraper.PerUnitRate: the result is the exact quotient. The `:.2f` formatting of the stored value is not modelled.
- Text.Lower: only ASCII letters are lower-cased. Python's full Unicode lower-casing, Unicode digits in `\d`, Unicode word characters in `\b`, and case-insensitive matches such as the Kelvin sign are not modelled.
- Table.Summarize: the average, minimum and maximum are exact reals; the binary floating-point sum of `mean()` and the `:.2f` formatting of the printed values are not modelled. The same holds for Table.Stats and Table.MeanOfNumbers.
- Matcher.Scores: its contract gives only the number of scores. Each score is the scorer applied to the query and the candidate's `Matcher.NameKey`, as the body computes; the scorer is a parameter, so there is nothing further to state about its values.
- Table.SortByName: pandas' default quicksort is not stable, so only order and content are promised, not the placement of groups with equal names.
- Table.Label: a retailer name containing `_price` gets a label that differs from the name. The model computes that label, but only underscore-free names are proved to keep their statistics line.
- Matcher.Frame: a product whose retailer is missing makes matching fail. The real data always has a retailer, because it comes from the file name.
- Product records returned as dictionaries with extra keys: only the fields the core reads or writes are modelled.

=== FILE: matcher.dfy ===
/** Cross-retailer matching, `DataProcessor.find_similar_products`
    (process_data.py): the first retailer's products seed groups, and each
    other retailer contributes its best-scoring product when the score
    reaches the threshold. */
module Matcher {
  import opened Wrappers
  import opened Seqs
  import opened Text
  import opened Normalizer

  /** Every score lies between 0 and 100. */
  ghost predicate ScoreRange(f: (string, string) -> real) {
    forall a, b :: 0.0 <= f(a, b) <= 100.0
  }

  /** The similarity of two normalised names (rapidfuzz's
      `fuzz.token_sort_ratio`), taken as given. */
  type Scorer = f: (string, string) -> real | ScoreRange(f) witness (a: string, b: string) => 50.0

  /** The matcher's settings: `similarity_threshold` and the scorer. */
  datatype Config = Config(threshold: int, score: Scorer)

  /** A price cell of the frame built from the normalised products: `None`
      survives only in a column holding no number at all; in a column with
      a number pandas stores a missing value as `NaN`. */
  datatype Cell = NoneCell | NaNCell | Number(value: real)

  /** The cells pandas stores for one price column. */
  function StoreColumn(xs: seq<Option<real>>): (r: seq<Cell>)
    ensures |r| == |xs|
    ensures forall i :: 0 <= i < |xs| && xs[i].Some? ==> r[i] == Number(xs[i].value)
    ensures forall i :: 0 <= i < |xs| && xs[i].None? ==>
      r[i] == if exists j :: 0 <= j < |xs| && xs[j].Some? then NaNCell else NoneCell
  {
    var numeric := exists j :: 0 <= j < |xs| && xs[j].Some?;
    seq(|xs|, i requires 0 <= i < |xs| =>
      if xs[i].Some? then Number(xs[i].value) else if numeric then NaNCell else NoneCell)
  }

  /** One product as a row of the frame, once its retailer is known. */
  datatype Row = Row(
    retailer: string,
    name: Option<string>,
    brand: Option<string>,
    size: Option<string>,
    price: Cell,
    pricePerUnit: Cell,
    url: Option<string>)

  predicate HasRetailers(ps: seq<NormalizedProduct>) {
    forall i :: 0 <= i < |ps| ==> ps[i].retailer.Some?
  }

  /** `pd.DataFrame(normalized_products)`. */
  function Frame(ps: seq<NormalizedProduct>): (rows: seq<Row>)
    requires HasRetailers(ps)
    ensures |rows| == |ps|
    ensures forall i :: 0 <= i < |ps| ==>
      && rows[i].retailer == ps[i].retailer.value
      && rows[i].name == ps[i].productName
      && (ps[i].price.Some? ==> rows[i].price == Number(ps[i].price.value))
      && (ps[i].price.None? ==> (rows[i].price == NaNCell <==> exists j :: 0 <= j < |ps| && ps[j].price.Some?))
      && (ps[i].price.None? ==> rows[i].price in {NaNCell, NoneCell})
      && rows[i].brand == ps[i].brand && rows[i].size == ps[i].sizeWeightVolume
    ensures forall i :: 0 <= i < |ps| ==>
      && (ps[i].pricePerUnit.Some? ==> rows[i].pricePerUnit == Number(ps[i].pricePerUnit.value))
      && (ps[i].pricePerUnit.None? ==>
            (rows[i].pricePerUnit == NaNCell <==> exists j :: 0 <= j < |ps| && ps[j].pricePerUnit.Some?))
      && (ps[i].pricePerUnit.None? ==> rows[i].pricePerUnit in {NaNCell, NoneCell})
      && rows[i].url == ps[i].productUrl
  {
    var prices := StoreColumn(seq(|ps|, i requires 0 <= i < |ps| => ps[i].price));
    var perUnit := StoreColumn(seq(|ps|, i requires 0 <= i < |ps| => ps[i].pricePerUnit));
    seq(|ps|, i requires 0 <= i < |ps| =>
      Row(ps[i].retailer.value, ps[i].productName, ps[i].brand, ps[i].sizeWeightVolume,
          prices[i], perUnit[i], ps[i].productUrl))
  }

  /** The retailer column. */
  function Retailers(rows: seq<Row>): (r: seq<string>)
    ensures |r| == |rows| && forall i :: 0 <= i < |rows| ==> r[i] == rows[i].retailer
  {
    seq(|rows|, i requires 0 <= i < |rows| => rows[i].retailer)
  }

  /** Which rows belong to `retailer`. */
  function RetailerFlags(rows: seq<Row>, retailer: string): (flags: seq<bool>)
    ensures |flags| == |rows| && forall i :: 0 <= i < |rows| ==> flags[i] == (rows[i].retailer == retailer)
  {
    seq(|rows|, i requires 0 <= i < |rows| => rows[i].retailer == retailer)
  }

  /** `df[df['retailer'] == retailer]`: the retailer's rows, each once, in
      frame order. */
  function OfRetailer(rows: seq<Row>, retailer: string): (r: seq<Row>)
    ensures var idx := Positions(RetailerFlags(rows, retailer), 0);
      |r| == |idx| && forall k :: 0 <= k < |r| ==> r[k] == rows[idx[k]]
    ensures forall x :: x in r <==> x in rows && x.retailer == retailer
    ensures forall k :: 0 <= k < |r| ==> r[k].retailer == retailer
    ensures |r| <= |rows|
  {
    var r := RowsFrom(rows, retailer, 0);
    RowsFromMembers(rows, retailer, r);
    r
  }

  /** The retailer's rows from position `from` on. */
  function RowsFrom(rows: seq<Row>, retailer: string, from: nat): (r: seq<Row>)
    requires from <= |rows|
    ensures var idx := Positions(RetailerFlags(rows, retailer), from);
      |r| == |idx| && forall k :: 0 <= k < |r| ==> r[k] == rows[idx[k]]
    decreases |rows| - from
  {
    if from == |rows| then []
    else
      var rest := RowsFrom(rows, retailer, from + 1);
      if rows[from].retailer == retailer then
        assert Positions(RetailerFlags(rows, retailer), from) == [from] + Positions(RetailerFlags(rows, retailer), from + 1);
        [rows[from]] + rest
      else
        rest
  }

  /** The rows picked by the positions of the flags are exactly the
      retailer's rows. */
  lemma RowsFromMembers(rows: seq<Row>, retailer: string, r: seq<Row>)
    requires var idx := Positions(RetailerFlags(rows, retailer), 0);
      |r| == |idx| && forall k :: 0 <= k < |r| ==> r[k] == rows[idx[k]]
    ensures forall x :: x in r <==> x in rows && x.retailer == retailer
    ensures forall k :: 0 <= k < |r| ==> r[k].retailer == retailer
  {
    var flags := RetailerFlags(rows, retailer);
    var idx := Positions(flags, 0);
    forall x | x in rows && x.retailer == retailer
      ensures x in r
    {
      var i :| 0 <= i < |rows| && rows[i] == x;
      assert flags[i];
      var k :| 0 <= k < |idx| && idx[k] == i;
      assert r[k] == x;
    }
    forall k | 0 <= k < |r|
      ensures r[k].retailer == retailer && r[k] in rows
    {
      assert flags[idx[k]];
    }
  }

  /** The name a candidate is matched by: `normalize_product_name(str(name))`,
      where `str(None)` is `"None"`. */
  function NameKey(row: Row): (r: string)
    ensures row.name.None? ==> r == "none"
    ensures Squeezed(r) && NoUpper(r)
  {
    if row.name.None? then
      MissingNameKey();
      NormalizeProductName("None")
    else NormalizeProductName(row.name.value)
  }

  /** A row without a name is matched by the word `none`. */
  lemma MissingNameKey()
    ensures NormalizeProductName("None") == "none"
  {
    var n: string := "None";
    assert Lower(n) == "none";
    assert NoDigit(n);
    var t: string := "none";
    assert TrimLeft(t) == t;
    assert WordLen(t) == |t|;
    assert t[|t|..] == [] && t[..|t|] == t;
    assert Words(t[|t|..]) == [] by {
      assert TrimLeft(t[|t|..]) == [];
    }
    assert Words(t) == [t];
  }

  /** The score of every candidate against the query. */
  function Scores(cfg: Config, query: string, cands: seq<Row>): (r: seq<real>)
    ensures |r| == |cands|
  {
    seq(|cands|, j requires 0 <= j < |cands| => cfg.score(query, NameKey(cands[j])))
  }

  /** The position of the first highest score, as `process.extractOne`
      reports it. */
  function BestIndex(scores: seq<real>): (i: nat)
    requires scores != []
    ensures i < |scores|
    ensures forall j :: 0 <= j < |scores| ==> scores[j] <= scores[i]
    ensures forall j :: 0 <= j < i ==> scores[j] < scores[i]
  {
    var n := |scores| - 1;
    if n == 0 then 0
    else
      var b := BestIndex(scores[..n]);
      assert forall j :: 0 <= j < n ==> scores[..n][j] == scores[j];
      if scores[n] > scores[b] then n else b
  }

  /** The candidate attached for one retailer: the best one, if its score
      reaches the threshold. */
  function MatchIn(cfg: Config, query: string, cands: seq<Row>): (r: Option<nat>)
    ensures r.Some? ==> r.value < |cands|
    ensures var sc := Scores(cfg, query, cands);
      && (r.Some? <==> exists j :: 0 <= j < |sc| && sc[j] >= cfg.threshold as real)
      && (r.Some? ==> r.value < |sc| && sc[r.value] >= cfg.threshold as real)
      && (r.Some? ==> forall j :: 0 <= j < |sc| ==> sc[j] <= sc[r.value])
      && (r.Some? ==> forall j :: 0 <= j < r.value ==> sc[j] < sc[r.value])
  {
    var sc := Scores(cfg, query, cands);
    if sc == [] then None
    else
      var i := BestIndex(sc);
      if sc[i] >= cfg.threshold as real then Some(i) else None
  }

  /** A retailer's columns in a group: `<r>_price`, `<r>_price_per_unit`
      and `<r>_url`. */
  datatype Entry = Entry(retailer: string, price: Cell, pricePerUnit: Cell, url: Option<string>)

  function EntryOf(row: Row): Entry {
    Entry(row.retailer, row.price, row.pricePerUnit, row.url)
  }

  /** One output group: the base product's name, brand and size, then one
      entry per retailer that has the product, the base retailer first. */
  datatype Group = Group(productName: string, brand: Option<string>, size: Option<string>, entries: seq<Entry>)

  /** The entry the matcher attaches for `retailer`, if any. */
  function Expected(cfg: Config, query: string, rows: seq<Row>, retailer: string): (r: Option<Entry>)
    ensures r.Some? ==> r.value.retailer == retailer
  {
    var cands := OfRetailer(rows, retailer);
    var best := MatchIn(cfg, query, cands);
    if best.None? then None else Some(EntryOf(cands[best.value]))
  }

  /** The first entry for `retailer`. */
  function EntryFor(entries: seq<Entry>, retailer: string): (r: Option<Entry>)
    ensures r.Some? ==> r.value in entries && r.value.retailer == retailer
    ensures r.None? ==> forall e :: e in entries ==> e.retailer != retailer
  {
    if entries == [] then None
    else if entries[0].retailer == retailer then Some(entries[0])
    else EntryFor(entries[1..], retailer)
  }

  predicate DistinctRetailers(entries: seq<Entry>) {
    forall i, j :: 0 <= i < j < |entries| ==> entries[i].retailer != entries[j].retailer
  }

  /** The entries matched from the other retailers, in their order. */
  function Attach(cfg: Config, query: string, others: seq<string>, rows: seq<Row>): (r: seq<Entry>)
    ensures |r| <= |others|
    ensures forall e :: e in r ==> e.retailer in others && Expected(cfg, query, rows, e.retailer) == Some(e)
  {
    if others == [] then []
    else
      var rest := Attach(cfg, query, others[1..], rows);
      var found := Expected(cfg, query, rows, others[0]);
      if found.None? then rest
      else
        AttachCons(cfg, query, others, rows, rest, found.value);
        [found.value] + rest
  }

  /** The matcher's pick for the first retailer goes in front of the
      picks for the rest. */
  lemma AttachCons(cfg: Config, query: string, others: seq<string>, rows: seq<Row>, rest: seq<Entry>, found: Entry)
    requires others != [] && Expected(cfg, query, rows, others[0]) == Some(found)
    requires forall e :: e in rest ==> e.retailer in others[1..] && Expected(cfg, query, rows, e.retailer) == Some(e)
    ensures forall e :: e in [found] + rest ==> e.retailer in others && Expected(cfg, query, rows, e.retailer) == Some(e)
  {
    forall e | e in [found] + rest
      ensures e.retailer in others && Expected(cfg, query, rows, e.retailer) == Some(e)
    {
      if e == found {
        assert e.retailer == others[0];
      } else {
        assert e in rest;
      }
    }
  }

  /** For each other retailer, the group holds exactly the entry the
      matcher picks for it, and nothing when it picks none. */
  lemma {:induction false} AttachPicks(cfg: Config, query: string, others: seq<string>, rows: seq<Row>, name: string)
    requires name in others
    ensures EntryFor(Attach(cfg, query, others, rows), name) == Expected(cfg, query, rows, name)
  {
    var rest := Attach(cfg, query, others[1..], rows);
    var found := Expected(cfg, query, rows, others[0]);
    if name != others[0] {
      AttachPicks(cfg, query, others[1..], rows, name);
      if found.Some? {
        assert Attach(cfg, query, others, rows) == [found.value] + rest;
        assert ([found.value] + rest)[1..] == rest;
      }
    }
  }

  /** With distinct retailers, no retailer contributes two entries. */
  lemma {:induction false} AttachDistinct(cfg: Config, query: string, others: seq<string>, rows: seq<Row>)
    requires Distinct(others)
    ensures DistinctRetailers(Attach(cfg, query, others, rows))
  {
    if others != [] {
      var rest := Attach(cfg, query, others[1..], rows);
      assert Distinct(others[1..]) by {
        forall i, j | 0 <= i < j < |others[1..]|
          ensures others[1..][i] != others[1..][j]
        {
          assert others[1..][i] == others[i + 1] && others[1..][j] == others[j + 1];
        }
      }
      AttachDistinct(cfg, query, others[1..], rows);
      var found := Expected(cfg, query, rows, others[0]);
      if found.Some? {
        assert others[0] !in others[1..] by {
          forall k | 0 <= k < |others[1..]|
            ensures others[1..][k] != others[0]
          {
            assert others[1..][k] == others[k + 1];
          }
        }
        ConsDistinct(found.value, rest);
      }
    }
  }

  lemma ConsDistinct(e: Entry, rest: seq<Entry>)
    requires DistinctRetailers(rest)
    requires forall x :: x in rest ==> x.retailer != e.retailer
    ensures DistinctRetailers([e] + rest)
  {
    var r := [e] + rest;
    forall i, j | 0 <= i < j < |r|
      ensures r[i].retailer != r[j].retailer
    {
      assert r[j] == rest[j - 1];
      if i > 0 {
        assert r[i] == rest[i - 1];
      }
    }
  }

  /** The group a base row seeds (before the two-price filter). */
  function BuildGroup(cfg: Config, base: Row, name: string, others: seq<string>, rows: seq<Row>): (g: Group)
    ensures g.productName == name && g.brand == base.brand && g.size == base.size
    ensures |g.entries| >= 1 && g.entries[0] == EntryOf(base)
    ensures g.entries[1..] == Attach(cfg, NormalizeProductName(name), others, rows)
  {
    Group(name, base.brand, base.size, [EntryOf(base)] + Attach(cfg, NormalizeProductName(name), others, rows))
  }

  /** `sum(1 for key in group if key.endswith('_price') and group[key] is not None)`. */
  function PricedCount(entries: seq<Entry>): (n: nat)
    ensures n <= |entries|
  {
    if entries == [] then 0
    else (if entries[0].price != NoneCell then 1 else 0) + PricedCount(entries[1..])
  }

  /** At least two entries carry a price that is not `None` (a `NaN`
      price counts, as the `is not None` test lets it through). */
  lemma {:induction false} PricedPair(entries: seq<Entry>)
    ensures PricedCount(entries) >= 2 <==>
      exists i, j :: 0 <= i < j < |entries| && entries[i].price != NoneCell && entries[j].price != NoneCell
  {
    if entries != [] {
      var tail := entries[1..];
      PricedPair(tail);
      PricedSome(tail);
      if PricedCount(entries) >= 2 {
        if entries[0].price != NoneCell {
          var j :| 0 <= j < |tail| && tail[j].price != NoneCell;
          assert entries[j + 1] == tail[j];
        } else {
          var i, j :| 0 <= i < j < |tail| && tail[i].price != NoneCell && tail[j].price != NoneCell;
          assert entries[i + 1] == tail[i] && entries[j + 1] == tail[j];
        }
      } else {
        forall i, j | 0 <= i < j < |entries|
          ensures entries[i].price == NoneCell || entries[j].price == NoneCell
        {
          assert entries[j] == tail[j - 1];
          if i > 0 {
            assert entries[i] == tail[i - 1];
          }
        }
      }
    }
  }

  lemma {:induction false} PricedSome(entries: seq<Entry>)
    ensures PricedCount(entries) >= 1 <==> exists j :: 0 <= j < |entries| && entries[j].price != NoneCell
  {
    if entries != [] {
      PricedSome(entries[1..]);
      if PricedCount(entries) == 0 {
        forall j | 0 <= j < |entries|
          ensures entries[j].price == NoneCell
        {
          if j > 0 {
            assert entries[j] == entries[1..][j - 1];
          }
        }
      } else if entries[0].price == NoneCell {
        var j :| 0 <= j < |entries[1..]| && entries[1..][j].price != NoneCell;
        assert entries[j + 1] == entries[1..][j];
      }
    }
  }

  /** The group a base row proposes: none when the row has no name
      (`if not base_name: continue`). */
  function Candidate(cfg: Config, base: Row, others: seq<string>, rows: seq<Row>): (c: Option<Group>)
    ensures c.Some? <==> base.name.Some? && base.name.value != []
    ensures c.Some? ==> c.value == BuildGroup(cfg, base, base.name.value, others, rows)
  {
    if base.name.None? || base.name.value == [] then None
    else Some(BuildGroup(cfg, base, base.name.value, others, rows))
  }

  /** A proposed group survives the `retailer_count >= 2` filter. */
  predicate Kept(c: Option<Group>) {
    c.Some? && PricedCount(c.value.entries) >= 2
  }

  function KeptFlags(cs: seq<Option<Group>>): (flags: seq<bool>)
    ensures |flags| == |cs| && forall i :: 0 <= i < |cs| ==> flags[i] == Kept(cs[i])
  {
    seq(|cs|, i requires 0 <= i < |cs| => Kept(cs[i]))
  }

  /** The loop over the base products from position `from` on: the kept
      groups, in base order. */
  function Keep(cs: seq<Option<Group>>, from: nat): (r: seq<Group>)
    requires from <= |cs|
    ensures var idx := Positions(KeptFlags(cs), from);
      |r| == |idx| && forall k :: 0 <= k < |r| ==> r[k] == cs[idx[k]].value
    decreases |cs| - from
  {
    if from == |cs| then []
    else
      var rest := Keep(cs, from + 1);
      if Kept(cs[from]) then
        KeepTaken(cs, from, rest);
        [cs[from].value] + rest
      else
        KeepSkipped(cs, from, rest);
        rest
  }

  /** A kept candidate goes in front of the groups kept after it. */
  lemma KeepTaken(cs: seq<Option<Group>>, from: nat, rest: seq<Group>)
    requires from < |cs| && Kept(cs[from])
    requires var idx := Positions(KeptFlags(cs), from + 1);
      |rest| == |idx| && forall k :: 0 <= k < |rest| ==> rest[k] == cs[idx[k]].value
    ensures var idx, r := Positions(KeptFlags(cs), from), [cs[from].value] + rest;
      |r| == |idx| && forall k :: 0 <= k < |r| ==> r[k] == cs[idx[k]].value
  {
    var tail := Positions(KeptFlags(cs), from + 1);
    assert Positions(KeptFlags(cs), from) == [from] + tail;
  }

  /** A dropped candidate leaves the groups kept after it. */
  lemma KeepSkipped(cs: seq<Option<Group>>, from: nat, rest: seq<Group>)
    requires from < |cs| && !Kept(cs[from])
    requires var idx := Positions(KeptFlags(cs), from + 1);
      |rest| == |idx| && forall k :: 0 <= k < |rest| ==> rest[k] == cs[idx[k]].value
    ensures var idx := Positions(KeptFlags(cs), from);
      |rest| == |idx| && forall k :: 0 <= k < |rest| ==> rest[k] == cs[idx[k]].value
  {
    assert Positions(KeptFlags(cs), from) == Positions(KeptFlags(cs), from + 1);
  }

  /** Why matching can fail: an empty frame has no `retailer` column
      (`KeyError`), and a missing retailer breaks `', '.join(retailers)`
      (`TypeError`). */
  datatype MatchError = NoRecords | RetailerMissing

  /** The groups proposed by the base rows, one per row. */
  function Candidates(cfg: Config, bases: seq<Row>, others: seq<string>, rows: seq<Row>): (cs: seq<Option<Group>>)
    ensures |cs| == |bases| && forall i :: 0 <= i < |bases| ==> cs[i] == Candidate(cfg, bases[i], others, rows)
  {
    seq(|bases|, i requires 0 <= i < |bases| => Candidate(cfg, bases[i], others, rows))
  }

  /** The base retailer: the first retailer in order of appearance. */
  function BaseRetailer(ps: seq<NormalizedProduct>): (b: string)
    requires ps != [] && HasRetailers(ps)
    ensures b == ps[0].retailer.value
  {
    Unique(Retailers(Frame(ps)))[0]
  }

  /** The retailers after the base one, in order of appearance. */
  function OtherRetailers(ps: seq<NormalizedProduct>): (others: seq<string>)
    requires ps != [] && HasRetailers(ps)
    ensures Distinct(others) && BaseRetailer(ps) !in others
    ensures forall i :: 0 <= i < |ps| && ps[i].retailer.value != BaseRetailer(ps) ==> ps[i].retailer.value in others
  {
    var u := Unique(Retailers(Frame(ps)));
    DistinctTail(u);
    assert forall i :: 0 <= i < |ps| ==> Retailers(Frame(ps))[i] == ps[i].retailer.value;
    assert forall i :: 0 <= i < |ps| ==> ps[i].retailer.value in u;
    u[1..]
  }

  /** `find_similar_products`. */
  function FindSimilarProducts(cfg: Config, ps: seq<NormalizedProduct>): (r: Result<seq<Group>, MatchError>)
    ensures r.Failure? <==> ps == [] || !HasRetailers(ps)
    ensures r.Success? ==> |r.value| <= |OfRetailer(Frame(ps), ps[0].retailer.value)|
    ensures r.Success? ==> forall g :: g in r.value ==>
      && PricedCount(g.entries) >= 2
      && g.entries[0].retailer == ps[0].retailer.value
    ensures r.Success? ==> var rows := Frame(ps);
      forall b :: b in OfRetailer(rows, ps[0].retailer.value) && Kept(Candidate(cfg, b, OtherRetailers(ps), rows)) ==>
        Candidate(cfg, b, OtherRetailers(ps), rows).value in r.value
  {
    if ps == [] then Failure(NoRecords)
    else if !HasRetailers(ps) then Failure(RetailerMissing)
    else
      var rows := Frame(ps);
      var bases := OfRetailer(rows, BaseRetailer(ps));
      var cs := Candidates(cfg, bases, OtherRetailers(ps), rows);
      CandidatesFromBase(cfg, bases, OtherRetailers(ps), rows, BaseRetailer(ps));
      GroupsFacts(cs, BaseRetailer(ps));
      CandidatesKept(cfg, bases, OtherRetailers(ps), rows);
      Success(Keep(cs, 0))
  }

  /** Every proposed group starts with its base row's entry. */
  lemma CandidatesFromBase(cfg: Config, bases: seq<Row>, others: seq<string>, rows: seq<Row>, base: string)
    requires forall k :: 0 <= k < |bases| ==> bases[k].retailer == base
    ensures var cs := Candidates(cfg, bases, others, rows);
      forall i :: 0 <= i < |cs| && cs[i].Some? ==> cs[i].value.entries != [] && cs[i].value.entries[0].retailer == base
  {
    var cs := Candidates(cfg, bases, others, rows);
    forall i | 0 <= i < |cs| && cs[i].Some?
      ensures cs[i].value.entries != [] && cs[i].value.entries[0].retailer == base
    {
      assert cs[i] == Candidate(cfg, bases[i], others, rows);
    }
  }

  /** Every kept candidate is among the kept groups. */
  lemma KeepComplete(cs: seq<Option<Group>>)
    ensures forall i :: 0 <= i < |cs| && Kept(cs[i]) ==> cs[i].value in Keep(cs, 0)
  {
    var idx := Positions(KeptFlags(cs), 0);
    forall i | 0 <= i < |cs| && Kept(cs[i])
      ensures cs[i].value in Keep(cs, 0)
    {
      assert KeptFlags(cs)[i];
      var k :| 0 <= k < |idx| && idx[k] == i;
      assert Keep(cs, 0)[k] == cs[i].value;
    }
  }

  /** Every base row whose group passes the filter yields that group. */
  lemma CandidatesKept(cfg: Config, bases: seq<Row>, others: seq<string>, rows: seq<Row>)
    ensures forall b :: b in bases && Kept(Candidate(cfg, b, others, rows)) ==>
      Candidate(cfg, b, others, rows).value in Keep(Candidates(cfg, bases, others, rows), 0)
  {
    var cs := Candidates(cfg, bases, others, rows);
    KeepComplete(cs);
    forall b | b in bases && Kept(Candidate(cfg, b, others, rows))
      ensures Candidate(cfg, b, others, rows).value in Keep(cs, 0)
    {
      var i :| 0 <= i < |bases| && bases[i] == b;
      assert cs[i] == Candidate(cfg, b, others, rows);
    }
  }

  lemma GroupsFacts(cs: seq<Option<Group>>, base: string)
    requires forall i :: 0 <= i < |cs| && cs[i].Some? ==> cs[i].value.entries != [] && cs[i].value.entries[0].retailer == base
    ensures |Keep(cs, 0)| <= |cs|
    ensures forall g :: g in Keep(cs, 0) ==> PricedCount(g.entries) >= 2 && g.entries[0].retailer == base
  {
    var groups := Keep(cs, 0);
    var idx := Positions(KeptFlags(cs), 0);
    forall g | g in groups
      ensures PricedCount(g.entries) >= 2 && g.entries[0].retailer == base
    {
      var k :| 0 <= k < |groups| && groups[k] == g;
      assert Kept(cs[idx[k]]);
    }
  }

  /** `g` is the group row `b` seeds: its name, brand and size, its own
      entry first, then the matcher's pick for each other retailer. */
  predicate SeededBy(cfg: Config, g: Group, b: Row, others: seq<string>, rows: seq<Row>) {
    && b.name == Some(g.productName) && g.productName != []
    && g.brand == b.brand && g.size == b.size
    && g.entries == [EntryOf(b)] + Attach(cfg, NormalizeProductName(g.productName), others, rows)
  }

  /** Every group is seeded by a named row of the base retailer: it carries
      that row's name, brand and size, the row's own entry first, then the
      matcher's pick for each other retailer. */
  lemma GroupsFromBases(cfg: Config, ps: seq<NormalizedProduct>)
    requires ps != [] && HasRetailers(ps)
    ensures var rows := Frame(ps);
      forall g :: g in FindSimilarProducts(cfg, ps).value ==>
        exists b :: b in rows && b.retailer == ps[0].retailer.value && SeededBy(cfg, g, b, OtherRetailers(ps), rows)
  {
    var rows := Frame(ps);
    var bases := OfRetailer(rows, ps[0].retailer.value);
    FoundGroups(cfg, ps);
    KeptSeeded(cfg, bases, OtherRetailers(ps), rows);
  }

  /** `GroupsFromBases` for any base rows. */
  lemma KeptSeeded(cfg: Config, bases: seq<Row>, others: seq<string>, rows: seq<Row>)
    ensures forall g :: g in Keep(Candidates(cfg, bases, others, rows), 0) ==>
      exists b :: b in bases && SeededBy(cfg, g, b, others, rows)
  {
    var cs := Candidates(cfg, bases, others, rows);
    var groups := Keep(cs, 0);
    var idx := Positions(KeptFlags(cs), 0);
    forall g | g in groups
      ensures exists b :: b in bases && SeededBy(cfg, g, b, others, rows)
    {
      var k :| 0 <= k < |groups| && groups[k] == g;
      KeepIndexed(cs);
      var i := idx[k];
      var b := bases[i];
      assert cs[i] == Some(g) && cs[i] == Candidate(cfg, b, others, rows);
      assert g == BuildGroup(cfg, b, b.name.value, others, rows);
      assert g.entries == [g.entries[0]] + g.entries[1..];
      assert b in bases && SeededBy(cfg, g, b, others, rows);
    }
  }

  /** Groups come out in the order of the base rows that seed them, each
      base row seeding at most one group. */
  lemma GroupsInBaseOrder(cfg: Config, ps: seq<NormalizedProduct>)
    requires ps != [] && HasRetailers(ps)
    ensures var rows := Frame(ps);
      var bases := OfRetailer(rows, ps[0].retailer.value);
      var groups := FindSimilarProducts(cfg, ps).value;
      exists idx: seq<nat> :: |idx| == |groups| && Increasing(idx) &&
        (forall k :: 0 <= k < |groups| ==>
          idx[k] < |bases| && Candidate(cfg, bases[idx[k]], OtherRetailers(ps), rows) == Some(groups[k])
          && Kept(Candidate(cfg, bases[idx[k]], OtherRetailers(ps), rows))) &&
        (forall i :: 0 <= i < |bases| && Kept(Candidate(cfg, bases[i], OtherRetailers(ps), rows)) ==> i in idx)
  {
    FoundGroups(cfg, ps);
    KeptInBaseOrder(cfg, OfRetailer(Frame(ps), ps[0].retailer.value), OtherRetailers(ps), Frame(ps));
  }

  /** What `find_similar_products` returns once its inputs are valid. */
  lemma FoundGroups(cfg: Config, ps: seq<NormalizedProduct>)
    requires ps != [] && HasRetailers(ps)
    ensures var rows := Frame(ps);
      FindSimilarProducts(cfg, ps) == Success(Keep(Candidates(cfg, OfRetailer(rows, ps[0].retailer.value), OtherRetailers(ps), rows), 0))
  {
  }

  /** `GroupsInBaseOrder` for any base rows. */
  lemma KeptInBaseOrder(cfg: Config, bases: seq<Row>, others: seq<string>, rows: seq<Row>)
    ensures var groups := Keep(Candidates(cfg, bases, others, rows), 0);
      exists idx: seq<nat> :: |idx| == |groups| && Increasing(idx) &&
        (forall k :: 0 <= k < |groups| ==>
          idx[k] < |bases| && Candidate(cfg, bases[idx[k]], others, rows) == Some(groups[k])
          && Kept(Candidate(cfg, bases[idx[k]], others, rows))) &&
        (forall i :: 0 <= i < |bases| && Kept(Candidate(cfg, bases[i], others, rows)) ==> i in idx)
  {
    var cs := Candidates(cfg, bases, others, rows);
    var idx := Positions(KeptFlags(cs), 0);
    var groups := Keep(cs, 0);
    KeepIndexed(cs);
    forall k | 0 <= k < |groups|
      ensures idx[k] < |bases| && Candidate(cfg, bases[idx[k]], others, rows) == Some(groups[k])
      ensures Kept(Candidate(cfg, bases[idx[k]], others, rows))
    {
      assert cs[idx[k]] == Candidate(cfg, bases[idx[k]], others, rows);
    }
    forall i | 0 <= i < |bases| && Kept(Candidate(cfg, bases[i], others, rows))
      ensures i in idx
    {
      assert cs[i] == Candidate(cfg, bases[i], others, rows);
    }
  }

  /** The kept groups are the kept candidates at increasing positions, and
      every kept candidate's position is among them. */
  lemma KeepIndexed(cs: seq<Option<Group>>)
    ensures var idx, groups := Positions(KeptFlags(cs), 0), Keep(cs, 0);
      && |idx| == |groups| && Increasing(idx)
      && (forall k :: 0 <= k < |groups| ==> idx[k] < |cs| && cs[idx[k]] == Some(groups[k]) && Kept(cs[idx[k]]))
      && (forall i :: 0 <= i < |cs| && Kept(cs[i]) ==> i in idx)
  {
    var idx := Positions(KeptFlags(cs), 0);
    forall k | 0 <= k < |idx|
      ensures Kept(cs[idx[k]])
    {
      assert KeptFlags(cs)[idx[k]];
    }
    forall i | 0 <= i < |cs| && Kept(cs[i])
      ensures i in idx
    {
      assert KeptFlags(cs)[i];
    }
  }

  /** Matching never removes a candidate from the pool: groups whose names
      normalise alike receive the same entries from the other retailers,
      so one product can sit in several groups. */
  lemma NoConsumption(cfg: Config, ps: seq<NormalizedProduct>, g1: Group, g2: Group)
    requires ps != [] && HasRetailers(ps)
    requires g1 in FindSimilarProducts(cfg, ps).value && g2 in FindSimilarProducts(cfg, ps).value
    requires NormalizeProductName(g1.productName) == NormalizeProductName(g2.productName)
    ensures g1.entries[1..] == g2.entries[1..]
  {
    GroupsFromBases(cfg, ps);
    var rows := Frame(ps);
    var b1 :| b1 in rows && b1.retailer == ps[0].retailer.value && SeededBy(cfg, g1, b1, OtherRetailers(ps), rows);
    var b2 :| b2 in rows && b2.retailer == ps[0].retailer.value && SeededBy(cfg, g2, b2, OtherRetailers(ps), rows);
    assert g1.entries[1..] == Attach(cfg, NormalizeProductName(g1.productName), OtherRetailers(ps), rows);
    assert g2.entries[1..] == Attach(cfg, NormalizeProductName(g2.productName), OtherRetailers(ps), rows);
  }
}

=== FILE: normalizer.dfy ===
/** Field cleaning of `DataNormalizer` (utils/normalizer.py): every raw cell
    of a scraped record becomes a canonical string, an exact number or
    nothing. */
module Normalizer {
  import opened Wrappers
  import opened Text
  import opened Regex

  /** A cell as the normaliser receives it: absent (`None`), pandas'
      missing-number marker `NaN`, a string, or a number together with its
      Python `str()` rendering (for example `12.5` with `"12.5"`). */
  datatype RawValue = Missing | NaN | Str(s: string) | Num(value: real, text: string)

  /** Python's `not v`: `None`, `''` and zero are false; `NaN` is true. */
  predicate Falsy(v: RawValue) {
    match v
    case Missing => true
    case NaN => false
    case Str(s) => s == []
    case Num(x, _) => x == 0.0
  }

  /** `str(v)`. */
  function Render(v: RawValue): string {
    match v
    case Missing => "None"
    case NaN => "nan"
    case Str(s) => s
    case Num(_, t) => t
  }

  /** The strings the null guard rejects after lower-casing. */
  const NullWords: seq<string> := ["none", "nan", ""]

  /** The guard shared by the cleaners:
      `not v or str(v).lower() in ['none', 'nan', '']`. */
  predicate Nullish(v: RawValue) {
    Falsy(v) || Lower(Render(v)) in NullWords
  }

  /** `None`, `NaN` and the spellings of null are all rejected. */
  lemma NullSentinels(s: string)
    ensures Nullish(Missing) && Nullish(NaN) && Nullish(Str([]))
    ensures Lower(s) in NullWords ==> Nullish(Str(s))
  {
    assert Lower("None") == "none";
    assert Lower("nan") == "nan";
  }

  // ---------------------------------------------------------------------------
  // clean_text
  // ---------------------------------------------------------------------------

  /** `clean_text`: reject null sentinels, strip, collapse whitespace runs to
      one space, and reject what is left empty. */
  function CleanText(v: RawValue): (r: Option<string>)
    ensures r.None? <==> Nullish(v) || AllSpace(Render(v))
    ensures r.Some? ==> r.value == Squeeze(Render(v)) && r.value != [] && Squeezed(r.value)
  {
    if Nullish(v) then None
    else
      var t := Collapse(Strip(Render(v)));
      CollapseStrip(Render(v));
      SqueezeEmpty(Render(v));
      SqueezeIsSqueezed(Render(v));
      if t == [] then None else Some(t)
  }

  // ---------------------------------------------------------------------------
  // clean_price
  // ---------------------------------------------------------------------------

  /** The price pattern `\d+[.,]\d{2}`. */
  const Price: Pattern := PricePattern

  /** `clean_price`: a number is returned as it is; a string is read by
      `float()` when it is a plain decimal and otherwise by its leftmost
      `\d+[.,]\d{2}` with the comma taken as a decimal point. */
  function CleanPrice(v: RawValue): (r: Option<real>)
    ensures Nullish(v) ==> r.None?
    ensures v.Num? && !Nullish(v) ==> r == Some(v.value)
    ensures v.Str? && !Nullish(v) && ParseFloat(v.s).Some? ==> r == ParseFloat(v.s)
    ensures v.Str? && !Nullish(v) && ParseFloat(v.s).None? ==>
      && (r.Some? <==> Search(Price, v.s, 0).Some?)
      && (r.Some? ==> r.value == PriceValue(v.s, Search(Price, v.s, 0).value))
  {
    if Nullish(v) then None
    else if v.Num? then Some(v.value)
    else
      var fast := if v.Str? then ParseFloat(v.s) else None;
      if fast.Some? then fast
      else
        var s := Render(v);
        var found := Search(Price, s, 0);
        if found.None? then None
        else
          PriceTextReads(s, found.value);
          ParseFloat(PriceText(s, found.value))
  }

  // ---------------------------------------------------------------------------
  // parse_weight_volume
  // ---------------------------------------------------------------------------

  /** The weight pattern `(\d+(?:\.\d+)?)\s*(kg|g|l|ml)`. */
  const Weight: Pattern := SizePattern(WeightUnits, false, false)

  /** `parse_weight_volume`: the first number-and-unit of the lower-cased,
      stripped text, in grams or millilitres. */
  function ParseWeightVolume(v: RawValue): (r: Option<real>)
    ensures r.Some? <==> !Nullish(v) && Search(Weight, Strip(Lower(Render(v))), 0).Some?
    ensures r.Some? ==> r.value >= 0.0 && r == WeightIn(Strip(Lower(Render(v))))
  {
    if Nullish(v) then None else WeightIn(Strip(Lower(Render(v))))
  }

  /** The null guard the three cleaners share: `None`, `NaN` and any casing
      of "none", "nan" or the empty string give no text, no price and no
      size. */
  lemma NullGuard(v: RawValue)
    requires v == Missing || v == NaN || (v.Str? && Lower(v.s) in NullWords)
    ensures CleanText(v).None? && CleanPrice(v).None? && ParseWeightVolume(v).None?
  {
    NullSentinels(if v.Str? then v.s else []);
  }

  /** The weight named by the first number-and-unit of `t`: `float()` of the
      number, times a thousand for kilograms and litres. */
  function WeightIn(t: string): (r: Option<real>)
    ensures r.Some? <==> Search(Weight, t, 0).Some?
    ensures r.Some? ==> r.value >= 0.0 && !NoDigit(t)
    ensures r.Some? ==> var m := Search(Weight, t, 0).value;
      && NumeralSpan(t, m)
      && r.value == if m.unit == Some(Kg) || m.unit == Some(L) then 1000.0 * NumeralValue(t, m) else NumeralValue(t, m)
  {
    var found := Search(Weight, t, 0);
    if found.None? then None
    else
      WeightMatch(t);
      var value := NumeralValue(t, found.value);
      var unit := found.value.unit;
      if unit == Some(Kg) then Some(value * 1000.0)
      else if unit == Some(G) then Some(value)
      else if unit == Some(L) then Some(value * 1000.0)
      else if unit == Some(Ml) then Some(value)
      else None
  }

  /** The weight of a text, described without the scanner: with `m` the
      leftmost numeral followed by spaces and a weight unit, the weight is
      the numeral's value, times a thousand for kilograms and litres. */
  lemma WeightInFirst(t: string, m: Span)
    requires LeftmostSize(t, m, WeightUnits, false, false)
    ensures NumeralSpan(t, m)
    ensures WeightIn(t) == Some(if m.unit == Some(Kg) || m.unit == Some(L) then 1000.0 * NumeralValue(t, m) else NumeralValue(t, m))
  {
    LeftmostIsFound(t, m);
    WeightOfMatch(t, m);
  }

  lemma LeftmostIsFound(t: string, m: Span)
    requires LeftmostSize(t, m, WeightUnits, false, false)
    ensures Search(Weight, t, 0) == Some(m)
  {
    SizeSearchReaches(t, m, WeightUnits, false, false);
    SizeSearchFinds(t, WeightUnits, false, false);
    var n := Search(Weight, t, 0).value;
    SizeAtExact(t, m.start, m, WeightUnits, false, false);
    SizeAtExact(t, m.start, n, WeightUnits, false, false);
  }

  lemma WeightOfMatch(t: string, m: Span)
    requires Search(Weight, t, 0) == Some(m)
    ensures NumeralSpan(t, m)
    ensures WeightIn(t) == Some(if m.unit == Some(Kg) || m.unit == Some(L) then 1000.0 * NumeralValue(t, m) else NumeralValue(t, m))
  {
    WeightMatch(t);
    var w := WeightIn(t);
    assert w.Some?;
    var x := if m.unit == Some(Kg) || m.unit == Some(L) then 1000.0 * NumeralValue(t, m) else NumeralValue(t, m);
    assert w.value == x;
  }

  /** A text without a numeral followed by a weight unit has no weight. */
  lemma WeightInNone(t: string)
    requires forall m :: !IsSizeMatch(t, m, WeightUnits, false, false)
    ensures WeightIn(t).None?
  {
    FirstSize(t, WeightUnits, false, false);
  }

  /** The number of a weight is read by `float()` from the matched group. */
  lemma WeightReadsGroup(t: string)
    requires Search(Weight, t, 0).Some?
    ensures var m := Search(Weight, t, 0).value;
      && NumeralSpan(t, m)
      && ParseFloat(t[m.groupStart..m.groupEnd]) == Some(NumeralValue(t, m))
  {
    WeightMatch(t);
    NumeralReads(t, Search(Weight, t, 0).value);
  }

  lemma WeightMatch(t: string)
    requires Search(Weight, t, 0).Some?
    ensures NumeralSpan(t, Search(Weight, t, 0).value)
    ensures Search(Weight, t, 0).value.unit in {Some(Kg), Some(G), Some(L), Some(Ml)}
    ensures !NoDigit(t)
  {
    var m := Search(Weight, t, 0).value;
    assert SizeAt(t, m.start, WeightUnits, false, false) == Some(m);
  }

  /** The parse does not depend on the case of the input. */
  lemma ParseWeightVolumeIgnoresCase(s: string)
    ensures ParseWeightVolume(Str(Lower(s))) == ParseWeightVolume(Str(s))
  {
    LowerIdempotent(s);
    assert Render(Str(Lower(s))) == Lower(s);
    assert Nullish(Str(Lower(s))) == Nullish(Str(s));
  }

  /** A parsed size comes from text that `clean_text` keeps. */
  lemma ParsedSizeHasText(v: RawValue)
    ensures ParseWeightVolume(v).Some? ==> CleanText(v).Some?
  {
    if ParseWeightVolume(v).Some? {
      var l := Lower(Render(v));
      StripDigit(l);
      LowerDigit(Render(v));
    }
  }

  lemma StripDigit(s: string)
    requires !NoDigit(Strip(s))
    ensures !NoDigit(s)
  {
    var t := Strip(s);
    var k :| 0 <= k < |t| && IsDigit(t[k]);
    StripChars(s);
    assert t[k] in s;
  }

  lemma LowerDigit(s: string)
    requires !NoDigit(Lower(s))
    ensures !AllSpace(s)
  {
    var k :| 0 <= k < |s| && IsDigit(Lower(s)[k]);
    LowerKeepsClasses(s);
    assert !IsSpace(s[k]);
  }

  // ---------------------------------------------------------------------------
  // normalize_product_name
  // ---------------------------------------------------------------------------

  /** Pack sizes such as `6 x 330ml`: `\d+\s*x\s*\d+\s*(ml|g|kg|l)`. */
  const Pack: Pattern := PackPattern([Ml, G, Kg, L])

  /** Sizes such as `1.5kg`: `\d+(?:\.\d+)?\s*(ml|g|kg|l|mm)`. */
  const Size: Pattern := SizePattern([Ml, G, Kg, L, Mm], false, false)

  /** `normalize_product_name`: lower-case and strip, delete pack and size
      tokens, then canonicalise the spacing. */
  function NormalizeProductName(name: string): (r: string)
    ensures name == [] ==> r == []
    ensures Squeezed(r) && NoUpper(r)
    ensures forall c :: c in r ==> c == ' ' || c in Lower(name)
    ensures NoDigit(name) ==> r == Squeeze(Lower(name))
    ensures name != [] ==> r == Squeeze(RemoveAll(Size, RemoveAll(Pack, Strip(Lower(name)), 0), 0))
  {
    if name == [] then []
    else
      var t := Strip(Lower(name));
      var t1 := RemoveAll(Pack, t, 0);
      var t2 := RemoveAll(Size, t1, 0);
      var r := Strip(Collapse(t2));
      NameFacts(name, t, t1, t2, r);
      r
  }

  lemma NameFacts(name: string, t: string, t1: string, t2: string, r: string)
    requires t == Strip(Lower(name))
    requires t1 == RemoveAll(Pack, t, 0) && t2 == RemoveAll(Size, t1, 0)
    requires r == Strip(Collapse(t2))
    ensures Squeezed(r) && NoUpper(r)
    ensures forall c :: c in r ==> c == ' ' || c in Lower(name)
    ensures NoDigit(name) ==> r == Squeeze(Lower(name))
    ensures r == Squeeze(t2)
  {
    StripCollapse(t2);
    SqueezeIsSqueezed(t2);
    NameChars(name, t, t1, t2, r);
    if NoDigit(name) {
      NameWithoutDigits(name, t, t1, t2);
      SqueezeStrip(Lower(name));
    }
  }

  lemma NameChars(name: string, t: string, t1: string, t2: string, r: string)
    requires t == Strip(Lower(name))
    requires t1 == RemoveAll(Pack, t, 0) && t2 == RemoveAll(Size, t1, 0)
    requires r == Strip(Collapse(t2))
    ensures NoUpper(r)
    ensures forall c :: c in r ==> c == ' ' || c in Lower(name)
  {
    StripChars(Lower(name));
    StripChars(Collapse(t2));
    CollapseChars(t2);
    LowerHasNoUpper(name);
    forall k | 0 <= k < |r|
      ensures !IsUpper(r[k])
    {
      assert r[k] in r;
      if r[k] != ' ' {
        var j :| 0 <= j < |Lower(name)| && Lower(name)[j] == r[k];
      }
    }
  }

  lemma NameWithoutDigits(name: string, t: string, t1: string, t2: string)
    requires t == Strip(Lower(name))
    requires t1 == RemoveAll(Pack, t, 0) && t2 == RemoveAll(Size, t1, 0)
    requires NoDigit(name)
    ensures t2 == t
  {
    LowerKeepsClasses(name);
    if !NoDigit(t) {
      StripDigit(Lower(name));
    }
    RemoveAllNoDigit(Pack, t);
    RemoveAllNoDigit(Size, t);
  }

  // ---------------------------------------------------------------------------
  // Names that end in a size or a pack size
  // ---------------------------------------------------------------------------

  /** A digit-free name, a space and a lower-case token with no whitespace
      at its ends: lower-casing and stripping leave the token at the end,
      after a digit-free prefix that squeezes like the lower-cased name. */
  lemma StripBeforeToken(w: string, tok: string) returns (p: string)
    requires NoDigit(w)
    requires tok != [] && !IsSpace(tok[0]) && !IsSpace(tok[|tok| - 1]) && NoUpper(tok)
    ensures Strip(Lower(w + " " + tok)) == p + tok
    ensures NoDigit(p) && Squeeze(p) == Squeeze(Lower(w))
  {
    var l := Lower(w);
    LowerToken(w, tok);
    LowerKeepsClasses(w);
    if AllSpace(l) {
      p := [];
      StripBlankBefore(l, tok);
    } else {
      p := StripWordsBefore(l, tok);
    }
  }

  lemma LowerToken(w: string, tok: string)
    requires NoUpper(tok)
    ensures Lower(w + " " + tok) == Lower(w) + " " + tok
  {
  }

  lemma StripBlankBefore(l: string, tok: string)
    requires AllSpace(l)
    requires tok != [] && !IsSpace(tok[0]) && !IsSpace(tok[|tok| - 1])
    ensures Strip(l + " " + tok) == [] + tok && Squeeze([]) == Squeeze(l)
  {
    StripPadded(l + " ", tok, []);
    assert l + " " + tok + [] == l + " " + tok;
    SqueezeEmpty(l);
    SqueezeEmpty([]);
  }

  lemma StripWordsBefore(l: string, tok: string) returns (p: string)
    requires !AllSpace(l) && NoDigit(l)
    requires tok != [] && !IsSpace(tok[0]) && !IsSpace(tok[|tok| - 1])
    ensures Strip(l + " " + tok) == p + tok
    ensures NoDigit(p) && Squeeze(p) == Squeeze(l)
  {
    TrimLeftKept(l);
    var tl := TrimLeft(l);
    p := tl + " ";
    StripAfterWords(l, tok);
    SuffixNoDigit(l, tl);
    SqueezeTrailingSpace(l);
  }

  lemma TrimLeftKept(s: string)
    ensures !AllSpace(s) ==> TrimLeft(s) != []
  {
    if TrimLeft(s) == [] {
      TrimLeftEmpty(s);
    }
  }

  lemma StripAfterWords(l: string, tok: string)
    requires TrimLeft(l) != []
    requires tok != [] && !IsSpace(tok[|tok| - 1])
    ensures Strip(l + " " + tok) == TrimLeft(l) + " " + tok
  {
    var q := " " + tok;
    StripAfterText(l, q);
    Assoc(l, " ", tok);
    Assoc(TrimLeft(l), " ", tok);
  }

  lemma StripAfterText(l: string, q: string)
    requires TrimLeft(l) != []
    requires q != [] && !IsSpace(q[|q| - 1])
    ensures Strip(l + q) == TrimLeft(l) + q
  {
    var r := TrimLeft(l) + q;
    TrimLeftAppend(l, q);
    assert r[|r| - 1] == q[|q| - 1];
    StripNoTrail(l + q, r);
  }

  lemma StripNoTrail(s: string, r: string)
    requires TrimLeft(s) == r && (r == [] || !IsSpace(r[|r| - 1]))
    ensures Strip(s) == r
  {
    TrimRightNoTrail(r);
  }

  lemma SuffixNoDigit(l: string, tl: string)
    requires NoDigit(l) && |tl| <= |l| && tl == l[|l| - |tl|..]
    ensures NoDigit(tl + " ")
  {
    assert forall k :: 0 <= k < |tl| ==> (tl + " ")[k] == l[|l| - |tl| + k];
  }

  lemma SqueezeTrailingSpace(l: string)
    ensures Squeeze(TrimLeft(l) + " ") == Squeeze(l)
  {
    WordsTrailing(TrimLeft(l), " ");
    WordsSkipLead(l);
  }

  /** The pack pattern matches nowhere in a digit-free text followed by
      digits and a unit. */
  lemma NoPackBeforeUnit(p: string, d: string, u: Unit, i: nat, units: seq<Unit>)
    requires NoDigit(p) && d != [] && AllDigits(d)
    requires i <= |p + d + UnitText(u)|
    ensures MatchAt(PackPattern(units), p + d + UnitText(u), i).None?
  {
    MatchAtPack(p + d + UnitText(u), i, units);
    forall a: nat, x: nat, b: nat, c: nat, us: nat, u': Unit
      ensures !PackSplit(p + d + UnitText(u), i, a, x, b, c, us, u', units)
    {
      NotPackSplit(p, d, u, i, a, x, b, c, us, u', units);
    }
  }

  lemma NotPackSplit(p: string, d: string, u: Unit, i: nat, a: nat, x: nat, b: nat, c: nat, us: nat, u': Unit, units: seq<Unit>)
    requires NoDigit(p) && d != [] && AllDigits(d)
    ensures !PackSplit(p + d + UnitText(u), i, a, x, b, c, us, u', units)
  {
    var t := p + d + UnitText(u);
    var e := |p| + |d|;
    assert t[e] == UnitText(u)[0];
    assert !IsDigit(t[e]) && !IsSpace(t[e]) && t[e] != 'x';
    assert forall k :: 0 <= k < |p| ==> t[k] == p[k];
    assert forall k :: |p| <= k < e ==> t[k] == d[k - |p|];
    assert i < |p| ==> !IsDigit(t[i]);
    assert |p| <= a <= e ==> !IsSpace(t[a]) && t[a] != 'x';
  }

  /** Removing the pack sizes and then the sizes from a digit-free text
      followed by a size leaves the text. */
  lemma SizeTokenRemoved(p: string, d: string, u: Unit)
    requires NoDigit(p) && d != [] && AllDigits(d) && u in [Ml, G, Kg, L, Mm]
    ensures RemoveAll(Size, RemoveAll(Pack, p + d + UnitText(u), 0), 0) == p
  {
    var t := p + d + UnitText(u);
    forall k | 0 <= k <= |t|
      ensures MatchAt(Pack, t, k).None?
    {
      NoPackBeforeUnit(p, d, u, k, [Ml, G, Kg, L]);
    }
    RemoveAllNoMatch(Pack, t, 0);
    assert t[0..] == t;
    var m := Span(|p|, |p|, |p| + |d|, |p| + |d|, Some(u), |t|);
    SizeTokenMatches(p, d, u, m);
    forall k | 0 <= k < |p|
      ensures MatchAt(Size, t, k).None?
    {
      assert t[k] == p[k];
    }
    SearchIsFirst(Size, t, |p|, m);
    RemoveAllLeftmost(Size, t, 0);
    RemoveAllAtEnd(Size, t);
    assert t[0..|p|] == p;
  }

  /** Every name made of digit-free words, a space and a size such as
      `500g` normalises to its words: the size is removed. */
  lemma NameDropsSize(w: string, d: string, u: Unit)
    requires NoDigit(w) && d != [] && AllDigits(d) && u in [Ml, G, Kg, L, Mm]
    ensures NormalizeProductName(w + " " + d + UnitText(u)) == Squeeze(Lower(w))
  {
    var tok := d + UnitText(u);
    Assoc(w + " ", d, UnitText(u));
    var p := StripBeforeToken(w, tok);
    Assoc(p, d, UnitText(u));
    SizeTokenRemoved(p, d, u);
    NameAfterStrip(w + " " + tok, p + tok);
  }

  /** The name pipeline after lower-casing and stripping. */
  lemma NameAfterStrip(name: string, s: string)
    requires name != [] && Strip(Lower(name)) == s
    ensures NormalizeProductName(name) == Squeeze(RemoveAll(Size, RemoveAll(Pack, s, 0), 0))
  {
  }

  lemma Assoc4(a: string, b: string, c: string, d: string, e: string)
    ensures a + b + c + d + e == a + (b + c + d + e)
  {
  }

  lemma SizeTokenMatches(p: string, d: string, u: Unit, m: Span)
    requires d != [] && AllDigits(d) && u in [Ml, G, Kg, L, Mm]
    requires m == Span(|p|, |p|, |p| + |d|, |p| + |d|, Some(u), |p + d + UnitText(u)|)
    ensures MatchAt(Size, p + d + UnitText(u), |p|) == Some(m)
  {
    var t := p + d + UnitText(u);
    var e := |p| + |d|;
    assert t[e] == UnitText(u)[0];
    assert |UnitText(u)| == 2 ==> t[e + 1] == UnitText(u)[1];
    assert IsSizeMatch(t, m, [Ml, G, Kg, L, Mm], false, false);
    SizeAtExact(t, |p|, m, [Ml, G, Kg, L, Mm], false, false);
    MatchAtSize(t, |p|, [Ml, G, Kg, L, Mm], false, false);
  }

  /** Removing the pack sizes and then the sizes from a digit-free text
      followed by a pack size leaves the text. */
  lemma PackTokenRemoved(p: string, d: string, e: string, u: Unit)
    requires NoDigit(p) && d != [] && AllDigits(d) && e != [] && AllDigits(e) && u in [Ml, G, Kg, L]
    ensures RemoveAll(Size, RemoveAll(Pack, p + d + "x" + e + UnitText(u), 0), 0) == p
  {
    var t := p + d + "x" + e + UnitText(u);
    var m := PackTokenMatches(p, d, e, u);
    forall k | 0 <= k < |p|
      ensures MatchAt(Pack, t, k).None?
    {
      assert t[k] == p[k];
      MatchAtPack(t, k, [Ml, G, Kg, L]);
    }
    SearchIsFirst(Pack, t, |p|, m);
    RemoveAllLeftmost(Pack, t, 0);
    RemoveAllAtEnd(Pack, t);
    assert t[0..|p|] == p;
    assert RemoveAll(Pack, t, 0) == p + [];
    assert p + [] == p;
    RemoveAllNoDigit(Size, p);
  }

  /** Every name made of digit-free words, a space and a pack size such as
      `6x330ml` normalises to its words: the pack size is removed. */
  lemma NameDropsPack(w: string, d: string, e: string, u: Unit)
    requires NoDigit(w) && d != [] && AllDigits(d) && e != [] && AllDigits(e) && u in [Ml, G, Kg, L]
    ensures NormalizeProductName(w + " " + d + "x" + e + UnitText(u)) == Squeeze(Lower(w))
  {
    var tok := d + "x" + e + UnitText(u);
    Assoc4(w + " ", d, "x", e, UnitText(u));
    var p := StripBeforeToken(w, tok);
    Assoc4(p, d, "x", e, UnitText(u));
    PackTokenRemoved(p, d, e, u);
    NameAfterStrip(w + " " + tok, p + tok);
  }

  /** A pack size after `|p|` characters is one pack match up to the end. */
  lemma PackTokenMatches(p: string, d: string, e: string, u: Unit) returns (m: Span)
    requires d != [] && AllDigits(d) && e != [] && AllDigits(e) && u in [Ml, G, Kg, L]
    ensures var t := p + d + "x" + e + UnitText(u);
      MatchAt(Pack, t, |p|) == Some(m) && m.start == |p| && m.end == |t|
  {
    var t := p + d + "x" + e + UnitText(u);
    var a := |p| + |d|;
    var c := a + 1 + |e|;
    PackTokenSplit(p, d, e, u);
    PackAtSplit(t, |p|, a, a, a + 1, c, c, u, [Ml, G, Kg, L]);
    MatchAtPack(t, |p|, [Ml, G, Kg, L]);
    m := Span(|p|, |p|, |p|, |p|, Some(u), c + |UnitText(u)|);
  }

  lemma PackTokenSplit(p: string, d: string, e: string, u: Unit)
    requires d != [] && AllDigits(d) && e != [] && AllDigits(e) && u in [Ml, G, Kg, L]
    ensures var a := |p| + |d|; var c := a + 1 + |e|;
      PackSplit(p + d + "x" + e + UnitText(u), |p|, a, a, a + 1, c, c, u, [Ml, G, Kg, L])
  {
    var t := p + d + "x" + e + UnitText(u);
    var a := |p| + |d|;
    var c := a + 1 + |e|;
    assert t[a] == 'x';
    assert forall k :: |p| <= k < a ==> t[k] == d[k - |p|];
    assert forall k :: a + 1 <= k < c ==> t[k] == e[k - a - 1];
    assert t[c] == UnitText(u)[0];
    assert |UnitText(u)| == 2 ==> t[c + 1] == UnitText(u)[1];
  }

  // ---------------------------------------------------------------------------
  // normalize_product
  // ---------------------------------------------------------------------------

  /** A scraped record: column name to cell. */
  type RawRecord = map<string, RawValue>

  /** `product.get(key)`. */
  function Get(rec: RawRecord, key: string): RawValue {
    if key in rec then rec[key] else Missing
  }

  /** The normalised form of one product. */
  datatype NormalizedProduct = NormalizedProduct(
    productName: Option<string>,
    brand: Option<string>,
    price: Option<real>,
    pricePerUnit: Option<real>,
    sizeWeightVolume: Option<string>,
    normalizedSize: Option<real>,
    unitOfMeasure: Option<string>,
    retailer: Option<string>,
    productUrl: Option<string>)

  /** A cleaned text field: absent, or non-empty with canonical spacing. */
  predicate CleanField(f: Option<string>) {
    f.Some? ==> f.value != [] && Squeezed(f.value)
  }

  /** `normalize_product`: each field cleaned from its own raw column. */
  function NormalizeProduct(rec: RawRecord): (r: NormalizedProduct)
    ensures CleanField(r.productName) && CleanField(r.brand) && CleanField(r.sizeWeightVolume)
    ensures CleanField(r.unitOfMeasure) && CleanField(r.retailer) && CleanField(r.productUrl)
    ensures "retailer" !in rec ==> r.retailer.None?
    ensures "price" !in rec ==> r.price.None?
    ensures r.normalizedSize.Some? ==> r.normalizedSize.value >= 0.0 && r.sizeWeightVolume.Some?
    ensures r.productName == CleanText(Get(rec, "product_name")) && r.brand == CleanText(Get(rec, "brand"))
    ensures r.price == CleanPrice(Get(rec, "price")) && r.pricePerUnit == CleanPrice(Get(rec, "price_per_unit"))
    ensures r.sizeWeightVolume == CleanText(Get(rec, "size_weight_volume"))
    ensures r.normalizedSize == ParseWeightVolume(Get(rec, "size_weight_volume"))
    ensures r.unitOfMeasure == CleanText(Get(rec, "unit_of_measure")) && r.retailer == CleanText(Get(rec, "retailer"))
    ensures r.productUrl == CleanText(Get(rec, "product_url"))
  {
    var size := Get(rec, "size_weight_volume");
    ParsedSizeHasText(size);
    NullSentinels([]);
    NormalizedProduct(
      CleanText(Get(rec, "product_name")),
      CleanText(Get(rec, "brand")),
      CleanPrice(Get(rec, "price")),
      CleanPrice(Get(rec, "price_per_unit")),
      CleanText(size),
      ParseWeightVolume(size),
      CleanText(Get(rec, "unit_of_measure")),
      CleanText(Get(rec, "retailer")),
      CleanText(Get(rec, "product_url")))
  }

  /** Each output field depends only on its own input column. */
  lemma NormalizeProductFieldwise(a: RawRecord, b: RawRecord)
    ensures Get(a, "product_name") == Get(b, "product_name") ==>
      NormalizeProduct(a).productName == NormalizeProduct(b).productName
    ensures Get(a, "price") == Get(b, "price") ==> NormalizeProduct(a).price == NormalizeProduct(b).price
    ensures Get(a, "size_weight_volume") == Get(b, "size_weight_volume") ==>
      NormalizeProduct(a).normalizedSize == NormalizeProduct(b).normalizedSize
    ensures Get(a, "retailer") == Get(b, "retailer") ==> NormalizeProduct(a).retailer == NormalizeProduct(b).retailer
    ensures Get(a, "brand") == Get(b, "brand") ==> NormalizeProduct(a).brand == NormalizeProduct(b).brand
    ensures Get(a, "price_per_unit") == Get(b, "price_per_unit") ==>
      NormalizeProduct(a).pricePerUnit == NormalizeProduct(b).pricePerUnit
    ensures Get(a, "size_weight_volume") == Get(b, "size_weight_volume") ==>
      NormalizeProduct(a).sizeWeightVolume == NormalizeProduct(b).sizeWeightVolume
    ensures Get(a, "unit_of_measure") == Get(b, "unit_of_measure") ==>
      NormalizeProduct(a).unitOfMeasure == NormalizeProduct(b).unitOfMeasure
    ensures Get(a, "product_url") == Get(b, "product_url") ==> NormalizeProduct(a).productUrl == NormalizeProduct(b).productUrl
  {
  }
}

=== FILE: regex.dfy ===
/** The handful of regular expressions the pipeline uses, written out as
    scanners: `MatchAt` decides whether a pattern matches starting exactly at
    a position, `Search` is `re.search` (the leftmost match) and `RemoveAll`
    is `re.sub(pattern, '', s)`.

    Each pattern is a chain of greedy runs separated by characters the
    preceding run cannot contain, and its unit alternatives start with
    distinct letters (`ml` and `mm` differ in the second).  Backtracking into
    a shorter run therefore always leaves a digit, a dot or a space where a
    separator, unit or letter is required, so the greedy scan finds the only
    match that can start at a position. */
module Regex {
  import opened Wrappers
  import opened Text

  /** A unit token of the size patterns. */
  datatype Unit = Kg | G | L | Ml | Mm

  function UnitText(u: Unit): (w: string)
    ensures 0 < |w| <= 2
  {
    match u
    case Kg => "kg"
    case G => "g"
    case L => "l"
    case Ml => "ml"
    case Mm => "mm"
  }

  /** `\w` on ASCII text: letters, digits and the underscore. */
  predicate IsWordChar(c: char) {
    IsDigit(c) || ('a' <= c <= 'z') || ('A' <= c <= 'Z') || c == '_'
  }

  /** `\b` after a match that ends in a word character: no word character follows `e`. */
  predicate WordEnd(s: string, e: nat) {
    e < |s| ==> !IsWordChar(s[e])
  }

  /** A character as the pattern compares it: folded to lower case under
      `re.IGNORECASE`. */
  function Fold(c: char, ignoreCase: bool): char {
    if ignoreCase then LowerChar(c) else c
  }

  /** The unit `u` is spelled at `i`, up to case when `ignoreCase`.  A unit
      is one or two letters, so this compares at most two characters;
      SpelledAtText states it as a comparison of the whole word. */
  predicate SpelledAt(s: string, i: nat, u: Unit, ignoreCase: bool) {
    var w := UnitText(u);
    && i + |w| <= |s|
    && Fold(s[i], ignoreCase) == w[0]
    && (|w| == 2 ==> Fold(s[i + 1], ignoreCase) == w[1])
  }

  lemma SpelledAtText(s: string, i: nat, u: Unit, ignoreCase: bool)
    ensures SpelledAt(s, i, u, ignoreCase) <==>
      var w := UnitText(u);
      i + |w| <= |s| && forall k :: 0 <= k < |w| ==> Fold(s[i + k], ignoreCase) == w[k]
  {
    var w := UnitText(u);
    if i + |w| <= |s| && forall k :: 0 <= k < |w| ==> Fold(s[i + k], ignoreCase) == w[k] {
      assert Fold(s[i + 0], ignoreCase) == w[0];
      if |w| == 2 {
        assert Fold(s[i + 1], ignoreCase) == w[1];
      }
    }
  }

  /** The first alternative of `units` that occurs at `i`. */
  function UnitAt(s: string, i: nat, units: seq<Unit>, ignoreCase: bool): (r: Option<Unit>)
    ensures r.Some? ==> r.value in units && SpelledAt(s, i, r.value, ignoreCase)
    ensures r.None? ==> forall u :: u in units ==> !SpelledAt(s, i, u, ignoreCase)
  {
    if units == [] then None
    else if SpelledAt(s, i, units[0], ignoreCase) then Some(units[0])
    else UnitAt(s, i, units[1..], ignoreCase)
  }

  /** A match of a pattern: the whole match is `s[start..end]`, group 1 is
      `s[groupStart..groupEnd]` with its integer part ending at `intEnd`, and
      for the size patterns group 2 is the unit, the last characters before
      `end`. */
  datatype Span = Span(start: nat, groupStart: nat, intEnd: nat, groupEnd: nat, unit: Option<Unit>, end: nat)

  datatype Pattern =
      /** `\d+[.,]\d{2}` */
    | PricePattern
      /** `R?\s*(\d+[.,]\d{2})` */
    | TaggedPricePattern
      /** `\d+\s*x\s*\d+\s*(u1|u2|...)` */
    | PackPattern(units: seq<Unit>)
      /** `(\d+(?:\.\d+)?)\s*(u1|u2|...)`, followed by `\b` when `wordEnd` */
    | SizePattern(units: seq<Unit>, ignoreCase: bool, wordEnd: bool)
      /** `([\d.]+)\s*(kg|g|l|ml)` */
    | LooseSizePattern(ignoreCase: bool)
      /** `/(\d{6,})` */
    | IdPattern

  /** The units of the weight patterns, in their alternation order. */
  const WeightUnits: seq<Unit> := [Kg, G, L, Ml]

  predicate DigitsBetween(s: string, i: nat, j: nat)
    requires i <= j <= |s|
  {
    forall k :: i <= k < j ==> IsDigit(s[k])
  }

  predicate SpacesBetween(s: string, i: nat, j: nat)
    requires i <= j <= |s|
  {
    forall k :: i <= k < j ==> IsSpace(s[k])
  }

  // ---------------------------------------------------------------------------
  // Prices
  // ---------------------------------------------------------------------------

  /** `\d+[.,]\d{2}` matches exactly `s[i..j]`. */
  predicate PriceMatch(s: string, i: nat, j: nat) {
    && i + 4 <= j <= |s|
    && DigitsBetween(s, i, j - 3)
    && (s[j - 3] == '.' || s[j - 3] == ',')
    && IsDigit(s[j - 2]) && IsDigit(s[j - 1])
  }

  /** `\d+[.,]\d{2}` anchored at `i`. */
  function PriceAt(s: string, i: nat): (r: Option<Span>)
    requires i <= |s|
    ensures r.Some? ==> i + 4 <= r.value.end && r.value == Span(i, i, r.value.end - 3, r.value.end, None, r.value.end)
    ensures forall j :: PriceMatch(s, i, j) <==> r.Some? && r.value.end == j
  {
    var e := i + DigitRun(s, i);
    if e > i && e + 3 <= |s| && (s[e] == '.' || s[e] == ',') && IsDigit(s[e + 1]) && IsDigit(s[e + 2])
    then Some(Span(i, i, e, e + 3, None, e + 3))
    else None
  }

  /** `R?\s*(\d+[.,]\d{2})` anchored at `i`: an optional `R`, spaces, then a
      price, which is group 1. */
  function TaggedPriceAt(s: string, i: nat): (r: Option<Span>)
    requires i <= |s|
    ensures r.Some? ==> var m := r.value;
      && m.start == i <= m.groupStart <= m.end <= |s|
      && PriceAt(s, m.groupStart) == Some(m.(start := m.groupStart))
      && forall k :: i <= k < m.groupStart ==> !IsDigit(s[k])
    ensures PriceAt(s, i).Some? ==> r.Some? && r.value.groupStart == i
  {
    var a := if i < |s| && s[i] == 'R' then i + 1 else i;
    var b := a + SpaceRun(s, a);
    TagPrefix(s, i, a, b);
    match PriceAt(s, b)
    case None => None
    case Some(m) => Some(m.(start := i))
  }

  /** The optional tag and the spaces after it hold no digit, and a price
      at `i` leaves both empty. */
  lemma TagPrefix(s: string, i: nat, a: nat, b: nat)
    requires i <= |s| && a == (if i < |s| && s[i] == 'R' then i + 1 else i)
    requires a <= |s| && b == a + SpaceRun(s, a)
    ensures i <= b <= |s| && forall k :: i <= k < b ==> !IsDigit(s[k])
    ensures PriceAt(s, i).Some? ==> b == i
  {
    if PriceAt(s, i).Some? {
      assert PriceMatch(s, i, PriceAt(s, i).value.end);
      assert IsDigit(s[i]);
    }
  }

  /** `group(1).replace(',', '.')` of a price match. */
  function PriceText(s: string, m: Span): string
    requires m.start <= |s| && PriceAt(s, m.start) == Some(m)
  {
    ReplaceChar(s[m.groupStart..m.groupEnd], ',', '.')
  }

  /** The exact value of a price match. */
  function PriceValue(s: string, m: Span): (x: real)
    requires m.start <= |s| && PriceAt(s, m.start) == Some(m)
    ensures x >= 0.0
  {
    DecimalValue(s[m.groupStart..m.intEnd], s[m.intEnd + 1..m.groupEnd])
  }

  /** A price text is digits, a dot and two digits. */
  lemma PriceTextShape(s: string, m: Span)
    requires m.start <= |s| && PriceAt(s, m.start) == Some(m)
    ensures var t := PriceText(s, m);
      && |t| >= 4 && AllDigits(t[..|t| - 3])
      && t[|t| - 3] == '.' && IsDigit(t[|t| - 2]) && IsDigit(t[|t| - 1])
  {
    var ip, fp := s[m.groupStart..m.intEnd], s[m.intEnd + 1..m.groupEnd];
    PriceTextParts(s, m);
    var t := PriceText(s, m);
    assert |fp| == 2 && |t| == |ip| + 3;
    assert t[..|t| - 3] == ip;
    assert t[|t| - 2] == fp[0] && t[|t| - 1] == fp[1];
  }

  /** `float()` reads a price text as the exact value of the match. */
  lemma PriceTextReads(s: string, m: Span)
    requires m.start <= |s| && PriceAt(s, m.start) == Some(m)
    ensures ParseFloat(PriceText(s, m)) == Some(PriceValue(s, m))
  {
    var ip, fp := s[m.groupStart..m.intEnd], s[m.intEnd + 1..m.groupEnd];
    PriceTextParts(s, m);
    assert ip != [] && fp != [];
    ReadsAs(PriceText(s, m), ip, fp, PriceValue(s, m));
  }

  lemma ReadsAs(t: string, ip: string, fp: string, x: real)
    requires ip != [] && fp != [] && AllDigits(ip) && AllDigits(fp)
    requires t == ip + "." + fp && x == DecimalValue(ip, fp)
    ensures ParseFloat(t) == Some(x)
  {
    ParseFloatNumeral(ip, fp);
  }

  lemma PriceTextParts(s: string, m: Span)
    requires m.start <= |s| && PriceAt(s, m.start) == Some(m)
    ensures AllDigits(s[m.groupStart..m.intEnd]) && AllDigits(s[m.intEnd + 1..m.groupEnd])
    ensures PriceText(s, m) == s[m.groupStart..m.intEnd] + "." + s[m.intEnd + 1..m.groupEnd]
  {
    var a, e, b := m.groupStart, m.intEnd, m.groupEnd;
    assert PriceMatch(s, m.start, m.end);
    assert DigitsBetween(s, e + 1, b);
    DigitSlice(s, a, e);
    DigitSlice(s, e + 1, b);
    SplitAround(s, a, e, b);
    DotSplice(s[a..b], e - a);
  }

  lemma DigitSlice(s: string, i: nat, j: nat)
    requires i <= j <= |s| && DigitsBetween(s, i, j)
    ensures AllDigits(s[i..j])
  {
    forall k | 0 <= k < j - i
      ensures IsDigit(s[i..j][k])
    {
      assert s[i..j][k] == s[i + k];
    }
  }

  /** The parts of `s[a..b]` before and after position `e`. */
  lemma SplitAround(s: string, a: nat, e: nat, b: nat)
    requires a <= e < b <= |s|
    ensures s[a..b][..e - a] == s[a..e] && s[a..b][e - a + 1..] == s[e + 1..b] && s[a..b][e - a] == s[e]
  {
  }

  /** Making the comma of `digits [.,] digits` a dot leaves digits, a dot
      and digits. */
  lemma DotSplice(g: string, e: nat)
    requires e < |g| && (g[e] == '.' || g[e] == ',')
    requires AllDigits(g[..e]) && AllDigits(g[e + 1..])
    ensures ReplaceChar(g, ',', '.') == g[..e] + "." + g[e + 1..]
  {
    var t, u := ReplaceChar(g, ',', '.'), g[..e] + "." + g[e + 1..];
    forall k | 0 <= k < |t|
      ensures t[k] == u[k]
    {
      if k < e {
        assert g[..e][k] == g[k];
      } else if k > e {
        assert g[e + 1..][k - e - 1] == g[k];
      }
    }
  }

  /** The leftmost price match, described without the scanner: a price
      pattern occurs iff search finds one, and none starts earlier. */
  lemma FirstPrice(s: string)
    ensures Search(PricePattern, s, 0).Some? <==> exists i, j :: PriceMatch(s, i, j)
    ensures Search(PricePattern, s, 0).Some? ==> var m := Search(PricePattern, s, 0).value;
      && PriceMatch(s, m.start, m.end)
      && forall i, j :: PriceMatch(s, i, j) ==> m.start <= i
  {
    var r := Search(PricePattern, s, 0);
    assert forall i, j :: PriceMatch(s, i, j) ==> MatchAt(PricePattern, s, i).Some?;
    if r.Some? {
      var m := r.value;
      assert PriceAt(s, m.start) == Some(m);
      assert PriceMatch(s, m.start, m.end);
    }
  }

  // ---------------------------------------------------------------------------
  // Sizes
  // ---------------------------------------------------------------------------

  /** Where `\d+(?:\.\d+)?` starting at the digit run `s[i..ie]` ends. */
  function NumeralEnd(s: string, ie: nat): (ge: nat)
    requires ie <= |s|
    ensures ie <= ge <= |s|
    ensures ge == ie || (s[ie] == '.' && ie + 1 < ge && DigitsBetween(s, ie + 1, ge))
  {
    if ie + 1 < |s| && s[ie] == '.' && IsDigit(s[ie + 1]) then ie + 1 + DigitRun(s, ie + 1) else ie
  }

  /** Group 1 of a size match is a numeral `\d+(?:\.\d+)?`. */
  predicate NumeralSpan(s: string, m: Span) {
    && m.groupStart < m.intEnd <= m.groupEnd <= |s|
    && DigitsBetween(s, m.groupStart, m.intEnd)
    && (m.groupEnd == m.intEnd
        || (s[m.intEnd] == '.' && m.intEnd + 1 < m.groupEnd && DigitsBetween(s, m.intEnd + 1, m.groupEnd)))
  }

  /** The shape every size match has: a numeral, spaces, then the unit. */
  predicate SizeShaped(s: string, m: Span, units: seq<Unit>, ignoreCase: bool) {
    && m.start == m.groupStart && m.groupEnd <= m.end <= |s|
    && NumeralSpan(s, m)
    && m.unit.Some? && m.unit.value in units
    && m.groupEnd <= m.end - |UnitText(m.unit.value)|
    && SpacesBetween(s, m.groupEnd, m.end - |UnitText(m.unit.value)|)
    && SpelledAt(s, m.end - |UnitText(m.unit.value)|, m.unit.value, ignoreCase)
  }

  /** The exact value of a numeral group. */
  function NumeralValue(s: string, m: Span): (x: real)
    requires NumeralSpan(s, m)
    ensures x >= 0.0
  {
    DecimalValue(s[m.groupStart..m.intEnd], if m.groupEnd == m.intEnd then "" else s[m.intEnd + 1..m.groupEnd])
  }

  /** `float(group(1))` of a numeral group is its exact value. */
  lemma NumeralReads(s: string, m: Span)
    requires NumeralSpan(s, m)
    ensures ParseFloat(s[m.groupStart..m.groupEnd]) == Some(NumeralValue(s, m))
  {
    var ip := s[m.groupStart..m.intEnd];
    if m.groupEnd == m.intEnd {
      ParseFloatInteger(ip);
    } else {
      FractionReads(s, m);
    }
  }

  /** The fraction case of `NumeralReads`: the group is `ip + "." + fp`. */
  lemma FractionReads(s: string, m: Span)
    requires NumeralSpan(s, m) && m.groupEnd != m.intEnd
    ensures ParseFloat(s[m.groupStart..m.groupEnd]) == Some(NumeralValue(s, m))
  {
    var ip := s[m.groupStart..m.intEnd];
    var fp := s[m.intEnd + 1..m.groupEnd];
    assert s[m.intEnd..m.intEnd + 1] == ".";
    assert s[m.groupStart..m.groupEnd] == ip + s[m.intEnd..m.intEnd + 1] + fp;
    ParseFloatNumeral(ip, fp);
  }

  /** `(\d+(?:\.\d+)?)\s*(units)` anchored at `i`, with a trailing `\b` when
      `wordEnd`. */
  function SizeAt(s: string, i: nat, units: seq<Unit>, ignoreCase: bool, wordEnd: bool): (r: Option<Span>)
    requires i <= |s|
    ensures r.Some? ==> r.value.start == i && SizeShaped(s, r.value, units, ignoreCase)
    ensures r.Some? && wordEnd ==> WordEnd(s, r.value.end)
    ensures i < |s| && !IsDigit(s[i]) ==> r.None?
  {
    var ie := i + DigitRun(s, i);
    if ie == i then None
    else
      var m := SizeAfterNumeral(s, i, ie, NumeralEnd(s, ie), units, ignoreCase);
      if m.Some? && wordEnd && !WordEnd(s, m.value.end) then None else m
  }

  /** The rest of a size match once the numeral `s[i..ge]` is read: optional
      whitespace, then the first of `units` that occurs there. */
  function SizeAfterNumeral(s: string, i: nat, ie: nat, ge: nat, units: seq<Unit>, ignoreCase: bool): (r: Option<Span>)
    requires i < ie <= ge <= |s| && DigitsBetween(s, i, ie)
    requires ge == ie || (s[ie] == '.' && ie + 1 < ge && DigitsBetween(s, ie + 1, ge))
    ensures r.Some? ==> r.value.start == i && SizeShaped(s, r.value, units, ignoreCase)
  {
    var us := ge + SpaceRun(s, ge);
    var found := UnitAt(s, us, units, ignoreCase);
    if found.None? then None
    else
      var u := found.value;
      SizeShapedIntro(s, i, ie, ge, us, u, units, ignoreCase);
      Some(Span(i, i, ie, ge, Some(u), us + |UnitText(u)|))
  }

  lemma SizeShapedIntro(s: string, i: nat, ie: nat, ge: nat, us: nat, u: Unit, units: seq<Unit>, ignoreCase: bool)
    requires i < ie <= ge <= us <= |s| && DigitsBetween(s, i, ie)
    requires ge == ie || (s[ie] == '.' && ie + 1 < ge && DigitsBetween(s, ie + 1, ge))
    requires SpacesBetween(s, ge, us)
    requires u in units && SpelledAt(s, us, u, ignoreCase)
    ensures SizeShaped(s, Span(i, i, ie, ge, Some(u), us + |UnitText(u)|), units, ignoreCase)
  {
  }

  predicate IsDigitOrDot(c: char) {
    IsDigit(c) || c == '.'
  }

  /** `s[i..i + n]` is digits and dots only and stops at any other
      character or at the end: what a greedy `[\d.]+` takes from `i`. */
  predicate IsDottedRun(s: string, i: nat, n: nat) {
    && i + n <= |s|
    && (forall k :: i <= k < i + n ==> IsDigitOrDot(s[k]))
    && (i + n == |s| || !IsDigitOrDot(s[i + n]))
  }

  lemma {:induction false} DottedRunExists(s: string, i: nat)
    requires i <= |s|
    ensures exists n: nat :: IsDottedRun(s, i, n)
    decreases |s| - i
  {
    if i < |s| && IsDigitOrDot(s[i]) {
      DottedRunExists(s, i + 1);
      var n: nat :| IsDottedRun(s, i + 1, n);
      assert IsDottedRun(s, i, n + 1);
    } else {
      assert IsDottedRun(s, i, 0);
    }
  }

  /** Length of the longest run of digits and dots starting at `i`. */
  function DottedRun(s: string, i: nat): (n: nat)
    requires i <= |s|
    ensures i + n <= |s|
    ensures forall k :: i <= k < i + n ==> IsDigitOrDot(s[k])
    ensures i + n == |s| || !IsDigitOrDot(s[i + n])
  {
    DottedRunExists(s, i);
    var n: nat :| IsDottedRun(s, i, n);
    n
  }

  /** The shape every loose size match has: a run of digits and dots,
      spaces, then a weight unit. */
  predicate LooseShaped(s: string, m: Span, ignoreCase: bool) {
    && m.start == m.groupStart < m.groupEnd == m.intEnd <= m.end <= |s|
    && (forall k :: m.groupStart <= k < m.groupEnd ==> IsDigitOrDot(s[k]))
    && m.unit.Some? && m.unit.value in WeightUnits
    && m.groupEnd <= m.end - |UnitText(m.unit.value)|
    && SpacesBetween(s, m.groupEnd, m.end - |UnitText(m.unit.value)|)
    && SpelledAt(s, m.end - |UnitText(m.unit.value)|, m.unit.value, ignoreCase)
  }

  /** `([\d.]+)\s*(kg|g|l|ml)` anchored at `i`. */
  function LooseSizeAt(s: string, i: nat, ignoreCase: bool): (r: Option<Span>)
    requires i <= |s|
    ensures r.Some? ==> r.value.start == i && LooseShaped(s, r.value, ignoreCase)
  {
    var ge := i + DottedRun(s, i);
    if ge == i then None else LooseAfterRun(s, i, ge, ignoreCase)
  }

  /** The rest of a loose size match once the run `s[i..ge]` is read:
      optional whitespace, then the first weight unit that occurs there. */
  function LooseAfterRun(s: string, i: nat, ge: nat, ignoreCase: bool): (r: Option<Span>)
    requires i < ge <= |s| && forall k :: i <= k < ge ==> IsDigitOrDot(s[k])
    ensures r.Some? ==> r.value.start == i && LooseShaped(s, r.value, ignoreCase)
  {
    var us := ge + SpaceRun(s, ge);
    match UnitAt(s, us, WeightUnits, ignoreCase)
    case None => None
    case Some(u) =>
      LooseShapedIntro(s, i, ge, us, u, ignoreCase);
      Some(Span(i, i, ge, ge, Some(u), us + |UnitText(u)|))
  }

  lemma LooseShapedIntro(s: string, i: nat, ge: nat, us: nat, u: Unit, ignoreCase: bool)
    requires i < ge <= us <= |s| && forall k :: i <= k < ge ==> IsDigitOrDot(s[k])
    requires SpacesBetween(s, ge, us)
    requires u in WeightUnits && SpelledAt(s, us, u, ignoreCase)
    ensures LooseShaped(s, Span(i, i, ge, ge, Some(u), us + |UnitText(u)|), ignoreCase)
  {
  }

  /** `\d+\s*x\s*\d+\s*(units)` matches `s[i..us + |unit|]`, cut at the
      ends of its runs: digits `[i, a)`, spaces `[a, x)`, the `x`, spaces
      `[x + 1, b)`, digits `[b, c)`, spaces `[c, us)`, then the unit `u`. */
  predicate PackSplit(s: string, i: nat, a: nat, x: nat, b: nat, c: nat, us: nat, u: Unit, units: seq<Unit>) {
    && i < a <= x < b < c <= us <= |s|
    && DigitsBetween(s, i, a) && SpacesBetween(s, a, x) && s[x] == 'x'
    && SpacesBetween(s, x + 1, b) && DigitsBetween(s, b, c) && SpacesBetween(s, c, us)
    && u in units && SpelledAt(s, us, u, false)
  }

  /** `\d+\s*x\s*\d+\s*(units)` anchored at `i`: what it returns is a
      split of the text into the pattern's runs; PackAtNone shows it misses
      no split and PackSplitUnique that a split is unique. */
  function PackAt(s: string, i: nat, units: seq<Unit>): (r: Option<Span>)
    requires i <= |s|
    ensures r.Some? ==> r.value.start == i < r.value.end <= |s| && IsDigit(s[i])
    ensures r.Some? ==> r.value.groupStart == r.value.intEnd == r.value.groupEnd == i && r.value.unit.Some?
    ensures r.Some? ==> exists a: nat, x: nat, b: nat, c: nat, us: nat, u: Unit ::
      PackSplit(s, i, a, x, b, c, us, u, units) && r.value == Span(i, i, i, i, Some(u), us + |UnitText(u)|)
  {
    var a := i + DigitRun(s, i);
    if a == i then
      None
    else
      var x := a + SpaceRun(s, a);
      if x == |s| || s[x] != 'x' then
        None
      else
        var b := x + 1 + SpaceRun(s, x + 1);
        var c := b + DigitRun(s, b);
        if c == b then
          None
        else
          var us := c + SpaceRun(s, c);
          match UnitAt(s, us, units, false)
          case None =>
            None
          case Some(u) =>
            PackSplitIntro(s, i, a, x, b, c, us, u, units);
            Some(Span(i, i, i, i, Some(u), us + |UnitText(u)|))
  }

  /** No pack token starts where no digit does. */
  lemma NoSplitCount(s: string, i: nat, units: seq<Unit>)
    requires i <= |s| && DigitRun(s, i) == 0
    ensures forall a: nat, x: nat, b: nat, c: nat, us: nat, u: Unit :: !PackSplit(s, i, a, x, b, c, us, u, units)
  {
    forall a: nat, x: nat, b: nat, c: nat, us: nat, u: Unit
      ensures !PackSplit(s, i, a, x, b, c, us, u, units)
    {
      PackPartsIf(s, i, a, x, b, c, us, u, units);
    }
  }


  /** No pack token starts where the count and its spaces are not followed by an `x`. */
  lemma NoSplitTimesAt(s: string, i: nat, a: nat, x: nat, units: seq<Unit>)
    requires i <= |s| && a == i + DigitRun(s, i) && x == a + SpaceRun(s, a) && (x == |s| || s[x] != 'x')
    ensures forall a: nat, x: nat, b: nat, c: nat, us: nat, u: Unit :: !PackSplit(s, i, a, x, b, c, us, u, units)
  {
    forall a': nat, x': nat, b: nat, c: nat, us: nat, u: Unit
      ensures !PackSplit(s, i, a', x', b, c, us, u, units)
    {
      PackPartsIf(s, i, a', x', b, c, us, u, units);
    }
  }



  /** No pack token starts where no digit follows the `x` and its spaces. */
  lemma NoSplitSecondAt(s: string, i: nat, b: nat, units: seq<Unit>)
    requires i <= |s|
    requires var a := i + DigitRun(s, i); var x := a + SpaceRun(s, a);
      x < |s| && b == x + 1 + SpaceRun(s, x + 1)
    requires DigitRun(s, b) == 0
    ensures forall a: nat, x: nat, b: nat, c: nat, us: nat, u: Unit :: !PackSplit(s, i, a, x, b, c, us, u, units)
  {
    forall a: nat, x: nat, b': nat, c: nat, us: nat, u: Unit
      ensures !PackSplit(s, i, a, x, b', c, us, u, units)
    {
      PackPartsIf(s, i, a, x, b', c, us, u, units);
    }
  }



  /** No pack token starts where none of `units` follows the second count and its spaces. */
  lemma NoSplitUnitAt(s: string, i: nat, b: nat, c: nat, us: nat, units: seq<Unit>)
    requires i <= |s|
    requires var a := i + DigitRun(s, i); var x := a + SpaceRun(s, a);
      x < |s| && b == x + 1 + SpaceRun(s, x + 1)
    requires c == b + DigitRun(s, b) && us == c + SpaceRun(s, c) && UnitAt(s, us, units, false).None?
    ensures forall a: nat, x: nat, b: nat, c: nat, us: nat, u: Unit :: !PackSplit(s, i, a, x, b, c, us, u, units)
  {
    forall a: nat, x: nat, b': nat, c': nat, us': nat, u: Unit
      ensures !PackSplit(s, i, a, x, b', c', us', u, units)
    {
      PackPartsIf(s, i, a, x, b', c', us', u, units);
    }
  }



  // ---------------------------------------------------------------------------
  // Each size scanner finds the only match that starts at a position
  // ---------------------------------------------------------------------------

  /** A unit is lower-case letters only. */
  lemma UnitLetters(u: Unit)
    ensures NoUpper(UnitText(u)) && NoSpace(UnitText(u)) && NoDigit(UnitText(u))
  {
  }

  /** Every unit starts with a lower-case letter. */
  lemma UnitLead(u: Unit)
    ensures 'a' <= UnitText(u)[0] <= 'z'
  {
  }

  /** Where a unit is spelled there is no digit, dot or whitespace. */
  lemma UnitStart(s: string, p: nat, u: Unit, ignoreCase: bool)
    requires SpelledAt(s, p, u, ignoreCase)
    ensures p < |s| && !IsDigit(s[p]) && s[p] != '.' && !IsSpace(s[p])
  {
    UnitLead(u);
    assert Fold(s[p], ignoreCase) == UnitText(u)[0];
  }

  /** At most one unit is spelled at a position. */
  lemma UnitUnique(s: string, p: nat, u: Unit, v: Unit, ignoreCase: bool)
    requires SpelledAt(s, p, u, ignoreCase) && SpelledAt(s, p, v, ignoreCase)
    ensures u == v
  {
    assert UnitText(u)[0] == Fold(s[p], ignoreCase) == UnitText(v)[0];
    if UnitText(u)[0] == 'm' {
      assert UnitText(u)[1] == Fold(s[p + 1], ignoreCase) == UnitText(v)[1];
    }
  }

  /** The alternation picks the one unit of `units` that is spelled there. */
  lemma UnitAtUnique(s: string, p: nat, units: seq<Unit>, u: Unit, ignoreCase: bool)
    requires u in units && SpelledAt(s, p, u, ignoreCase)
    ensures UnitAt(s, p, units, ignoreCase) == Some(u)
  {
    var r := UnitAt(s, p, units, ignoreCase);
    UnitUnique(s, p, r.value, u, ignoreCase);
  }

  /** `s[m.start..m.end]` is a match of `(\d+(?:\.\d+)?)\s*(units)`, with a
      trailing `\b` when `wordEnd`, and `m` records its groups. */
  predicate IsSizeMatch(s: string, m: Span, units: seq<Unit>, ignoreCase: bool, wordEnd: bool) {
    SizeShaped(s, m, units, ignoreCase) && (wordEnd ==> WordEnd(s, m.end))
  }

  /** The greedy runs of a numeral that is followed by spaces and then a
      character that is neither digit, dot nor space end where the numeral
      ends. */
  lemma NumeralRead(s: string, m: Span, us: nat)
    requires NumeralSpan(s, m) && m.groupEnd <= us < |s| && SpacesBetween(s, m.groupEnd, us)
    requires !IsDigit(s[us]) && s[us] != '.' && !IsSpace(s[us])
    ensures m.groupStart + DigitRun(s, m.groupStart) == m.intEnd
    ensures NumeralEnd(s, m.intEnd) == m.groupEnd
  {
    if m.groupEnd < us {
      assert IsSpace(s[m.groupEnd]);
    }
    DigitRunExact(s, m.groupStart, m.intEnd);
    if m.groupEnd > m.intEnd {
      DigitRunExact(s, m.intEnd + 1, m.groupEnd);
    }
  }

  /** Each field of a size match is determined by the text and its start:
      the greedy runs, then the one unit spelled after them. */
  lemma SizeParts(s: string, m: Span, units: seq<Unit>, ignoreCase: bool)
    requires SizeShaped(s, m, units, ignoreCase)
    ensures m.intEnd == m.start + DigitRun(s, m.start)
    ensures m.groupEnd == NumeralEnd(s, m.intEnd)
    ensures m.unit == UnitAt(s, m.groupEnd + SpaceRun(s, m.groupEnd), units, ignoreCase)
    ensures m.end == m.groupEnd + SpaceRun(s, m.groupEnd) + |UnitText(m.unit.value)|
  {
    var u := m.unit.value;
    var us := m.end - |UnitText(u)|;
    UnitStart(s, us, u, ignoreCase);
    NumeralRead(s, m, us);
    SpaceRunExact(s, m.groupEnd, us);
    UnitAtUnique(s, us, units, u, ignoreCase);
  }

  /** At most one size match starts at a position. */
  lemma SizeShapedUnique(s: string, m1: Span, m2: Span, units: seq<Unit>, ignoreCase: bool)
    requires SizeShaped(s, m1, units, ignoreCase) && SizeShaped(s, m2, units, ignoreCase)
    requires m1.start == m2.start
    ensures m1 == m2
  {
    SizeParts(s, m1, units, ignoreCase);
    SizeParts(s, m2, units, ignoreCase);
    SameNumeral(s, m1, m2);
    SameUnit(s, m1, m2, units, ignoreCase);
    SpanFields(m1, m2);
  }

  lemma SameNumeral(s: string, m1: Span, m2: Span)
    requires m1.start == m2.start <= |s|
    requires m1.intEnd == m1.start + DigitRun(s, m1.start) && m2.intEnd == m2.start + DigitRun(s, m2.start)
    requires m1.intEnd <= |s| && m1.groupEnd == NumeralEnd(s, m1.intEnd)
    requires m2.intEnd <= |s| && m2.groupEnd == NumeralEnd(s, m2.intEnd)
    ensures m1.intEnd == m2.intEnd && m1.groupEnd == m2.groupEnd
  {
  }

  lemma SameUnit(s: string, m1: Span, m2: Span, units: seq<Unit>, ignoreCase: bool)
    requires m1.groupEnd == m2.groupEnd <= |s|
    requires m1.unit == UnitAt(s, m1.groupEnd + SpaceRun(s, m1.groupEnd), units, ignoreCase) && m1.unit.Some?
    requires m2.unit == UnitAt(s, m2.groupEnd + SpaceRun(s, m2.groupEnd), units, ignoreCase) && m2.unit.Some?
    requires m1.end == m1.groupEnd + SpaceRun(s, m1.groupEnd) + |UnitText(m1.unit.value)|
    requires m2.end == m2.groupEnd + SpaceRun(s, m2.groupEnd) + |UnitText(m2.unit.value)|
    ensures m1.unit == m2.unit && m1.end == m2.end
  {
  }

  lemma SpanFields(m1: Span, m2: Span)
    requires m1.start == m2.start && m1.groupStart == m2.groupStart && m1.intEnd == m2.intEnd
    requires m1.groupEnd == m2.groupEnd && m1.unit == m2.unit && m1.end == m2.end
    ensures m1 == m2
  {
  }

  /** Once the numeral is read, a unit after the spaces completes the match. */
  lemma SizeAfterSome(s: string, i: nat, ie: nat, ge: nat, units: seq<Unit>, ignoreCase: bool)
    requires i < ie <= ge <= |s| && DigitsBetween(s, i, ie)
    requires ge == ie || (s[ie] == '.' && ie + 1 < ge && DigitsBetween(s, ie + 1, ge))
    requires UnitAt(s, ge + SpaceRun(s, ge), units, ignoreCase).Some?
    ensures SizeAfterNumeral(s, i, ie, ge, units, ignoreCase).Some?
  {
  }

  /** Every size match is the one the scanner returns at its start. */
  lemma SizeAtComplete(s: string, m: Span, units: seq<Unit>, ignoreCase: bool, wordEnd: bool)
    requires IsSizeMatch(s, m, units, ignoreCase, wordEnd)
    ensures m.start <= |s| && SizeAt(s, m.start, units, ignoreCase, wordEnd) == Some(m)
  {
    SizeParts(s, m, units, ignoreCase);
    SizeAfterSome(s, m.start, m.intEnd, m.groupEnd, units, ignoreCase);
    var r := SizeAfterNumeral(s, m.start, m.intEnd, m.groupEnd, units, ignoreCase);
    SizeShapedUnique(s, r.value, m, units, ignoreCase);
    assert r == Some(m);
    SizeAtIs(s, m, m.intEnd, m.groupEnd, units, ignoreCase, wordEnd);
  }

  lemma SizeAtIs(s: string, m: Span, ie: nat, ge: nat, units: seq<Unit>, ignoreCase: bool, wordEnd: bool)
    requires m.start <= |s| && ie == m.start + DigitRun(s, m.start) && m.start < ie
    requires ge == NumeralEnd(s, ie) && DigitsBetween(s, m.start, ie)
    requires ge == ie || (s[ie] == '.' && ie + 1 < ge && DigitsBetween(s, ie + 1, ge))
    requires SizeAfterNumeral(s, m.start, ie, ge, units, ignoreCase) == Some(m)
    requires wordEnd ==> WordEnd(s, m.end)
    ensures SizeAt(s, m.start, units, ignoreCase, wordEnd) == Some(m)
  {
    assert SizeAfterNumeral(s, m.start, m.start + DigitRun(s, m.start), NumeralEnd(s, ie), units, ignoreCase) == Some(m);
  }

  /** The size scanner returns exactly the size matches: backtracking into
      a shorter run can never produce another one. */
  lemma SizeAtExact(s: string, i: nat, m: Span, units: seq<Unit>, ignoreCase: bool, wordEnd: bool)
    requires i <= |s|
    ensures SizeAt(s, i, units, ignoreCase, wordEnd) == Some(m) <==> m.start == i && IsSizeMatch(s, m, units, ignoreCase, wordEnd)
  {
    if m.start == i && IsSizeMatch(s, m, units, ignoreCase, wordEnd) {
      SizeAtComplete(s, m, units, ignoreCase, wordEnd);
    }
  }

  /** `m` is a size match and none starts before it. */
  ghost predicate LeftmostSize(s: string, m: Span, units: seq<Unit>, ignoreCase: bool, wordEnd: bool) {
    && IsSizeMatch(s, m, units, ignoreCase, wordEnd)
    && forall n :: IsSizeMatch(s, n, units, ignoreCase, wordEnd) ==> m.start <= n.start
  }

  /** The leftmost size match, described without the scanner: a size
      pattern occurs iff search finds one, and none starts earlier. */
  lemma FirstSize(s: string, units: seq<Unit>, ignoreCase: bool, wordEnd: bool)
    ensures Search(SizePattern(units, ignoreCase, wordEnd), s, 0).Some?
      <==> exists m :: IsSizeMatch(s, m, units, ignoreCase, wordEnd)
    ensures Search(SizePattern(units, ignoreCase, wordEnd), s, 0).Some?
      ==> LeftmostSize(s, Search(SizePattern(units, ignoreCase, wordEnd), s, 0).value, units, ignoreCase, wordEnd)
  {
    var r := Search(SizePattern(units, ignoreCase, wordEnd), s, 0);
    forall m | IsSizeMatch(s, m, units, ignoreCase, wordEnd)
      ensures r.Some? && r.value.start <= m.start
    {
      SizeSearchReaches(s, m, units, ignoreCase, wordEnd);
    }
    if r.Some? {
      SizeSearchFinds(s, units, ignoreCase, wordEnd);
    }
  }

  /** At most one size match is leftmost. */
  lemma LeftmostSizeUnique(s: string, m: Span, n: Span, units: seq<Unit>, ignoreCase: bool, wordEnd: bool)
    requires LeftmostSize(s, m, units, ignoreCase, wordEnd) && LeftmostSize(s, n, units, ignoreCase, wordEnd)
    ensures m == n
  {
    SizeAtExact(s, m.start, m, units, ignoreCase, wordEnd);
    SizeAtExact(s, m.start, n, units, ignoreCase, wordEnd);
  }

  /** Search stops at or before every size match. */
  lemma SizeSearchReaches(s: string, m: Span, units: seq<Unit>, ignoreCase: bool, wordEnd: bool)
    requires IsSizeMatch(s, m, units, ignoreCase, wordEnd)
    ensures var r := Search(SizePattern(units, ignoreCase, wordEnd), s, 0);
      r.Some? && r.value.start <= m.start
  {
    SizeAtComplete(s, m, units, ignoreCase, wordEnd);
    MatchAtSize(s, m.start, units, ignoreCase, wordEnd);
  }

  /** What search finds is a size match. */
  lemma SizeSearchFinds(s: string, units: seq<Unit>, ignoreCase: bool, wordEnd: bool)
    requires Search(SizePattern(units, ignoreCase, wordEnd), s, 0).Some?
    ensures IsSizeMatch(s, Search(SizePattern(units, ignoreCase, wordEnd), s, 0).value, units, ignoreCase, wordEnd)
  {
    var m := Search(SizePattern(units, ignoreCase, wordEnd), s, 0).value;
    MatchAtSize(s, m.start, units, ignoreCase, wordEnd);
  }

  /** The greedy run of digits and dots ends at the spaces before the unit. */
  lemma DottedRunExact(s: string, i: nat, j: nat)
    requires i <= j <= |s|
    requires forall k :: i <= k < j ==> IsDigitOrDot(s[k])
    requires j == |s| || !IsDigitOrDot(s[j])
    ensures DottedRun(s, i) == j - i && i + DottedRun(s, i) == j
  {
  }

  /** Each field of a loose size match is determined by the text and its
      start. */
  lemma LooseParts(s: string, m: Span, ignoreCase: bool)
    requires LooseShaped(s, m, ignoreCase)
    ensures m.groupEnd == m.start + DottedRun(s, m.start)
    ensures m.unit == UnitAt(s, m.groupEnd + SpaceRun(s, m.groupEnd), WeightUnits, ignoreCase)
    ensures m.end == m.groupEnd + SpaceRun(s, m.groupEnd) + |UnitText(m.unit.value)|
  {
    var u := m.unit.value;
    var us := m.end - |UnitText(u)|;
    UnitStart(s, us, u, ignoreCase);
    if m.groupEnd < us {
      assert IsSpace(s[m.groupEnd]);
    }
    DottedRunExact(s, m.groupStart, m.groupEnd);
    SpaceRunExact(s, m.groupEnd, us);
    UnitAtUnique(s, us, WeightUnits, u, ignoreCase);
  }

  /** At most one loose size match starts at a position. */
  lemma LooseShapedUnique(s: string, m1: Span, m2: Span, ignoreCase: bool)
    requires LooseShaped(s, m1, ignoreCase) && LooseShaped(s, m2, ignoreCase)
    requires m1.start == m2.start
    ensures m1 == m2
  {
    LooseParts(s, m1, ignoreCase);
    LooseParts(s, m2, ignoreCase);
    SameUnit(s, m1, m2, WeightUnits, ignoreCase);
    SpanFields(m1, m2);
  }

  /** Once the run is read, a weight unit after the spaces completes the match. */
  lemma LooseAfterSome(s: string, i: nat, ge: nat, ignoreCase: bool)
    requires i < ge <= |s| && forall k :: i <= k < ge ==> IsDigitOrDot(s[k])
    requires UnitAt(s, ge + SpaceRun(s, ge), WeightUnits, ignoreCase).Some?
    ensures LooseAfterRun(s, i, ge, ignoreCase).Some?
  {
  }

  /** Every loose size match is the one the scanner returns at its start. */
  lemma LooseSizeAtComplete(s: string, m: Span, ignoreCase: bool)
    requires LooseShaped(s, m, ignoreCase)
    ensures m.start <= |s| && LooseSizeAt(s, m.start, ignoreCase) == Some(m)
  {
    LooseParts(s, m, ignoreCase);
    LooseAfterSome(s, m.start, m.groupEnd, ignoreCase);
    var r := LooseAfterRun(s, m.start, m.groupEnd, ignoreCase);
    LooseShapedUnique(s, r.value, m, ignoreCase);
    assert r == Some(m);
    LooseSizeAtIs(s, m, m.groupEnd, ignoreCase);
  }

  lemma LooseSizeAtIs(s: string, m: Span, ge: nat, ignoreCase: bool)
    requires m.start <= |s| && ge == m.start + DottedRun(s, m.start) && m.start < ge
    requires LooseAfterRun(s, m.start, ge, ignoreCase) == Some(m)
    ensures LooseSizeAt(s, m.start, ignoreCase) == Some(m)
  {
  }

  /** The loose size scanner returns exactly the loose size matches. */
  lemma LooseSizeAtExact(s: string, i: nat, m: Span, ignoreCase: bool)
    requires i <= |s|
    ensures LooseSizeAt(s, i, ignoreCase) == Some(m) <==> m.start == i && LooseShaped(s, m, ignoreCase)
  {
    if m.start == i && LooseShaped(s, m, ignoreCase) {
      LooseSizeAtComplete(s, m, ignoreCase);
    }
  }

  /** `m` is a loose size match and none starts before it. */
  ghost predicate LeftmostLoose(s: string, m: Span, ignoreCase: bool) {
    && LooseShaped(s, m, ignoreCase)
    && forall n :: LooseShaped(s, n, ignoreCase) ==> m.start <= n.start
  }

  /** The leftmost loose size match, described without the scanner. */
  lemma FirstLooseSize(s: string, ignoreCase: bool)
    ensures Search(LooseSizePattern(ignoreCase), s, 0).Some? <==> exists m :: LooseShaped(s, m, ignoreCase)
    ensures Search(LooseSizePattern(ignoreCase), s, 0).Some?
      ==> LeftmostLoose(s, Search(LooseSizePattern(ignoreCase), s, 0).value, ignoreCase)
  {
    var r := Search(LooseSizePattern(ignoreCase), s, 0);
    forall m | LooseShaped(s, m, ignoreCase)
      ensures r.Some? && r.value.start <= m.start
    {
      LooseSearchReaches(s, m, ignoreCase);
    }
    if r.Some? {
      LooseSearchFinds(s, ignoreCase);
    }
  }

  /** Search stops at or before every loose size match. */
  lemma LooseSearchReaches(s: string, m: Span, ignoreCase: bool)
    requires LooseShaped(s, m, ignoreCase)
    ensures var r := Search(LooseSizePattern(ignoreCase), s, 0);
      r.Some? && r.value.start <= m.start
  {
    LooseSizeAtComplete(s, m, ignoreCase);
    MatchAtLooseSize(s, m.start, ignoreCase);
  }

  /** What search finds is a loose size match. */
  lemma LooseSearchFinds(s: string, ignoreCase: bool)
    requires Search(LooseSizePattern(ignoreCase), s, 0).Some?
    ensures LooseShaped(s, Search(LooseSizePattern(ignoreCase), s, 0).value, ignoreCase)
  {
    var m := Search(LooseSizePattern(ignoreCase), s, 0).value;
    MatchAtLooseSize(s, m.start, ignoreCase);
  }

  /** Every way of cutting a pack token into its runs is the one the
      greedy scan makes. */
  lemma PackParts(s: string, i: nat, a: nat, x: nat, b: nat, c: nat, us: nat, u: Unit, units: seq<Unit>)
    requires PackSplit(s, i, a, x, b, c, us, u, units)
    ensures a == i + DigitRun(s, i) && x == a + SpaceRun(s, a)
    ensures b == x + 1 + SpaceRun(s, x + 1) && c == b + DigitRun(s, b) && us == c + SpaceRun(s, c)
    ensures UnitAt(s, us, units, false) == Some(u)
  {
    PackCountParts(s, i, a, x);
    PackSecondParts(s, x + 1, b, c, us, u, units);
  }

  lemma PackPartsIf(s: string, i: nat, a: nat, x: nat, b: nat, c: nat, us: nat, u: Unit, units: seq<Unit>)
    ensures PackSplit(s, i, a, x, b, c, us, u, units) ==>
      && a == i + DigitRun(s, i) && x == a + SpaceRun(s, a)
      && b == x + 1 + SpaceRun(s, x + 1) && c == b + DigitRun(s, b) && us == c + SpaceRun(s, c)
      && UnitAt(s, us, units, false) == Some(u)
  {
    if PackSplit(s, i, a, x, b, c, us, u, units) {
      PackParts(s, i, a, x, b, c, us, u, units);
    }
  }

  /** The first count and the spaces before the `x` are greedy runs. */
  lemma PackCountParts(s: string, i: nat, a: nat, x: nat)
    requires i < a <= x < |s| && DigitsBetween(s, i, a) && SpacesBetween(s, a, x) && s[x] == 'x'
    ensures a == i + DigitRun(s, i) && x == a + SpaceRun(s, a)
  {
    if a < x {
      assert IsSpace(s[a]);
    }
    DigitRunExact(s, i, a);
    SpaceRunExact(s, a, x);
  }

  /** After the `x`: the spaces, the second count and the spaces before the
      unit are greedy runs, and the unit is the one the alternation picks. */
  lemma PackSecondParts(s: string, y: nat, b: nat, c: nat, us: nat, u: Unit, units: seq<Unit>)
    requires y <= b < c <= us <= |s| && SpacesBetween(s, y, b) && DigitsBetween(s, b, c) && SpacesBetween(s, c, us)
    requires u in units && SpelledAt(s, us, u, false)
    ensures b == y + SpaceRun(s, y) && c == b + DigitRun(s, b) && us == c + SpaceRun(s, c)
    ensures UnitAt(s, us, units, false) == Some(u)
  {
    UnitStart(s, us, u, false);
    if c < us {
      assert IsSpace(s[c]);
    }
    assert IsDigit(s[b]);
    SpaceRunExact(s, y, b);
    DigitRunExact(s, b, c);
    SpaceRunExact(s, c, us);
    UnitAtUnique(s, us, units, u, false);
  }

  /** When the scanner finds no pack token at `i`, the text has none there. */
  lemma PackAtNone(s: string, i: nat, units: seq<Unit>)
    requires i <= |s| && PackAt(s, i, units).None?
    ensures forall a: nat, x: nat, b: nat, c: nat, us: nat, u: Unit :: !PackSplit(s, i, a, x, b, c, us, u, units)
  {
    var a := i + DigitRun(s, i);
    if a == i {
      NoSplitCount(s, i, units);
    } else {
      var x := a + SpaceRun(s, a);
      if x == |s| || s[x] != 'x' {
        NoSplitTimes(s, i, units);
      } else {
        var b := x + 1 + SpaceRun(s, x + 1);
        var c := b + DigitRun(s, b);
        if c == b {
          NoSplitSecond(s, i, units);
        } else {
          NoSplitUnit(s, i, units);
        }
      }
    }
  }

  /** The stop conditions of PackAt, phrased on its own let-bound positions. */
  lemma NoSplitTimes(s: string, i: nat, units: seq<Unit>)
    requires i <= |s|
    requires var a := i + DigitRun(s, i); var x := a + SpaceRun(s, a); x == |s| || s[x] != 'x'
    ensures forall a: nat, x: nat, b: nat, c: nat, us: nat, u: Unit :: !PackSplit(s, i, a, x, b, c, us, u, units)
  {
    var a := i + DigitRun(s, i);
    NoSplitTimesAt(s, i, a, a + SpaceRun(s, a), units);
  }

  lemma NoSplitSecond(s: string, i: nat, units: seq<Unit>)
    requires i <= |s|
    requires var a := i + DigitRun(s, i); var x := a + SpaceRun(s, a);
      x < |s| && var b := x + 1 + SpaceRun(s, x + 1); DigitRun(s, b) == 0
    ensures forall a: nat, x: nat, b: nat, c: nat, us: nat, u: Unit :: !PackSplit(s, i, a, x, b, c, us, u, units)
  {
    var a := i + DigitRun(s, i);
    var x := a + SpaceRun(s, a);
    NoSplitSecondAt(s, i, x + 1 + SpaceRun(s, x + 1), units);
  }

  lemma NoSplitUnit(s: string, i: nat, units: seq<Unit>)
    requires i <= |s|
    requires var a := i + DigitRun(s, i); var x := a + SpaceRun(s, a);
      x < |s| && var b := x + 1 + SpaceRun(s, x + 1); var c := b + DigitRun(s, b);
      UnitAt(s, c + SpaceRun(s, c), units, false).None?
    ensures forall a: nat, x: nat, b: nat, c: nat, us: nat, u: Unit :: !PackSplit(s, i, a, x, b, c, us, u, units)
  {
    var a := i + DigitRun(s, i);
    var x := a + SpaceRun(s, a);
    var b := x + 1 + SpaceRun(s, x + 1);
    var c := b + DigitRun(s, b);
    NoSplitUnitAt(s, i, b, c, c + SpaceRun(s, c), units);
  }



  /** Two splits of the text into a pack token at `i` end alike: together
      with PackAtNone and the ensures of PackAt, a pack token at `i` is
      exactly what the scanner returns. */
  /** A pack split at `i` is what PackAt returns. */
  lemma PackAtSplit(s: string, i: nat, a: nat, x: nat, b: nat, c: nat, us: nat, u: Unit, units: seq<Unit>)
    requires PackSplit(s, i, a, x, b, c, us, u, units)
    ensures PackAt(s, i, units) == Some(Span(i, i, i, i, Some(u), us + |UnitText(u)|))
  {
    PackAtFinds(s, i, a, x, b, c, us, u, units);
    SplitSpan(s, i, a, x, b, c, us, u, units, PackAt(s, i, units).value);
  }

  lemma SplitSpan(s: string, i: nat, a: nat, x: nat, b: nat, c: nat, us: nat, u: Unit, units: seq<Unit>, m: Span)
    requires PackSplit(s, i, a, x, b, c, us, u, units)
    requires exists a': nat, x': nat, b': nat, c': nat, us': nat, u': Unit ::
      PackSplit(s, i, a', x', b', c', us', u', units) && m == Span(i, i, i, i, Some(u'), us' + |UnitText(u')|)
    ensures m == Span(i, i, i, i, Some(u), us + |UnitText(u)|)
  {
    forall a': nat, x': nat, b': nat, c': nat, us': nat, u': Unit |
      PackSplit(s, i, a', x', b', c', us', u', units) && m == Span(i, i, i, i, Some(u'), us' + |UnitText(u')|)
      ensures m == Span(i, i, i, i, Some(u), us + |UnitText(u)|)
    {
      PackSplitUnique(s, i, a, x, b, c, us, u, a', x', b', c', us', u', units);
    }
  }

  lemma PackAtFinds(s: string, i: nat, a: nat, x: nat, b: nat, c: nat, us: nat, u: Unit, units: seq<Unit>)
    requires PackSplit(s, i, a, x, b, c, us, u, units)
    ensures PackAt(s, i, units).Some?
  {
    if PackAt(s, i, units).None? {
      PackAtNone(s, i, units);
    }
  }

  lemma PackSplitUnique(s: string, i: nat, a: nat, x: nat, b: nat, c: nat, us: nat, u: Unit,
                        a': nat, x': nat, b': nat, c': nat, us': nat, u': Unit, units: seq<Unit>)
    requires PackSplit(s, i, a, x, b, c, us, u, units)
    requires PackSplit(s, i, a', x', b', c', us', u', units)
    ensures a == a' && x == x' && b == b' && c == c' && us == us' && u == u'
  {
    PackParts(s, i, a, x, b, c, us, u, units);
    PackParts(s, i, a', x', b', c', us', u', units);
  }

  lemma PackSplitIntro(s: string, i: nat, a: nat, x: nat, b: nat, c: nat, us: nat, u: Unit, units: seq<Unit>)
    requires i <= |s| && a == i + DigitRun(s, i) && i < a
    requires x == a + SpaceRun(s, a) && x < |s| && s[x] == 'x'
    requires b == x + 1 + SpaceRun(s, x + 1) && c == b + DigitRun(s, b) && b < c
    requires us == c + SpaceRun(s, c) && UnitAt(s, us, units, false) == Some(u)
    ensures PackSplit(s, i, a, x, b, c, us, u, units)
  {
  }

  // ---------------------------------------------------------------------------
  // Product ids
  // ---------------------------------------------------------------------------

  /** `/(\d{6,})` anchored at `i`: a slash and the whole run of at least six
      digits after it. */
  function IdAt(s: string, i: nat): (r: Option<Span>)
    requires i <= |s|
    ensures r.Some? <==> i < |s| && s[i] == '/' && DigitRun(s, i + 1) >= 6
    ensures r.Some? ==> var m := r.value;
      && m.start == i && m.groupStart == i + 1 && m.groupEnd == m.end == m.intEnd
      && i + 1 <= m.groupEnd <= |s| && DigitsBetween(s, i + 1, m.groupEnd)
      && (m.groupEnd == |s| || !IsDigit(s[m.groupEnd]))
  {
    if i < |s| && s[i] == '/' && DigitRun(s, i + 1) >= 6 then
      var e := i + 1 + DigitRun(s, i + 1);
      Some(Span(i, i + 1, e, e, None, e))
    else None
  }

  // ---------------------------------------------------------------------------
  // Search and substitution
  // ---------------------------------------------------------------------------

  /** The match of `p` starting exactly at `i`, if any. */
  function MatchAt(p: Pattern, s: string, i: nat): (r: Option<Span>)
    requires i <= |s|
    ensures r.Some? ==> var m := r.value;
      i == m.start < m.end <= |s| && i <= m.groupStart <= m.intEnd <= m.groupEnd <= m.end
    ensures r.Some? && (p.PackPattern? || p.SizePattern?) ==> IsDigit(s[i])
  {
    match p
    case PricePattern => PriceAt(s, i)
    case TaggedPricePattern => TaggedPriceAt(s, i)
    case PackPattern(units) => PackAt(s, i, units)
    case SizePattern(units, ignoreCase, wordEnd) => SizeAt(s, i, units, ignoreCase, wordEnd)
    case LooseSizePattern(ignoreCase) => LooseSizeAt(s, i, ignoreCase)
    case IdPattern => IdAt(s, i)
  }

  lemma MatchAtPrice(s: string, i: nat)
    requires i <= |s|
    ensures MatchAt(PricePattern, s, i) == PriceAt(s, i)
  {
  }

  /** What a search for a price finds is a price match at its start. */
  lemma FoundPrice(s: string, q: Span)
    requires Search(PricePattern, s, 0) == Some(q)
    ensures q.start <= |s| && PriceAt(s, q.start) == Some(q)
  {
    MatchAtPrice(s, q.start);
  }

  lemma MatchAtTagged(s: string, i: nat)
    requires i <= |s|
    ensures MatchAt(TaggedPricePattern, s, i) == TaggedPriceAt(s, i)
  {
  }

  lemma MatchAtSize(s: string, i: nat, units: seq<Unit>, ignoreCase: bool, wordEnd: bool)
    requires i <= |s|
    ensures MatchAt(SizePattern(units, ignoreCase, wordEnd), s, i) == SizeAt(s, i, units, ignoreCase, wordEnd)
  {
  }

  lemma MatchAtLooseSize(s: string, i: nat, ignoreCase: bool)
    requires i <= |s|
    ensures MatchAt(LooseSizePattern(ignoreCase), s, i) == LooseSizeAt(s, i, ignoreCase)
  {
  }

  /** Each successful attempt starts where it was made and consumes at
      least one character of the text; the last entry is the attempt at the
      end of the text. */
  predicate Advancing(h: seq<Option<Span>>) {
    forall k :: 0 <= k < |h| && h[k].Some? ==> h[k].value.start == k < h[k].value.end < |h|
  }

  /** The match attempts of `p` at every position of `s`, end included. */
  function Attempts(p: Pattern, s: string): (h: seq<Option<Span>>)
    ensures |h| == |s| + 1 && Advancing(h)
    ensures forall k :: 0 <= k <= |s| ==> h[k] == MatchAt(p, s, k)
  {
    seq(|s| + 1, k requires 0 <= k <= |s| => MatchAt(p, s, k))
  }

  /** The first successful attempt at or after `i`, short of the end. */
  function FirstMatch(h: seq<Option<Span>>, i: nat): (r: Option<Span>)
    requires i < |h| && Advancing(h)
    ensures r.Some? ==> i <= r.value.start < |h| - 1 && h[r.value.start] == r
    ensures r.Some? ==> forall k :: i <= k < r.value.start ==> h[k].None?
    ensures r.None? ==> forall k :: i <= k < |h| - 1 ==> h[k].None?
    decreases |h| - i
  {
    if i == |h| - 1 then None
    else if h[i].Some? then h[i]
    else FirstMatch(h, i + 1)
  }

  /** `re.search` from position `i`: the leftmost match. */
  function Search(p: Pattern, s: string, i: nat): (r: Option<Span>)
    requires i <= |s|
    ensures r.Some? ==> i <= r.value.start < |s| && MatchAt(p, s, r.value.start) == r
    ensures r.Some? ==> forall k :: i <= k < r.value.start ==> MatchAt(p, s, k).None?
    ensures r.None? ==> forall k :: i <= k <= |s| ==> MatchAt(p, s, k).None?
  {
    var h := Attempts(p, s);
    assert h[|s|] == MatchAt(p, s, |s|);
    FirstMatch(h, i)
  }

  /** Deleting every successful attempt of `h` from `s[i..]`, scanning left to right. */
  function Delete(h: seq<Option<Span>>, s: string, i: nat): (r: string)
    requires |h| == |s| + 1 && Advancing(h) && i <= |s|
    ensures |r| <= |s| - i
    ensures forall c :: c in r ==> c in s
    decreases |s| - i
  {
    if i == |s| then []
    else if h[i].Some? then Delete(h, s, h[i].value.end)
    else [s[i]] + Delete(h, s, i + 1)
  }

  /** `re.sub(p, '', s[i..])`: every match, scanning left to right, deleted. */
  function RemoveAll(p: Pattern, s: string, i: nat): (r: string)
    requires i <= |s|
    ensures |r| <= |s| - i
    ensures forall c :: c in r ==> c in s
  {
    Delete(Attempts(p, s), s, i)
  }

  /** A match with none before it is what search finds. */
  lemma SearchIsFirst(p: Pattern, s: string, i: nat, m: Span)
    requires i <= |s| && MatchAt(p, s, i) == Some(m)
    requires forall k :: 0 <= k < i ==> MatchAt(p, s, k).None?
    ensures Search(p, s, 0) == Some(m)
  {
  }

  /** Nothing is left to substitute at the end of the text. */
  lemma RemoveAllAtEnd(p: Pattern, s: string)
    ensures RemoveAll(p, s, |s|) == []
  {
  }

  lemma MatchAtPack(s: string, i: nat, units: seq<Unit>)
    requires i <= |s|
    ensures MatchAt(PackPattern(units), s, i) == PackAt(s, i, units)
  {
  }

  /** Substitution is repeated search: the text before the leftmost match is
      kept, the match is dropped, and scanning resumes after it. */
  lemma RemoveAllLeftmost(p: Pattern, s: string, i: nat)
    requires i <= |s| && Search(p, s, i).Some?
    ensures var m := Search(p, s, i).value;
      RemoveAll(p, s, i) == s[i..m.start] + RemoveAll(p, s, m.end)
  {
    DeleteLeftmost(Attempts(p, s), s, i);
  }

  lemma {:induction false} DeleteLeftmost(h: seq<Option<Span>>, s: string, i: nat)
    requires |h| == |s| + 1 && Advancing(h) && i <= |s| && FirstMatch(h, i).Some?
    ensures var m := FirstMatch(h, i).value;
      m.end <= |s| && Delete(h, s, i) == s[i..m.start] + Delete(h, s, m.end)
    decreases |s| - i
  {
    var m := FirstMatch(h, i).value;
    if m.start == i {
      assert s[i..m.start] == [];
    } else {
      DeleteLeftmost(h, s, i + 1);
      ConsSlice(s, i, m.start, Delete(h, s, m.end));
    }
  }

  lemma ConsSlice(s: string, i: nat, j: nat, x: string)
    requires i < j <= |s|
    ensures [s[i]] + (s[i + 1..j] + x) == s[i..j] + x
  {
    assert s[i..j] == [s[i]] + s[i + 1..j];
  }

  /** Without a match, substitution copies the text. */
  lemma RemoveAllNoMatch(p: Pattern, s: string, i: nat)
    requires i <= |s| && Search(p, s, i).None?
    ensures RemoveAll(p, s, i) == s[i..]
  {
    DeleteNoMatch(Attempts(p, s), s, i);
  }

  lemma {:induction false} DeleteNoMatch(h: seq<Option<Span>>, s: string, i: nat)
    requires |h| == |s| + 1 && Advancing(h) && i <= |s| && FirstMatch(h, i).None?
    ensures Delete(h, s, i) == s[i..]
    decreases |s| - i
  {
    if i < |s| {
      DeleteNoMatch(h, s, i + 1);
      assert s[i..] == [s[i]] + s[i + 1..];
    }
  }

  /** A pattern that starts with a digit leaves digit-free text unchanged. */
  lemma RemoveAllNoDigit(p: Pattern, s: string)
    requires p.PackPattern? || p.SizePattern?
    requires NoDigit(s)
    ensures RemoveAll(p, s, 0) == s
  {
    RemoveAllNoMatch(p, s, 0);
    assert s[0..] == s;
  }

  /** The leftmost `R?\s*(\d+[.,]\d{2})` captures the leftmost `\d+[.,]\d{2}`:
      the optional tag and spaces cannot hide an earlier price. */
  lemma TaggedPriceFindsFirstPrice(s: string)
    ensures var t, q := Search(TaggedPricePattern, s, 0), Search(PricePattern, s, 0);
      && (t.Some? <==> q.Some?)
      && (t.Some? ==> t.value.groupStart == q.value.start && t.value.groupEnd == q.value.groupEnd
                      && t.value.intEnd == q.value.intEnd)
  {
    var t, q := Search(TaggedPricePattern, s, 0), Search(PricePattern, s, 0);
    if t.Some? {
      TaggedFound(s, t.value);
      MatchAtPrice(s, t.value.groupStart);
    }
    if q.Some? {
      var p := q.value.start;
      FoundPrice(s, q.value);
      MatchAtTagged(s, p);
      var m := t.value;
      TaggedFound(s, m);
      MatchAtPrice(s, m.groupStart);
      assert IsDigit(s[p]);
      assert p == m.groupStart;
    }
  }

  /** What a search for a tagged price finds is a tagged price at its start. */
  lemma TaggedFound(s: string, m: Span)
    requires Search(TaggedPricePattern, s, 0) == Some(m)
    ensures m.start <= |s| && TaggedPriceAt(s, m.start) == Some(m)
  {
    MatchAtTagged(s, m.start);
  }
}

=== FILE: scraper.dfy ===
/** The value derivations of `UniversalScraper` (scrapers/universal_scraper.py)
    once the browser work is done: the product template, the price read
    from the price element, the Shoprite and PicknPay detail fields with
    their unit-of-measure rules, the product id taken from the URL, and the
    price per kilogram or litre. Page texts, table cells and the clock are
    parameters. */
module Scraper {
  import opened Wrappers
  import opened Text
  import opened Regex

  /** A price per unit: the price text copied for items sold each, or the
      computed price per kilogram or litre (printed with two decimals by
      the source). */
  datatype PerUnit = CopiedPrice(text: string) | PerUnitValue(value: real)

  /** The product record the scraper fills in. */
  datatype ScrapedProduct = ScrapedProduct(
    productId: Option<string>,
    barcode: Option<string>,
    productName: Option<string>,
    description: Option<string>,
    brand: Option<string>,
    price: Option<string>,
    sizeWeightVolume: Option<string>,
    unitOfMeasure: Option<string>,
    pricePerUnit: Option<PerUnit>,
    width: Option<string>,
    height: Option<string>,
    depth: Option<string>,
    length: Option<string>,
    grossWeight: Option<string>,
    netWeight: Option<string>,
    category: string,
    productUrl: Option<string>,
    retailer: string,
    scrapeDate: string)

  const FrozenFoods := "Frozen Foods"

  /** `create_product_template`: everything unset except the category, the
      scraper's retailer name and the scrape time (given as text). */
  function ProductTemplate(retailer: string, scrapeDate: string): (p: ScrapedProduct)
    ensures p.category == FrozenFoods && p.retailer == retailer && p.scrapeDate == scrapeDate
    ensures p.productId.None? && p.barcode.None? && p.productName.None? && p.description.None?
    ensures p.brand.None? && p.price.None? && p.sizeWeightVolume.None? && p.unitOfMeasure.None?
    ensures p.pricePerUnit.None? && p.width.None? && p.height.None? && p.depth.None?
    ensures p.length.None? && p.grossWeight.None? && p.netWeight.None? && p.productUrl.None?
  {
    ScrapedProduct(None, None, None, None, None, None, None, None, None,
                   None, None, None, None, None, None, FrozenFoods, None, retailer, scrapeDate)
  }

  /** Python truth of an optional string. */
  predicate Truthy(s: Option<string>) {
    s.Some? && s.value != []
  }

  // ---------------------------------------------------------------------------
  // Price
  // ---------------------------------------------------------------------------

  /** `extract_price` on the text of the price element: group 1 of the
      leftmost `R?\s*(\d+[.,]\d{2})` with its comma made a dot. */
  function ExtractPrice(priceText: Option<string>): (r: Option<string>)
    ensures !Truthy(priceText) ==> r.None?
    ensures Truthy(priceText) ==> (r.Some? <==> Search(PricePattern, priceText.value, 0).Some?)
    ensures r.Some? ==> var s := priceText.value; var q := Search(PricePattern, s, 0).value;
      r.value == PriceText(s, q)
  {
    if !Truthy(priceText) then None
    else
      var s := priceText.value;
      var m := Search(TaggedPricePattern, s, 0);
      TaggedPriceFindsFirstPrice(s);
      if m.None? then None
      else
        var q := Search(PricePattern, s, 0).value;
        assert s[m.value.groupStart..m.value.groupEnd] == s[q.groupStart..q.groupEnd];
        Some(ReplaceChar(s[m.value.groupStart..m.value.groupEnd], ',', '.'))
  }

  /** An extracted price is digits, a dot and exactly two digits, and
      `float()` reads it as the value of the leftmost price in the text. */
  lemma ExtractedPriceShape(priceText: Option<string>)
    requires ExtractPrice(priceText).Some?
    ensures DecimalShaped(ExtractPrice(priceText).value)
    ensures var s := priceText.value; var q := Search(PricePattern, s, 0).value;
      ParseFloat(ExtractPrice(priceText).value) == Some(PriceValue(s, q))
  {
    var s := priceText.value;
    var q := Search(PricePattern, s, 0).value;
    FoundPrice(s, q);
    PriceFacts(s, q, ExtractPrice(priceText).value);
  }

  /** Digits, a dot and exactly two digits. */
  predicate DecimalShaped(t: string) {
    && |t| >= 4 && AllDigits(t[..|t| - 3])
    && t[|t| - 3] == '.' && IsDigit(t[|t| - 2]) && IsDigit(t[|t| - 1])
  }

  /** The shape and the value of the text of one price match. */
  lemma PriceFacts(s: string, q: Span, t: string)
    requires q.start <= |s| && PriceAt(s, q.start) == Some(q) && t == PriceText(s, q)
    ensures DecimalShaped(t)
    ensures ParseFloat(t) == Some(PriceValue(s, q))
  {
    PriceTextShape(s, q);
    PriceTextReads(s, q);
  }

  // ---------------------------------------------------------------------------
  // Sizes and units
  // ---------------------------------------------------------------------------

  /** A size match: group 1 (the number) and group 2 (the unit as written). */
  datatype SizeMatch = SizeMatch(number: string, token: string, unit: Unit)

  /** The span facts shared by both size patterns: a non-empty number
      group, then the unit token ending the match. */
  predicate UnitSpan(s: string, x: Span, ignoreCase: bool) {
    && x.unit.Some? && x.unit.value in WeightUnits
    && x.groupStart < x.groupEnd <= x.end - |UnitText(x.unit.value)| && x.end <= |s|
    && SpelledAt(s, x.end - |UnitText(x.unit.value)|, x.unit.value, ignoreCase)
  }

  /** Group 1 and group 2 of a size match. */
  function Groups(s: string, x: Span, ignoreCase: bool): (m: SizeMatch)
    requires UnitSpan(s, x, ignoreCase)
    ensures m.number != [] && m.unit in WeightUnits && |m.token| == |UnitText(m.unit)|
    ensures forall k :: 0 <= k < |m.token| ==> Fold(m.token[k], ignoreCase) == UnitText(m.unit)[k]
  {
    var w := UnitText(x.unit.value);
    var e := x.end - |w|;
    TokenFolds(s, e, x.end, x.unit.value, ignoreCase);
    SizeMatch(s[x.groupStart..x.groupEnd], s[e..x.end], x.unit.value)
  }

  /** The text a case-folded word matched. */
  lemma TokenFolds(s: string, e: nat, end: nat, u: Unit, ignoreCase: bool)
    requires SpelledAt(s, e, u, ignoreCase) && end == e + |UnitText(u)|
    ensures |s[e..end]| == |UnitText(u)|
    ensures forall k :: 0 <= k < |UnitText(u)| ==> Fold(s[e..end][k], ignoreCase) == UnitText(u)[k]
  {
    SpelledAtText(s, e, u, ignoreCase);
  }

  /** `re.search(r'([\d.]+)\s*(kg|g|l|ml)', s, flags)`. */
  function LooseSize(s: string, ignoreCase: bool): (r: Option<SizeMatch>)
    ensures r.Some? <==> Search(LooseSizePattern(ignoreCase), s, 0).Some?
    ensures r.Some? ==> r.value.number != [] && forall c :: c in r.value.number ==> IsDigitOrDot(c)
    ensures r.Some? ==> r.value.unit in WeightUnits && |r.value.token| == |UnitText(r.value.unit)|
    ensures r.Some? ==> forall k :: 0 <= k < |r.value.token| ==> Fold(r.value.token[k], ignoreCase) == UnitText(r.value.unit)[k]
  {
    var m := Search(LooseSizePattern(ignoreCase), s, 0);
    if m.None? then None
    else
      LooseSizeFound(s, ignoreCase);
      Some(Groups(s, m.value, ignoreCase))
  }

  /** The leftmost loose size match has a unit, and its number is made of
      digits and dots. */
  lemma LooseSizeFound(s: string, ignoreCase: bool)
    requires Search(LooseSizePattern(ignoreCase), s, 0).Some?
    ensures var x := Search(LooseSizePattern(ignoreCase), s, 0).value;
      UnitSpan(s, x, ignoreCase) && forall c :: c in Groups(s, x, ignoreCase).number ==> IsDigitOrDot(c)
  {
    var x := Search(LooseSizePattern(ignoreCase), s, 0).value;
    MatchAtLooseSize(s, x.start, ignoreCase);
    LooseSpan(s, x.start, ignoreCase);
    DottedNumber(s, x, ignoreCase);
  }

  lemma LooseSpan(s: string, i: nat, ignoreCase: bool)
    requires i <= |s| && LooseSizeAt(s, i, ignoreCase).Some?
    ensures var x := LooseSizeAt(s, i, ignoreCase).value;
      UnitSpan(s, x, ignoreCase) && forall k :: x.groupStart <= k < x.groupEnd ==> IsDigitOrDot(s[k])
  {
  }

  lemma DottedNumber(s: string, x: Span, ignoreCase: bool)
    requires UnitSpan(s, x, ignoreCase)
    requires forall k :: x.groupStart <= k < x.groupEnd ==> IsDigitOrDot(s[k])
    ensures forall c :: c in Groups(s, x, ignoreCase).number ==> IsDigitOrDot(c)
  {
    var n := Groups(s, x, ignoreCase).number;
    forall c | c in n
      ensures IsDigitOrDot(c)
    {
      var k :| 0 <= k < |n| && n[k] == c;
      assert s[x.groupStart + k] == c;
    }
  }

  /** The loose size search, described without the scanner: a size is
      found exactly when the text has a run of digits and dots, spaces and
      a weight unit somewhere, and what is found are the groups of the
      leftmost such run. */
  lemma LooseSizeFirst(s: string, ignoreCase: bool)
    ensures LooseSize(s, ignoreCase).Some? <==> exists m :: LooseShaped(s, m, ignoreCase)
    ensures LooseSize(s, ignoreCase).Some? ==>
      exists m :: LeftmostLoose(s, m, ignoreCase) && UnitSpan(s, m, ignoreCase)
        && LooseSize(s, ignoreCase).value == Groups(s, m, ignoreCase)
  {
    FirstLooseSize(s, ignoreCase);
    if LooseSize(s, ignoreCase).Some? {
      LooseSizeFound(s, ignoreCase);
    }
  }

  /** At most one loose size match is leftmost. */
  lemma LeftmostLooseUnique(s: string, m: Span, n: Span, ignoreCase: bool)
    requires LeftmostLoose(s, m, ignoreCase) && LeftmostLoose(s, n, ignoreCase)
    ensures m == n
  {
    LooseSizeAtExact(s, m.start, m, ignoreCase);
    LooseSizeAtExact(s, m.start, n, ignoreCase);
  }

  /** `re.search(r'(\d+(?:\.\d+)?)\s*(kg|g|l|ml)\b', name, re.IGNORECASE)`. */
  function NameSize(s: string): (r: Option<SizeMatch>)
    ensures r.Some? <==> Search(SizePattern(WeightUnits, true, true), s, 0).Some?
    ensures r.Some? ==> r.value.number != [] && IsDigit(r.value.number[0])
    ensures r.Some? ==> r.value.unit in WeightUnits && |r.value.token| == |UnitText(r.value.unit)|
    ensures r.Some? ==> forall k :: 0 <= k < |r.value.token| ==> LowerChar(r.value.token[k]) == UnitText(r.value.unit)[k]
  {
    var m := Search(SizePattern(WeightUnits, true, true), s, 0);
    if m.None? then None
    else
      NameSizeFound(s);
      Some(Groups(s, m.value, true))
  }

  /** The leftmost size match in a name has a unit and starts with a digit. */
  lemma NameSizeFound(s: string)
    requires Search(SizePattern(WeightUnits, true, true), s, 0).Some?
    ensures var x := Search(SizePattern(WeightUnits, true, true), s, 0).value;
      UnitSpan(s, x, true) && IsDigit(Groups(s, x, true).number[0])
  {
    var x := Search(SizePattern(WeightUnits, true, true), s, 0).value;
    MatchAtSize(s, x.start, WeightUnits, true, true);
    NameSpan(s, x.start);
    assert Groups(s, x, true).number[0] == s[x.groupStart];
  }

  lemma NameSpan(s: string, i: nat)
    requires i <= |s| && SizeAt(s, i, WeightUnits, true, true).Some?
    ensures var x := SizeAt(s, i, WeightUnits, true, true).value;
      UnitSpan(s, x, true) && x.groupStart < |s| && IsDigit(s[x.groupStart])
  {
    var x := SizeAt(s, i, WeightUnits, true, true).value;
    assert SizeShaped(s, x, WeightUnits, true);
    assert NumeralSpan(s, x);
  }

  /** The name size search, described without the scanner: a size is found
      exactly when the name has a numeral, spaces and a weight unit ending at
      a word boundary, in any case, and what is found are the groups of the
      leftmost such size. */
  lemma NameSizeFirst(s: string)
    ensures NameSize(s).Some? <==> exists m :: IsSizeMatch(s, m, WeightUnits, true, true)
    ensures NameSize(s).Some? ==>
      exists m :: LeftmostSize(s, m, WeightUnits, true, true) && UnitSpan(s, m, true)
        && NameSize(s).value == Groups(s, m, true)
  {
    FirstSize(s, WeightUnits, true, true);
    if NameSize(s).Some? {
      NameSizeFound(s);
    }
  }

  /** Shoprite's unit of measure for a weight token: `kg` or `g` give
      `kg`, `l` or `ml` give `L`. */
  function ShopriteUnit(u: Unit): (r: string)
    requires u in WeightUnits
    ensures r == "kg" <==> u == Kg || u == G
    ensures r == "L" <==> u == L || u == Ml
  {
    if u == Kg || u == G then "kg" else "L"
  }

  /** PicknPay's rule, on the token as written in the name: exactly `kg`
      and `g` give `kg`, exactly `L` and `ml` give `L`; any other spelling
      leaves the current unit. */
  function PicknPayUnit(token: string, current: Option<string>): (r: Option<string>)
    ensures token in ["kg", "g"] ==> r == Some("kg")
    ensures token in ["L", "ml"] ==> r == Some("L")
    ensures token !in ["kg", "g", "L", "ml"] ==> r == current
  {
    if token in ["kg", "g"] then Some("kg")
    else if token in ["L", "ml"] then Some("L")
    else current
  }

  /** The two rules agree on the lower-case tokens except `l`, which
      Shoprite maps to `L` and PicknPay ignores; an upper-case `KG` is
      ignored by PicknPay too. */
  lemma UnitRulesDiffer(current: Option<string>)
    ensures forall u :: u in [Kg, G, Ml] ==> PicknPayUnit(UnitText(u), current) == Some(ShopriteUnit(u))
    ensures PicknPayUnit(UnitText(L), current) == current && ShopriteUnit(L) == "L"
    ensures PicknPayUnit("KG", current) == current && PicknPayUnit("L", current) == Some("L")
  {
    assert "l" !in ["kg", "g", "L", "ml"];
    assert "KG" !in ["kg", "g", "L", "ml"];
  }

  // ---------------------------------------------------------------------------
  // Retailer detail pages
  // ---------------------------------------------------------------------------

  /** `d.get(key, default)`. */
  function GetOr(d: map<string, string>, key: string, default: string): (r: string)
    ensures key in d ==> r == d[key]
    ensures key !in d ==> r == default
  {
    if key in d then d[key] else default
  }

  /** `d.get(key, current)` for a field that may be unset. */
  function GetField(d: map<string, string>, key: string, current: Option<string>): (r: Option<string>)
    ensures key in d ==> r == Some(d[key])
    ensures key !in d ==> r == current
  {
    if key in d then Some(d[key]) else current
  }

  /** A value that is set only when non-empty. */
  function SetIfPresent(v: string, current: Option<string>): (r: Option<string>)
    ensures v != [] ==> r == Some(v)
    ensures v == [] ==> r == current
  {
    if v != [] then Some(v) else current
  }

  /** The weight fields Shoprite derives from a non-empty weight text: the
      size is the text itself; when the lower-cased text holds a number
      and a unit, the net weight is `"<number> <unit>"` and the unit of
      measure follows the unit. */
  function ShopriteWeight(w: string, p: ScrapedProduct): (r: ScrapedProduct)
    requires w != []
    ensures r.sizeWeightVolume == Some(w)
    ensures LooseSize(Lower(w), false).None? ==> r == p.(sizeWeightVolume := Some(w))
    ensures LooseSize(Lower(w), false).Some? ==> var m := LooseSize(Lower(w), false).value;
      && r == p.(sizeWeightVolume := Some(w), netWeight := Some(m.number + " " + UnitText(m.unit)),
                 unitOfMeasure := Some(ShopriteUnit(m.unit)))
  {
    var m := LooseSize(Lower(w), false);
    if m.None? then p.(sizeWeightVolume := Some(w))
    else
      assert m.value.token == UnitText(m.value.unit);
      p.(sizeWeightVolume := Some(w), netWeight := Some(m.value.number + " " + m.value.token),
         unitOfMeasure := Some(ShopriteUnit(m.value.unit)))
  }

  /** Shoprite's unit does not depend on how the weight text is cased. */
  lemma ShopriteWeightIgnoresCase(w: string, p: ScrapedProduct)
    requires w != []
    ensures ShopriteWeight(w, p).unitOfMeasure == ShopriteWeight(Lower(w), p).unitOfMeasure
    ensures ShopriteWeight(w, p).netWeight == ShopriteWeight(Lower(w), p).netWeight
  {
    LowerIdempotent(w);
  }

  /** `r` still describes the same listing as `p`: page, name, category,
      retailer and scrape date are untouched. */
  predicate SameSource(p: ScrapedProduct, r: ScrapedProduct) {
    && r.productUrl == p.productUrl && r.productName == p.productName
    && r.category == p.category && r.retailer == p.retailer && r.scrapeDate == p.scrapeDate
  }

  /** The table has a non-empty value under `key`. */
  predicate Filled(table: map<string, string>, key: string) {
    key in table && table[key] != []
  }

  /** `table.get(k1, '') or table.get(k2, '')`. */
  function EitherOf(table: map<string, string>, k1: string, k2: string): (r: string)
    ensures Filled(table, k1) ==> r == table[k1]
    ensures !Filled(table, k1) ==> r == GetOr(table, k2, "")
  {
    var v := GetOr(table, k1, "");
    if v != [] then v else GetOr(table, k2, "")
  }

  /** A dimension line is copied only when its value is non-empty. */
  predicate CopiedIfFilled(table: map<string, string>, key: string, before: Option<string>, after: Option<string>) {
    && (Filled(table, key) ==> after == Some(table[key]))
    && (!Filled(table, key) ==> after == before)
  }

  /** The dimension lines of the Shoprite table: width, height and gross
      weight when present, and depth (or else length) written to both depth
      and length. */
  function ShopriteDimensions(table: map<string, string>, p: ScrapedProduct): (r: ScrapedProduct)
    ensures CopiedIfFilled(table, "Product Width (mm)", p.width, r.width)
    ensures CopiedIfFilled(table, "Product Height (mm)", p.height, r.height)
    ensures CopiedIfFilled(table, "Product Gross Weight (g)", p.grossWeight, r.grossWeight)
    ensures var d := EitherOf(table, "Product Depth (mm)", "Product Length (mm)");
      && (d != [] ==> r.depth == Some(d) && r.length == Some(d))
      && (d == [] ==> r.depth == p.depth && r.length == p.length)
    ensures r.brand == p.brand && r.barcode == p.barcode && r.unitOfMeasure == p.unitOfMeasure
    ensures r.sizeWeightVolume == p.sizeWeightVolume && r.netWeight == p.netWeight
    ensures r.description == p.description && r.price == p.price && r.productId == p.productId
    ensures r.pricePerUnit == p.pricePerUnit && SameSource(p, r)
  {
    var d := EitherOf(table, "Product Depth (mm)", "Product Length (mm)");
    p.(width := SetIfPresent(GetOr(table, "Product Width (mm)", ""), p.width),
       height := SetIfPresent(GetOr(table, "Product Height (mm)", ""), p.height),
       depth := SetIfPresent(d, p.depth),
       length := SetIfPresent(d, p.length),
       grossWeight := SetIfPresent(GetOr(table, "Product Gross Weight (g)", ""), p.grossWeight))
  }

  /** The Shoprite information table applied to the product (lines read as
      label/value pairs; an empty table changes nothing). The unit of
      measure is the table's, unless the weight (or else volume) line holds
      a number and a unit, which then decide it. */
  function ShopriteTable(table: map<string, string>, p: ScrapedProduct): (r: ScrapedProduct)
    ensures |table| == 0 ==> r == p
    ensures |table| > 0 ==> r.brand == GetField(table, "Product Brand", p.brand)
    ensures |table| > 0 ==> r.barcode == GetField(table, "Main Barcode", p.barcode)
    ensures |table| > 0 ==> var w := EitherOf(table, "Product Weight", "Product Volume");
      var u := GetField(table, "Unit of Measure", p.unitOfMeasure);
      && (w == [] ==> r.sizeWeightVolume == p.sizeWeightVolume && r.netWeight == p.netWeight && r.unitOfMeasure == u)
      && (w != [] ==> r.sizeWeightVolume == Some(w))
      && (w != [] && LooseSize(Lower(w), false).None? ==> r.netWeight == p.netWeight && r.unitOfMeasure == u)
      && (w != [] && LooseSize(Lower(w), false).Some? ==> var m := LooseSize(Lower(w), false).value;
            r.netWeight == Some(m.number + " " + UnitText(m.unit)) && r.unitOfMeasure == Some(ShopriteUnit(m.unit)))
    ensures |table| > 0 ==>
      && CopiedIfFilled(table, "Product Width (mm)", p.width, r.width)
      && CopiedIfFilled(table, "Product Height (mm)", p.height, r.height)
      && CopiedIfFilled(table, "Product Gross Weight (g)", p.grossWeight, r.grossWeight)
    ensures |table| > 0 ==> var d := EitherOf(table, "Product Depth (mm)", "Product Length (mm)");
      && (d != [] ==> r.depth == Some(d) && r.length == Some(d))
      && (d == [] ==> r.depth == p.depth && r.length == p.length)
    ensures r.description == p.description && r.price == p.price && r.productId == p.productId
    ensures r.pricePerUnit == p.pricePerUnit && SameSource(p, r)
  {
    if |table| == 0 then p
    else
      var p1 := p.(brand := GetField(table, "Product Brand", p.brand),
                   barcode := GetField(table, "Main Barcode", p.barcode),
                   unitOfMeasure := GetField(table, "Unit of Measure", p.unitOfMeasure));
      var w := EitherOf(table, "Product Weight", "Product Volume");
      var p2 := if w != [] then ShopriteWeight(w, p1) else p1;
      ShopriteDimensions(table, p2)
  }

  /** The size fields PicknPay derives from a non-empty product name: with
      a size token, the size is number and unit run together and the net
      weight has a space between them (both as written); without one, the
      unit of measure becomes `EA`. */
  function PicknPayName(name: string, p: ScrapedProduct): (r: ScrapedProduct)
    ensures NameSize(name).None? ==> r == p.(unitOfMeasure := Some("EA"))
    ensures NameSize(name).Some? ==> var m := NameSize(name).value;
      && r.sizeWeightVolume == Some(m.number + m.token)
      && r.netWeight == Some(m.number + " " + m.token)
      && r.unitOfMeasure == PicknPayUnit(m.token, p.unitOfMeasure)
      && r == p.(sizeWeightVolume := r.sizeWeightVolume, netWeight := r.netWeight, unitOfMeasure := r.unitOfMeasure)
  {
    var m := NameSize(name);
    if m.None? then p.(unitOfMeasure := Some("EA"))
    else
      p.(sizeWeightVolume := Some(m.value.number + m.value.token),
         netWeight := Some(m.value.number + " " + m.value.token),
         unitOfMeasure := PicknPayUnit(m.value.token, p.unitOfMeasure))
  }

  /** A PicknPay unit of measure is `kg`, `L`, `EA` or the one it had. */
  lemma PicknPayUnitKinds(name: string, p: ScrapedProduct)
    ensures PicknPayName(name, p).unitOfMeasure in {Some("kg"), Some("L"), Some("EA"), p.unitOfMeasure}
  {
  }

  /** The PicknPay detail sections applied to the product (an empty set of
      sections changes nothing). */
  function PicknPayInfo(info: map<string, string>, p: ScrapedProduct): (r: ScrapedProduct)
    ensures |info| == 0 ==> r == p
    ensures |info| > 0 ==> r.barcode == SetIfPresent(GetOr(info, "Barcode", ""), p.barcode)
    ensures |info| > 0 && Truthy(p.description) ==> r.description == p.description
    ensures |info| > 0 && !Truthy(p.productName) ==> r.unitOfMeasure == p.unitOfMeasure
    ensures |info| > 0 && Truthy(p.productName) && NameSize(p.productName.value).None? ==> r.unitOfMeasure == Some("EA")
    ensures |info| > 0 && GetOr(info, "Description", "") != [] && !Truthy(p.description) ==>
      r.description == Some(GetOr(info, "Description", ""))
    ensures GetOr(info, "Description", "") == [] ==> r.description == p.description
    ensures |info| > 0 && Truthy(p.productName) && NameSize(p.productName.value).Some? ==>
      var m := NameSize(p.productName.value).value;
      && r.sizeWeightVolume == Some(m.number + m.token)
      && r.netWeight == Some(m.number + " " + m.token)
      && r.unitOfMeasure == PicknPayUnit(m.token, p.unitOfMeasure)
    ensures !Truthy(p.productName) || NameSize(p.productName.value).None? ==>
      r.sizeWeightVolume == p.sizeWeightVolume && r.netWeight == p.netWeight
    ensures r == p.(barcode := r.barcode, description := r.description, sizeWeightVolume := r.sizeWeightVolume,
                    netWeight := r.netWeight, unitOfMeasure := r.unitOfMeasure)
    ensures r.brand == p.brand && r.price == p.price && SameSource(p, r)
  {
    if |info| == 0 then p
    else
      var p1 := p.(barcode := SetIfPresent(GetOr(info, "Barcode", ""), p.barcode));
      var d := GetOr(info, "Description", "");
      var p2 := if d != [] && !Truthy(p1.description) then p1.(description := Some(d)) else p1;
      if Truthy(p2.productName) then PicknPayName(p2.productName.value, p2) else p2
  }

  // ---------------------------------------------------------------------------
  // Product id and price per unit
  // ---------------------------------------------------------------------------

  /** A `/` followed by at least six digits starts at `i`. */
  predicate IdStartsAt(url: string, i: nat) {
    i < |url| && url[i] == '/' && DigitRun(url, i + 1) >= 6
  }

  /** The leftmost `/` followed by six or more digits starts at `i`. */
  predicate FirstIdAt(url: string, i: nat) {
    IdStartsAt(url, i) && forall k :: 0 <= k < i ==> !IdStartsAt(url, k)
  }

  lemma IdSearch(url: string)
    ensures Search(IdPattern, url, 0).Some? <==> exists i :: IdStartsAt(url, i)
    ensures Search(IdPattern, url, 0).Some? ==> var x := Search(IdPattern, url, 0).value;
      FirstIdAt(url, x.start) && x.groupStart == x.start + 1 && x.groupEnd == x.start + 1 + DigitRun(url, x.start + 1)
  {
    assert forall i :: IdStartsAt(url, i) ==> MatchAt(IdPattern, url, i).Some?;
    var m := Search(IdPattern, url, 0);
    forall i | IdStartsAt(url, i)
      ensures m.Some?
    {
      assert MatchAt(IdPattern, url, i).Some?;
    }
    if m.Some? {
      assert IdAt(url, m.value.start) == m;
      assert IdStartsAt(url, m.value.start);
    }
  }

  /** `re.search(r'/(\d{6,})', url).group(1)`: the whole digit run after the
      first `/` that is followed by six or more digits. */
  function ProductId(url: string): (r: Option<string>)
    ensures r.Some? <==> exists i :: IdStartsAt(url, i)
    ensures r.Some? ==> exists i: nat :: FirstIdAt(url, i) && r.value == IdDigits(url, i)
    ensures r.Some? ==> |r.value| >= 6 && AllDigits(r.value)
  {
    var m := Search(IdPattern, url, 0);
    IdSearch(url);
    if m.None? then None else Some(IdDigits(url, m.value.start))
  }

  /** The whole digit run after the slash of an id at `i`. */
  function IdDigits(url: string, i: nat): (id: string)
    requires IdStartsAt(url, i)
    ensures |id| >= 6 && AllDigits(id)
    ensures id == url[i + 1..i + 1 + DigitRun(url, i + 1)]
  {
    var id := url[i + 1..i + 1 + DigitRun(url, i + 1)];
    assert AllDigits(id) by {
      forall k | 0 <= k < |id|
        ensures IsDigit(id[k])
      {
        assert id[k] == url[i + 1 + k];
      }
    }
    id
  }

  /** The number of kilograms or litres in a size match: grams and
      millilitres are divided by 1000. */
  function Normalized(amount: real, u: Unit): real {
    if u == G || u == Ml then amount / 1000.0 else amount
  }

  /** The amount of a size text in kilograms or litres: its first
      number-and-unit, read by `float()`. */
  function SizeAmount(size: string): (r: Option<real>)
    ensures r.Some? <==> LooseSize(size, true).Some? && ParseFloat(LooseSize(size, true).value.number).Some?
    ensures r.Some? ==> var m := LooseSize(size, true).value;
      r.value == Normalized(ParseFloat(m.number).value, m.unit)
  {
    var m := LooseSize(size, true);
    if m.None? then None
    else
      var amount := ParseFloat(m.value.number);
      if amount.None? then None else Some(Normalized(amount.value, m.value.unit))
  }

  /** The amount of a size text, described without the scanner: it exists
      exactly when the leftmost run of digits and dots followed by a weight
      unit, in any case, has a number `float()` reads, and it is that number
      in kilograms or litres. */
  lemma SizeAmountFirst(size: string, m: Span)
    requires LeftmostLoose(size, m, true)
    ensures UnitSpan(size, m, true)
    ensures var g := Groups(size, m, true);
      SizeAmount(size) == if ParseFloat(g.number).Some? then Some(Normalized(ParseFloat(g.number).value, g.unit)) else None
  {
    LooseSizeFirst(size, true);
    var n :| LeftmostLoose(size, n, true) && UnitSpan(size, n, true) && LooseSize(size, true).value == Groups(size, n, true);
    LeftmostLooseUnique(size, m, n, true);
  }

  /** Without a loose size match the size text has no amount. */
  lemma SizeAmountNone(size: string)
    requires forall m :: !LooseShaped(size, m, true)
    ensures SizeAmount(size).None?
  {
    LooseSizeFirst(size, true);
  }

  /** Exact division by a positive amount. */
  function Divide(a: real, b: real): (q: real)
    requires b > 0.0
    ensures q * b == a
    ensures a >= 0.0 ==> q >= 0.0
  {
    a / b
  }

  /** The price per unit the scraper records, given the price text, the
      unit of measure and the size text: the price itself for `EA`;
      otherwise the price over the amount in kilograms or litres, when
      the size holds a number and a unit, both texts read as numbers
      (`ValueError` leaves it unset) and that amount is positive. */
  function PerUnitRate(price: Option<string>, unit: Option<string>, size: Option<string>): (r: Option<PerUnit>)
    ensures !Truthy(price) ==> r.None?
    ensures Truthy(price) && unit == Some("EA") ==> r == Some(CopiedPrice(price.value))
    ensures r.Some? && r.value.PerUnitValue? ==>
      && unit != Some("EA") && Truthy(size) && Truthy(price)
      && SizeAmount(size.value).Some? && SizeAmount(size.value).value > 0.0
      && ParseFloat(price.value).Some?
      && r.value.value == Divide(ParseFloat(price.value).value, SizeAmount(size.value).value)
    ensures r.Some? && r.value.CopiedPrice? ==> unit == Some("EA")
    ensures unit != Some("EA") && (!Truthy(size) || SizeAmount(size.value).None? || SizeAmount(size.value).value <= 0.0)
      ==> r.None?
    ensures Truthy(price) && unit != Some("EA") && Truthy(size) && SizeAmount(size.value).Some? && SizeAmount(size.value).value > 0.0
      ==> (r.Some? <==> ParseFloat(price.value).Some?)
  {
    if !Truthy(price) then None
    else if unit == Some("EA") then Some(CopiedPrice(price.value))
    else if !Truthy(size) then None
    else
      var n := SizeAmount(size.value);
      if n.None? || n.value <= 0.0 then None
      else
        var pr := ParseFloat(price.value);
        if pr.None? then None else Some(PerUnitValue(Divide(pr.value, n.value)))
  }

  /** A non-negative price yields a non-negative price per unit once the
      size has a positive amount. */
  lemma RateNonNegative(price: Option<string>, unit: Option<string>, size: Option<string>)
    requires Truthy(price) && ParseFloat(price.value).Some? && ParseFloat(price.value).value >= 0.0
    requires unit != Some("EA") && Truthy(size)
    requires SizeAmount(size.value).Some? && SizeAmount(size.value).value > 0.0
    ensures var r := PerUnitRate(price, unit, size);
      r.Some? && r.value.PerUnitValue? && r.value.value >= 0.0
  {
    var q := Divide(ParseFloat(price.value).value, SizeAmount(size.value).value);
    assert PerUnitRate(price, unit, size) == Some(PerUnitValue(q));
  }

  /** A price read from the page is always readable and non-negative. */
  lemma ExtractedPriceReads(priceText: Option<string>)
    requires ExtractPrice(priceText).Some?
    ensures Truthy(ExtractPrice(priceText))
    ensures ParseFloat(ExtractPrice(priceText).value).Some? && ParseFloat(ExtractPrice(priceText).value).value >= 0.0
  {
    ExtractedPriceShape(priceText);
  }

  /** So a price read from the page always yields a non-negative price per
      unit once the size has a positive amount. */
  lemma PerUnitRateSet(priceText: Option<string>, unit: Option<string>, size: Option<string>)
    requires ExtractPrice(priceText).Some? && unit != Some("EA") && Truthy(size)
    requires SizeAmount(size.value).Some? && SizeAmount(size.value).value > 0.0
    ensures var r := PerUnitRate(ExtractPrice(priceText), unit, size);
      r.Some? && r.value.PerUnitValue? && r.value.value >= 0.0
  {
    ExtractedPriceReads(priceText);
    RateNonNegative(ExtractPrice(priceText), unit, size);
  }

  // ---------------------------------------------------------------------------
  // One detail page
  // ---------------------------------------------------------------------------

  /** What the detail page yields once fetched: the texts the selectors
      find, the Shoprite information table (absent when the page has
      none), the PicknPay sections, and the generic brand, size and
      barcode texts. */
  datatype Page = Page(
    name: Option<string>,
    description: Option<string>,
    table: Option<map<string, string>>,
    sections: map<string, string>,
    brand: Option<string>,
    size: Option<string>,
    barcode: Option<string>,
    priceText: Option<string>)

  /** The outcome of `extract_product_details` after navigation: a
      product, or the empty record Shoprite returns when its table is
      missing. */
  datatype Details = Product(product: ScrapedProduct) | EmptyRecord

  /** The retailer-specific part of `extract_product_details`: Shoprite's
      information table, PicknPay's sections, or the generic brand, size
      and barcode. */
  function RetailerFields(retailer: string, page: Page, p: ScrapedProduct): (r: ScrapedProduct)
    requires retailer == "Shoprite" ==> page.table.Some?
    ensures SameSource(p, r)
    ensures retailer != "Shoprite" && retailer != "PicknPay" ==>
      r == p.(brand := page.brand, sizeWeightVolume := page.size, barcode := page.barcode)
  {
    if retailer == "Shoprite" then ShopriteTable(page.table.value, p)
    else if retailer == "PicknPay" then PicknPayInfo(page.sections, p)
    else p.(brand := page.brand, sizeWeightVolume := page.size, barcode := page.barcode)
  }

  /** `extract_product_details` from the parsed page on. */
  function ExtractDetails(retailer: string, scrapeDate: string, url: string, page: Page): (d: Details)
    ensures d.EmptyRecord? <==> retailer == "Shoprite" && page.table.None?
    ensures d.Product? ==> var p := d.product;
      && p.category == FrozenFoods && p.retailer == retailer && p.scrapeDate == scrapeDate
      && p.productUrl == Some(url) && p.productName == page.name
      && p.price == ExtractPrice(page.priceText)
      && p.productId == ProductId(url)
      && p.pricePerUnit == PerUnitRate(p.price, p.unitOfMeasure, p.sizeWeightVolume)
  {
    if retailer == "Shoprite" && page.table.None? then EmptyRecord
    else
      var p0 := ProductTemplate(retailer, scrapeDate).(productUrl := Some(url), productName := page.name,
                                                       description := page.description);
      var p1 := RetailerFields(retailer, page, p0);
      var p2 := p1.(price := ExtractPrice(page.priceText), productId := ProductId(url));
      Product(p2.(pricePerUnit := PerUnitRate(p2.price, p2.unitOfMeasure, p2.sizeWeightVolume)))
  }

  /** For an item sold each, the price per unit is the price itself. */
  lemma EachPricedAsIs(retailer: string, scrapeDate: string, url: string, page: Page)
    requires ExtractDetails(retailer, scrapeDate, url, page).Product?
    requires var p := ExtractDetails(retailer, scrapeDate, url, page).product;
      p.unitOfMeasure == Some("EA") && p.price.Some?
    ensures var p := ExtractDetails(retailer, scrapeDate, url, page).product;
      p.pricePerUnit == Some(CopiedPrice(p.price.value))
  {
    var p := ExtractDetails(retailer, scrapeDate, url, page).product;
    ExtractedPriceShape(page.priceText);
    assert Truthy(p.price);
  }
}

=== FILE: seqs.dfy ===
/** Order-preserving de-duplication, as `Series.unique()` performs it. */
module Seqs {

  /** Position of the first occurrence of `x` in `xs`. */
  function IndexOf<T(==)>(xs: seq<T>, x: T): (i: nat)
    requires x in xs
    ensures i < |xs| && xs[i] == x
    ensures forall j :: 0 <= j < i ==> xs[j] != x
  {
    if xs[0] == x then 0 else 1 + IndexOf(xs[1..], x)
  }

  /** No element occurs twice. */
  predicate Distinct<T(==)>(xs: seq<T>) {
    forall i, j :: 0 <= i < j < |xs| ==> xs[i] != xs[j]
  }

  /** First occurrences of the elements of a prefix keep their position. */
  lemma {:induction false} IndexOfPrefix<T>(xs: seq<T>, n: nat, x: T)
    requires n <= |xs| && x in xs[..n]
    ensures IndexOf(xs, x) == IndexOf(xs[..n], x)
  {
    if xs[0] != x {
      assert xs[1..][..n - 1] == xs[..n][1..];
      IndexOfPrefix(xs[1..], n - 1, x);
    }
  }

  /** The distinct elements of `xs` in order of first appearance. */
  function Unique<T(==, !new)>(xs: seq<T>): (r: seq<T>)
    ensures forall x :: x in r <==> x in xs
    ensures Distinct(r)
    ensures xs != [] ==> r != [] && r[0] == xs[0]
    ensures forall i, j :: 0 <= i < j < |r| ==> IndexOf(xs, r[i]) < IndexOf(xs, r[j])
  {
    if xs == [] then []
    else
      var n := |xs| - 1;
      var u := Unique(xs[..n]);
      assert xs == xs[..n] + [xs[n]];
      if xs[n] in u then u
      else
        AppendOrder(xs, u);
        u + [xs[n]]
  }

  /** Appending the last element, when new, keeps first-appearance order. */
  lemma AppendOrder<T>(xs: seq<T>, u: seq<T>)
    requires xs != [] && xs[|xs| - 1] !in xs[..|xs| - 1]
    requires forall i :: 0 <= i < |u| ==> u[i] in xs[..|xs| - 1] && u[i] in xs
    requires forall i, j :: 0 <= i < j < |u| ==> IndexOf(xs[..|xs| - 1], u[i]) < IndexOf(xs[..|xs| - 1], u[j])
    ensures var r := u + [xs[|xs| - 1]];
      forall i, j :: 0 <= i < j < |r| ==> r[i] in xs && r[j] in xs && IndexOf(xs, r[i]) < IndexOf(xs, r[j])
  {
    var n := |xs| - 1;
    var r := u + [xs[n]];
    forall i, j | 0 <= i < j < |r|
      ensures r[i] in xs && r[j] in xs && IndexOf(xs, r[i]) < IndexOf(xs, r[j])
    {
      assert r[i] == u[i];
      IndexOfPrefix(xs, n, r[i]);
      if j < |u| {
        assert r[j] == u[j];
        IndexOfPrefix(xs, n, r[j]);
      } else {
        assert xs[..n] + [xs[n]] == xs;
        LastIndex(xs);
      }
    }
  }

  /** A last element that occurs nowhere before is first found at the end. */
  lemma LastIndex<T>(xs: seq<T>)
    requires xs != [] && xs[|xs| - 1] !in xs[..|xs| - 1]
    ensures IndexOf(xs, xs[|xs| - 1]) == |xs| - 1
  {
    forall k | 0 <= k < |xs| - 1
      ensures xs[k] != xs[|xs| - 1]
    {
      assert xs[..|xs| - 1][k] == xs[k];
    }
  }

  /** Dropping the head of a duplicate-free sequence leaves exactly the other elements. */
  lemma DistinctTail<T>(u: seq<T>)
    requires u != [] && Distinct(u)
    ensures Distinct(u[1..]) && u[0] !in u[1..]
    ensures forall x :: x in u && x != u[0] ==> x in u[1..]
  {
    forall k | 0 <= k < |u[1..]|
      ensures u[1..][k] != u[0]
    {
      assert u[1..][k] == u[k + 1];
    }
    forall x | x in u && x != u[0]
      ensures x in u[1..]
    {
      var k :| 0 <= k < |u| && u[k] == x;
      assert u[1..][k - 1] == x;
    }
  }

  predicate Increasing(idx: seq<nat>) {
    forall a, b :: 0 <= a < b < |idx| ==> idx[a] < idx[b]
  }

  /** The positions at or after `from` where `flags` holds, in increasing order. */
  function Positions(flags: seq<bool>, from: nat): (idx: seq<nat>)
    requires from <= |flags|
    ensures |idx| <= |flags| - from && Increasing(idx)
    ensures forall k :: 0 <= k < |idx| ==> from <= idx[k] < |flags| && flags[idx[k]]
    ensures forall i :: from <= i < |flags| && flags[i] ==> i in idx
    decreases |flags| - from
  {
    if from == |flags| then []
    else
      var rest := Positions(flags, from + 1);
      if flags[from] then [from] + rest else rest
  }
}

=== FILE: table.dfy ===
/** The comparison table and its statistics
    (`DataProcessor.create_comparison_table` and `_print_statistics` in
    process_data.py): the matched groups sorted by product name, then per
    retailer price column the number of prices and, when there is one, the
    mean, minimum and maximum. */
module Table {
  import opened Wrappers
  import opened Seqs
  import opened Text
  import opened Normalizer
  import opened Matcher

  /** Rows in ascending `product_name` order (Python string order). */
  predicate NameSorted(gs: seq<Group>) {
    forall i, j :: 0 <= i < j < |gs| ==> LexLe(gs[i].productName, gs[j].productName)
  }

  /** One group put in its place among sorted rows. */
  function InsertByName(g: Group, s: seq<Group>): (r: seq<Group>)
    requires NameSorted(s)
    ensures NameSorted(r)
    ensures multiset(r) == multiset(s) + multiset{g}
  {
    if s == [] then [g]
    else if LexLe(g.productName, s[0].productName) then
      InsertFront(g, s);
      [g] + s
    else
      SortedTail(s);
      var rest := InsertByName(g, s[1..]);
      InsertBehind(g, s, rest);
      [s[0]] + rest
  }

  lemma InsertFront(g: Group, s: seq<Group>)
    requires NameSorted(s) && s != [] && LexLe(g.productName, s[0].productName)
    ensures NameSorted([g] + s) && multiset([g] + s) == multiset(s) + multiset{g}
  {
    SortedBelowHead(g, s);
    ConsSorted(g, s);
  }

  lemma InsertBehind(g: Group, s: seq<Group>, rest: seq<Group>)
    requires NameSorted(s) && s != [] && !LexLe(g.productName, s[0].productName)
    requires NameSorted(rest) && multiset(rest) == multiset(s[1..]) + multiset{g}
    ensures NameSorted([s[0]] + rest) && multiset([s[0]] + rest) == multiset(s) + multiset{g}
  {
    SortedTail(s);
    LexLeTotal(g.productName, s[0].productName);
    SortedBelowHead(s[0], s[1..]);
    BoundKept(s[0], g, s[1..], rest);
    ConsSorted(s[0], rest);
    assert s == [s[0]] + s[1..];
  }

  lemma SortedTail(s: seq<Group>)
    requires s != [] && NameSorted(s)
    ensures NameSorted(s[1..])
    ensures forall y :: y in s[1..] ==> LexLe(s[0].productName, y.productName)
  {
    forall i, j | 0 <= i < j < |s| - 1
      ensures LexLe(s[1..][i].productName, s[1..][j].productName)
    {
      assert s[1..][i] == s[i + 1] && s[1..][j] == s[j + 1];
    }
  }

  /** A name no greater than the head of a sorted sequence is no greater
      than any of its elements. */
  lemma SortedBelowHead(g: Group, s: seq<Group>)
    requires NameSorted(s)
    requires s != [] ==> LexLe(g.productName, s[0].productName)
    ensures forall y :: y in s ==> LexLe(g.productName, y.productName)
  {
    forall y | y in s
      ensures LexLe(g.productName, y.productName)
    {
      var j :| 0 <= j < |s| && s[j] == y;
      if j > 0 {
        LexLeTransitive(g.productName, s[0].productName, s[j].productName);
      }
    }
  }

  /** A lower bound of `s` and `g` bounds any rearrangement of them. */
  lemma BoundKept(x: Group, g: Group, s: seq<Group>, rest: seq<Group>)
    requires multiset(rest) == multiset(s) + multiset{g}
    requires LexLe(x.productName, g.productName)
    requires forall y :: y in s ==> LexLe(x.productName, y.productName)
    ensures forall y :: y in rest ==> LexLe(x.productName, y.productName)
  {
    forall y | y in rest
      ensures LexLe(x.productName, y.productName)
    {
      assert y in multiset(rest);
      if y != g {
        assert y in multiset(s);
      }
    }
  }

  /** A lower bound of a sorted sequence can be put in front of it. */
  lemma ConsSorted(x: Group, rest: seq<Group>)
    requires NameSorted(rest)
    requires forall y :: y in rest ==> LexLe(x.productName, y.productName)
    ensures NameSorted([x] + rest)
  {
    var r := [x] + rest;
    forall i, j | 0 <= i < j < |r|
      ensures LexLe(r[i].productName, r[j].productName)
    {
      assert r[j] == rest[j - 1];
      if i > 0 {
        assert r[i] == rest[i - 1];
      }
    }
  }

  /** `comparison_df.sort_values('product_name')`: the same rows, sorted.
      Rows with equal names may come out in any order in the source, so
      only sortedness and the permutation are promised. */
  function SortByName(gs: seq<Group>): (r: seq<Group>)
    ensures NameSorted(r)
    ensures multiset(r) == multiset(gs)
  {
    if gs == [] then []
    else
      assert gs == [gs[0]] + gs[1..];
      InsertByName(gs[0], SortByName(gs[1..]))
  }

  /** A row's cell in the `<retailer>_price` column when it holds a number;
      a group without that retailer, or with a `None`/`NaN` price, gives
      a missing value. */
  function PriceIn(g: Group, retailer: string): (p: Option<real>)
    ensures p.Some? <==> exists e ::
      e in g.entries && e.retailer == retailer && e.price.Number? && EntryFor(g.entries, retailer) == Some(e)
  {
    var e := EntryFor(g.entries, retailer);
    if e.Some? && e.value.price.Number? then Some(e.value.price.value) else None
  }

  /** Running count, sum, minimum and maximum of the numbers in a column;
      `lo` and `hi` mean something only once `count > 0`. */
  datatype Tally = Tally(count: nat, sum: real, lo: real, hi: real)

  function Min(a: real, b: real): real {
    if a <= b then a else b
  }

  function Max(a: real, b: real): real {
    if a >= b then a else b
  }

  /** One more cell taken into the tally. */
  function Push(p: Option<real>, t: Tally): Tally {
    if p.None? then t
    else if t.count == 0 then Tally(1, p.value, p.value, p.value)
    else Tally(t.count + 1, t.sum + p.value, Min(p.value, t.lo), Max(p.value, t.hi))
  }

  /** One retailer's price column, row by row. */
  function Column(gs: seq<Group>, retailer: string): (c: seq<Option<real>>)
    ensures |c| == |gs| && forall i :: 0 <= i < |gs| ==> c[i] == PriceIn(gs[i], retailer)
  {
    if gs == [] then [] else [PriceIn(gs[0], retailer)] + Column(gs[1..], retailer)
  }

  /** The tally of a column (`pd.to_numeric(...).dropna()`). */
  function TallyOf(xs: seq<Option<real>>): (t: Tally)
    ensures t.count <= |xs|
  {
    if xs == [] then Tally(0, 0.0, 0.0, 0.0) else Push(xs[0], TallyOf(xs[1..]))
  }

  /** The count is zero exactly when the column holds no number. */
  lemma {:induction false} TallyEmpty(xs: seq<Option<real>>)
    ensures TallyOf(xs).count == 0 <==> forall i :: 0 <= i < |xs| ==> xs[i].None?
  {
    if xs != [] {
      TallyEmpty(xs[1..]);
      assert forall i :: 1 <= i < |xs| ==> xs[i] == xs[1..][i - 1];
    }
  }

  /** The count equals the number of rows exactly when every row holds a
      number. */
  lemma {:induction false} TallyFull(xs: seq<Option<real>>)
    ensures TallyOf(xs).count == |xs| <==> forall i :: 0 <= i < |xs| ==> xs[i].Some?
  {
    if xs != [] {
      TallyFull(xs[1..]);
      assert forall i :: 1 <= i < |xs| ==> xs[i] == xs[1..][i - 1];
    }
  }

  /** The minimum and maximum bound every number of the column. */
  lemma {:induction false} TallyBounds(xs: seq<Option<real>>)
    ensures var t := TallyOf(xs);
      t.count > 0 ==> forall i :: 0 <= i < |xs| && xs[i].Some? ==> t.lo <= xs[i].value <= t.hi
  {
    if xs != [] {
      TallyBounds(xs[1..]);
      TallyEmpty(xs[1..]);
      assert forall i :: 1 <= i < |xs| ==> xs[i] == xs[1..][i - 1];
    }
  }

  /** The minimum and maximum are numbers of the column. */
  lemma {:induction false} TallyAttained(xs: seq<Option<real>>)
    ensures var t := TallyOf(xs);
      t.count > 0 ==> Some(t.lo) in xs && Some(t.hi) in xs
  {
    if xs != [] {
      TallyAttained(xs[1..]);
      assert forall x :: x in xs[1..] ==> x in xs;
    }
  }

  lemma MulMono(a: real, b: real, n: real)
    requires a <= b && n >= 0.0
    ensures a * n <= b * n
  {
  }

  /** The sum lies between `count` times the minimum and `count` times the
      maximum. */
  predicate SumBetween(t: Tally) {
    t.count > 0 ==> t.lo * (t.count as real) <= t.sum <= t.hi * (t.count as real)
  }

  lemma ScaleStep(lo: real, lo2: real, x: real, n: real, sum: real)
    requires lo2 <= lo && lo2 <= x && n >= 0.0 && lo * n <= sum
    ensures lo2 * (n + 1.0) <= sum + x
  {
    MulMono(lo2, lo, n);
    assert lo2 * (n + 1.0) == lo2 * n + lo2;
  }

  lemma ScaleStepUp(hi: real, hi2: real, x: real, n: real, sum: real)
    requires hi <= hi2 && x <= hi2 && n >= 0.0 && sum <= hi * n
    ensures sum + x <= hi2 * (n + 1.0)
  {
    MulMono(hi, hi2, n);
    assert hi2 * (n + 1.0) == hi2 * n + hi2;
  }

  lemma PushSumBetween(p: Option<real>, t: Tally)
    requires SumBetween(t)
    ensures SumBetween(Push(p, t))
  {
    if p.Some? && t.count > 0 {
      var n := t.count as real;
      ScaleStep(t.lo, Min(p.value, t.lo), p.value, n, t.sum);
      ScaleStepUp(t.hi, Max(p.value, t.hi), p.value, n, t.sum);
      assert (t.count + 1) as real == n + 1.0;
    }
  }

  lemma {:induction false} TallySum(xs: seq<Option<real>>)
    ensures SumBetween(TallyOf(xs))
  {
    if xs != [] {
      TallySum(xs[1..]);
      PushSumBetween(xs[0], TallyOf(xs[1..]));
    }
  }

  lemma DivBetween(lo: real, hi: real, sum: real, n: real)
    requires n > 0.0 && lo * n <= sum <= hi * n
    ensures lo <= sum / n <= hi
  {
    assert (sum / n) * n == sum;
    if sum / n < lo {
      MulMono(sum / n, lo, n);
    }
    if sum / n > hi {
      MulMono(hi, sum / n, n);
    }
  }

  lemma PushCommutes(a: Option<real>, b: Option<real>, t: Tally)
    ensures Push(a, Push(b, t)) == Push(b, Push(a, t))
  {
  }

  /** The tally does not depend on where a row is inserted. */
  lemma {:induction false} TallyInsert(g: Group, s: seq<Group>, retailer: string)
    requires NameSorted(s)
    ensures TallyOf(Column(InsertByName(g, s), retailer)) == TallyOf(Column([g] + s, retailer))
  {
    if s != [] && !LexLe(g.productName, s[0].productName) {
      var rest := InsertByName(g, s[1..]);
      TallyInsert(g, s[1..], retailer);
      assert ([s[0]] + rest)[1..] == rest;
      assert ([g] + s[1..])[1..] == s[1..];
      assert ([g] + s)[1..] == s;
      var c := Column(s[1..], retailer);
      assert Column([g] + s[1..], retailer)[1..] == c;
      assert Column(s, retailer)[1..] == c;
      assert Column([s[0]] + rest, retailer)[1..] == Column(rest, retailer);
      assert Column([g] + s, retailer)[1..] == Column(s, retailer);
      PushCommutes(PriceIn(s[0], retailer), PriceIn(g, retailer), TallyOf(c));
    }
  }

  /** Sorting leaves every column's count, sum, minimum and maximum as they
      were. */
  lemma {:induction false} TallySort(gs: seq<Group>, retailer: string)
    ensures TallyOf(Column(SortByName(gs), retailer)) == TallyOf(Column(gs, retailer))
  {
    if gs != [] {
      TallySort(gs[1..], retailer);
      var sorted := SortByName(gs[1..]);
      TallyInsert(gs[0], sorted, retailer);
      assert ([gs[0]] + sorted)[1..] == sorted;
      assert Column([gs[0]] + sorted, retailer)[1..] == Column(sorted, retailer);
      assert Column(gs, retailer)[1..] == Column(gs[1..], retailer);
    }
  }

  /** `dropna()`: the numbers of a column, in row order. */
  function Numbers(xs: seq<Option<real>>): (ns: seq<real>)
    ensures |ns| <= |xs|
    ensures forall x :: x in ns <==> Some(x) in xs
  {
    if xs == [] then []
    else
      var rest := Numbers(xs[1..]);
      assert forall x :: x in xs <==> x == xs[0] || x in xs[1..];
      if xs[0].Some? then [xs[0].value] + rest else rest
  }

  /** `sum()` of a sequence of numbers. */
  function SumOf(ns: seq<real>): real {
    if ns == [] then 0.0 else ns[0] + SumOf(ns[1..])
  }

  /** The tally counts and adds up exactly the numbers `dropna()` keeps. */
  lemma {:induction false} TallyNumbers(xs: seq<Option<real>>)
    ensures TallyOf(xs).count == |Numbers(xs)|
    ensures TallyOf(xs).sum == SumOf(Numbers(xs))
  {
    if xs != [] {
      TallyNumbers(xs[1..]);
      if xs[0].Some? {
        assert ([xs[0].value] + Numbers(xs[1..]))[1..] == Numbers(xs[1..]);
      }
    }
  }

  /** `comparison_df[col].notna().sum()`: the number of prices in the
      retailer's column. */
  function Count(gs: seq<Group>, retailer: string): (n: nat)
    ensures n == |Numbers(Column(gs, retailer))|
    ensures n <= |gs|
    ensures n == 0 <==> forall i :: 0 <= i < |gs| ==> PriceIn(gs[i], retailer).None?
    ensures n == |gs| <==> forall i :: 0 <= i < |gs| ==> PriceIn(gs[i], retailer).Some?
  {
    var c := Column(gs, retailer);
    TallyEmpty(c);
    TallyFull(c);
    TallyNumbers(c);
    TallyOf(c).count
  }

  /** The printed average, minimum and maximum of one price column. */
  datatype Summary = Summary(mean: real, min: real, max: real)

  function Mean(t: Tally): real
    requires t.count > 0
  {
    t.sum / (t.count as real)
  }

  /** The average is the sum of the numbers over their count. */
  lemma MeanOfNumbers(xs: seq<Option<real>>)
    requires TallyOf(xs).count > 0
    ensures |Numbers(xs)| > 0
    ensures Mean(TallyOf(xs)) == SumOf(Numbers(xs)) / (|Numbers(xs)| as real)
  {
    TallyNumbers(xs);
  }

  /** The average lies between the minimum and the maximum. */
  lemma MeanBetween(xs: seq<Option<real>>)
    requires TallyOf(xs).count > 0
    ensures TallyOf(xs).lo <= Mean(TallyOf(xs)) <= TallyOf(xs).hi
  {
    TallySum(xs);
    MeanWithin(TallyOf(xs));
  }

  lemma MeanWithin(t: Tally)
    requires t.count > 0 && SumBetween(t)
    ensures t.lo <= Mean(t) <= t.hi
  {
    DivBetween(t.lo, t.hi, t.sum, t.count as real);
  }

  /** The statistics of a column, present only when it holds at least one
      number (`if len(prices) > 0`). */
  function Summarize(xs: seq<Option<real>>): (s: Option<Summary>)
    ensures s.Some? <==> exists i :: 0 <= i < |xs| && xs[i].Some?
    ensures s.Some? ==> s.value.min <= s.value.mean <= s.value.max
    ensures s.Some? ==> Some(s.value.min) in xs && Some(s.value.max) in xs
    ensures s.Some? ==> forall i :: 0 <= i < |xs| && xs[i].Some? ==> s.value.min <= xs[i].value <= s.value.max
    ensures s.Some? ==> |Numbers(xs)| > 0 && s.value.mean == SumOf(Numbers(xs)) / (|Numbers(xs)| as real)
  {
    var t := TallyOf(xs);
    TallyEmpty(xs);
    if t.count == 0 then None
    else
      TallyBounds(xs);
      TallyAttained(xs);
      MeanBetween(xs);
      MeanOfNumbers(xs);
      Some(Summary(Mean(t), t.lo, t.hi))
  }

  /** One retailer's price statistics over the table. */
  function Stats(gs: seq<Group>, retailer: string): (s: Option<Summary>)
    ensures s.Some? <==> exists i :: 0 <= i < |gs| && PriceIn(gs[i], retailer).Some?
    ensures s.Some? ==> s.value.min <= s.value.mean <= s.value.max
    ensures s.Some? ==> Count(gs, retailer) > 0 && s.value.mean == SumOf(Numbers(Column(gs, retailer))) / (Count(gs, retailer) as real)
  {
    var c := Column(gs, retailer);
    assert Count(gs, retailer) == |Numbers(c)|;
    Summarize(c)
  }

  /** Sorting the table changes neither the counts nor the statistics. */
  lemma SortKeepsStatistics(gs: seq<Group>, retailer: string)
    ensures Count(SortByName(gs), retailer) == Count(gs, retailer)
    ensures Stats(SortByName(gs), retailer) == Stats(gs, retailer)
  {
    TallySort(gs, retailer);
  }

  /** The retailers of every entry, group after group. */
  function EntryRetailers(gs: seq<Group>): (r: seq<string>)
    ensures forall x :: x in r <==> exists g, e :: g in gs && e in g.entries && e.retailer == x
  {
    if gs == [] then []
    else
      var head := seq(|gs[0].entries|, j requires 0 <= j < |gs[0].entries| => gs[0].entries[j].retailer);
      var rest := EntryRetailers(gs[1..]);
      assert forall g :: g in gs <==> g == gs[0] || g in gs[1..];
      assert forall x :: x in head <==> exists e :: e in gs[0].entries && e.retailer == x by {
        forall x | x in head
          ensures exists e :: e in gs[0].entries && e.retailer == x
        {
          var j :| 0 <= j < |head| && head[j] == x;
          assert gs[0].entries[j] in gs[0].entries;
        }
        forall x, e | e in gs[0].entries && e.retailer == x
          ensures x in head
        {
          var j :| 0 <= j < |gs[0].entries| && gs[0].entries[j] == e;
          assert head[j] == x;
        }
      }
      head + rest
  }

  /** The number of entries in all groups. */
  function EntryCount(gs: seq<Group>): nat {
    if gs == [] then 0 else |gs[0].entries| + EntryCount(gs[1..])
  }

  /** The number of entries in the groups before group `i`. */
  function Offset(gs: seq<Group>, i: nat): nat
    requires i <= |gs|
  {
    if i == 0 then 0 else |gs[0].entries| + Offset(gs[1..], i - 1)
  }

  /** The retailer of entry `j` of group `i` sits after the entries of the
      groups before it: the retailers are listed group by group, in entry
      order. */
  lemma {:induction false} EntryRetailersOrder(gs: seq<Group>)
    ensures |EntryRetailers(gs)| == EntryCount(gs)
    ensures forall i :: 0 <= i < |gs| ==> Offset(gs, i) + |gs[i].entries| <= EntryCount(gs)
    ensures forall i, j :: 0 <= i < |gs| && 0 <= j < |gs[i].entries| ==>
      EntryRetailers(gs)[Offset(gs, i) + j] == gs[i].entries[j].retailer
  {
    EntryRetailersLength(gs);
    forall i | 0 <= i < |gs| {
      OffsetBound(gs, i);
    }
    forall i, j | 0 <= i < |gs| && 0 <= j < |gs[i].entries| {
      EntryRetailerAt(gs, i, j);
    }
  }

  lemma {:induction false} OffsetBound(gs: seq<Group>, i: nat)
    requires i < |gs|
    ensures Offset(gs, i) + |gs[i].entries| <= EntryCount(gs)
  {
    if i > 0 {
      OffsetBound(gs[1..], i - 1);
    }
  }

  lemma {:induction false} EntryRetailersLength(gs: seq<Group>)
    ensures |EntryRetailers(gs)| == EntryCount(gs)
  {
    if gs != [] {
      EntryRetailersLength(gs[1..]);
    }
  }

  lemma {:induction false} EntryRetailerAt(gs: seq<Group>, i: nat, j: nat)
    requires i < |gs| && j < |gs[i].entries|
    ensures Offset(gs, i) + j < |EntryRetailers(gs)|
    ensures EntryRetailers(gs)[Offset(gs, i) + j] == gs[i].entries[j].retailer
    decreases i
  {
    var n := |gs[0].entries|;
    var head := seq(n, k requires 0 <= k < n => gs[0].entries[k].retailer);
    var rest := EntryRetailers(gs[1..]);
    assert EntryRetailers(gs) == head + rest;
    if i == 0 {
      assert (head + rest)[j] == head[j];
    } else {
      EntryRetailerAt(gs[1..], i - 1, j);
      var c := Offset(gs[1..], i - 1);
      assert gs[1..][i - 1] == gs[i] && Offset(gs, i) == n + c;
      assert (head + rest)[n + c + j] == rest[c + j];
    }
  }

  /** The retailers with a `<retailer>_price` column, in column order:
      `pd.DataFrame` lays out the union of the groups' keys in order of
      first appearance. */
  function PriceColumns(gs: seq<Group>): (cols: seq<string>)
    ensures Distinct(cols)
    ensures forall x :: x in cols <==> exists g, e :: g in gs && e in g.entries && e.retailer == x
    ensures forall i, j :: 0 <= i < j < |cols| ==>
      cols[i] in EntryRetailers(gs) && cols[j] in EntryRetailers(gs) &&
      IndexOf(EntryRetailers(gs), cols[i]) < IndexOf(EntryRetailers(gs), cols[j])
  {
    Unique(EntryRetailers(gs))
  }

  /** `s.replace(p, '')`: every non-overlapping occurrence of `p`, scanning
      left to right, removed. */
  function RemoveLiteral(s: string, p: string): (r: string)
    requires p != []
    ensures |r| <= |s|
    ensures forall c :: c in r ==> c in s
  {
    if s == [] then []
    else if |p| <= |s| && s[..|p|] == p then RemoveLiteral(s[|p|..], p)
    else
      var rest := RemoveLiteral(s[1..], p);
      assert forall c :: c in rest ==> c in s[1..];
      [s[0]] + rest
  }

  const PriceSuffix := "_price"

  /** The label printed for a price column:
      `col.replace('_price', '')` on `<retailer>_price`. */
  function Label(retailer: string): (r: string)
    ensures '_' !in retailer ==> r == retailer
  {
    if '_' !in retailer then
      RemoveLiteralSuffix(retailer, PriceSuffix);
      RemoveLiteral(retailer + PriceSuffix, PriceSuffix)
    else RemoveLiteral(retailer + PriceSuffix, PriceSuffix)
  }

  /** Removing `p` from `s + p` gives `s` back when `p`'s first character
      does not occur in `s`. */
  lemma {:induction false} RemoveLiteralSuffix(s: string, p: string)
    requires p != [] && p[0] !in s
    ensures RemoveLiteral(s + p, p) == s
  {
    if s == [] {
      assert (s + p)[..|p|] == p;
      assert (s + p)[|p|..] == [];
    } else {
      assert (s + p)[0] == s[0] != p[0];
      assert (s + p)[1..] == s[1..] + p;
      RemoveLiteralSuffix(s[1..], p);
      assert s == [s[0]] + s[1..];
    }
  }

  /** A retailer name without an underscore is printed as itself. */
  lemma LabelPlain(retailer: string)
    requires '_' !in retailer
    ensures Label(retailer) == retailer
  {
    RemoveLiteralSuffix(retailer, PriceSuffix);
  }

  /** One line of the per-retailer product count. */
  datatype CountLine = CountLine(heading: string, count: nat)

  /** One retailer's price statistics. */
  datatype StatsLine = StatsLine(heading: string, summary: Summary)

  /** What `_print_statistics` reports. */
  datatype Report = Report(matches: nat, counts: seq<CountLine>, stats: seq<StatsLine>)

  /** The count loop: one line per price column, in column order. */
  function CountLines(table: seq<Group>, cols: seq<string>): (lines: seq<CountLine>)
    ensures |lines| == |cols|
    ensures forall i :: 0 <= i < |cols| ==>
      lines[i].heading == Label(cols[i]) && lines[i].count == Count(table, cols[i])
  {
    seq(|cols|, i requires 0 <= i < |cols| => CountLine(Label(cols[i]), Count(table, cols[i])))
  }

  /** What the statistics loop finds for each label: the summary when
      `<label>_price` is a column (the label is a retailer of the table)
      whose prices are not all missing. */
  function Reports(table: seq<Group>, cols: seq<string>, labels: seq<string>): (ss: seq<Option<Summary>>)
    ensures |ss| == |labels|
    ensures forall i :: 0 <= i < |labels| ==> ss[i] == if labels[i] in cols then Stats(table, labels[i]) else None
  {
    seq(|labels|, i requires 0 <= i < |labels| => if labels[i] in cols then Stats(table, labels[i]) else None)
  }

  function Found(ss: seq<Option<Summary>>): (flags: seq<bool>)
    ensures |flags| == |ss| && forall i :: 0 <= i < |ss| ==> flags[i] == ss[i].Some?
  {
    seq(|ss|, i requires 0 <= i < |ss| => ss[i].Some?)
  }

  /** The statistics loop over the labels: one line per reported label, in
      label order. */
  function StatsLines(table: seq<Group>, cols: seq<string>, labels: seq<string>): (lines: seq<StatsLine>)
    ensures var ss := Reports(table, cols, labels); var idx := Positions(Found(ss), 0);
      |lines| == |idx| && forall k :: 0 <= k < |lines| ==> lines[k] == StatsLine(labels[idx[k]], ss[idx[k]].value)
    ensures |lines| <= |labels|
    ensures forall l :: l in lines ==> l.heading in labels && l.heading in cols && Stats(table, l.heading) == Some(l.summary)
    ensures forall x :: x in labels && x in cols && Stats(table, x).Some? ==> exists l :: l in lines && l.heading == x
  {
    var ss := Reports(table, cols, labels);
    var lines := LinesFrom(labels, ss, 0);
    LinesMembers(labels, ss, lines);
    ReportedLines(table, cols, labels, lines);
    lines
  }

  /** The lines for the labels from position `from` on. */
  function LinesFrom(labels: seq<string>, ss: seq<Option<Summary>>, from: nat): (lines: seq<StatsLine>)
    requires |ss| == |labels| && from <= |labels|
    ensures var idx := Positions(Found(ss), from);
      |lines| == |idx| && forall k :: 0 <= k < |lines| ==> lines[k] == StatsLine(labels[idx[k]], ss[idx[k]].value)
    decreases |labels| - from
  {
    if from == |labels| then []
    else
      var rest := LinesFrom(labels, ss, from + 1);
      if ss[from].Some? then
        assert Positions(Found(ss), from) == [from] + Positions(Found(ss), from + 1);
        [StatsLine(labels[from], ss[from].value)] + rest
      else
        rest
  }

  /** The lines at the found positions are exactly the found labels'. */
  lemma LinesMembers(labels: seq<string>, ss: seq<Option<Summary>>, lines: seq<StatsLine>)
    requires |ss| == |labels|
    requires var idx := Positions(Found(ss), 0);
      |lines| == |idx| && forall k :: 0 <= k < |lines| ==> lines[k] == StatsLine(labels[idx[k]], ss[idx[k]].value)
    ensures forall l :: l in lines ==> exists i :: 0 <= i < |labels| && labels[i] == l.heading && ss[i] == Some(l.summary)
    ensures forall i :: 0 <= i < |labels| && ss[i].Some? ==> exists l :: l in lines && l.heading == labels[i]
  {
    var idx := Positions(Found(ss), 0);
    forall l | l in lines
      ensures exists i :: 0 <= i < |labels| && labels[i] == l.heading && ss[i] == Some(l.summary)
    {
      var k :| 0 <= k < |lines| && lines[k] == l;
      assert Found(ss)[idx[k]];
    }
    forall i | 0 <= i < |labels| && ss[i].Some?
      ensures exists l :: l in lines && l.heading == labels[i]
    {
      assert Found(ss)[i];
      var k :| 0 <= k < |idx| && idx[k] == i;
      assert lines[k].heading == labels[i];
    }
  }

  /** Read back through the summaries, the lines are the reported labels. */
  lemma ReportedLines(table: seq<Group>, cols: seq<string>, labels: seq<string>, lines: seq<StatsLine>)
    requires var ss := Reports(table, cols, labels);
      && (forall l :: l in lines ==> exists i :: 0 <= i < |labels| && labels[i] == l.heading && ss[i] == Some(l.summary))
      && (forall i :: 0 <= i < |labels| && ss[i].Some? ==> exists l :: l in lines && l.heading == labels[i])
    ensures forall l :: l in lines ==> l.heading in labels && l.heading in cols && Stats(table, l.heading) == Some(l.summary)
    ensures forall x :: x in labels && x in cols && Stats(table, x).Some? ==> exists l :: l in lines && l.heading == x
  {
    var ss := Reports(table, cols, labels);
    forall x | x in labels && x in cols && Stats(table, x).Some?
      ensures exists l :: l in lines && l.heading == x
    {
      var i :| 0 <= i < |labels| && labels[i] == x;
      assert ss[i].Some?;
    }
  }

  /** The printed heading of every price column, in column order. */
  function Labels(cols: seq<string>): (labels: seq<string>)
    ensures |labels| == |cols|
    ensures forall i :: 0 <= i < |cols| ==> labels[i] == Label(cols[i])
  {
    seq(|cols|, i requires 0 <= i < |cols| => Label(cols[i]))
  }

  /** `_print_statistics` on a table whose price columns are `cols`. */
  function Statistics(table: seq<Group>, cols: seq<string>): (r: Report)
    ensures r.matches == |table| && |r.counts| == |cols|
    ensures forall i :: 0 <= i < |cols| ==> r.counts[i] == CountLine(Label(cols[i]), Count(table, cols[i]))
    ensures forall l :: l in r.stats ==>
      l.heading in cols && Stats(table, l.heading) == Some(l.summary) && l.summary.min <= l.summary.mean <= l.summary.max
  {
    Report(|table|, CountLines(table, cols), StatsLines(table, cols, Labels(cols)))
  }

  /** With underscore-free retailer names every retailer that has a price
      gets its statistics line. */
  lemma PlainNamesAllReported(table: seq<Group>, cols: seq<string>, x: string)
    requires forall c :: c in cols ==> '_' !in c
    requires x in cols && Stats(table, x).Some?
    ensures exists l :: l in Statistics(table, cols).stats && l.heading == x
  {
    var labels := Labels(cols);
    var i :| 0 <= i < |cols| && cols[i] == x;
    LabelPlain(x);
    assert labels[i] == x;
    assert x in labels;
    assert Statistics(table, cols).stats == StatsLines(table, cols, labels);
  }

  /** How building the table ends: no data, a failed match, no group, or
      the sorted table with its columns and statistics. */
  datatype Outcome =
    | NoData
    | MatchFailed(error: MatchError)
    | NoMatches
    | Built(table: seq<Group>, columns: seq<string>, report: Report)

  /** `create_comparison_table` without the Excel export. */
  function CreateComparisonTable(cfg: Config, ps: seq<NormalizedProduct>): (o: Outcome)
    ensures o.NoData? <==> ps == []
    ensures o.MatchFailed? <==> ps != [] && !HasRetailers(ps)
    ensures o.NoMatches? ==> FindSimilarProducts(cfg, ps) == Success([])
    ensures o.Built? ==> FindSimilarProducts(cfg, ps).Success?
    ensures o.Built? ==> o.table != [] && NameSorted(o.table)
    ensures o.Built? ==> multiset(o.table) == multiset(FindSimilarProducts(cfg, ps).value)
    ensures o.Built? ==> o.columns == PriceColumns(FindSimilarProducts(cfg, ps).value)
    ensures o.Built? ==> o.report == Statistics(o.table, o.columns)
  {
    if ps == [] then NoData
    else
      var m := FindSimilarProducts(cfg, ps);
      if m.Failure? then MatchFailed(m.error)
      else if m.value == [] then NoMatches
      else
        var table := SortByName(m.value);
        assert |table| == |multiset(table)| == |m.value|;
        var cols := PriceColumns(m.value);
        Built(table, cols, Statistics(table, cols))
  }
}

=== FILE: text.dfy ===
/** Character classes, whitespace handling, decimal numerals and string order,
    as Python's `str` methods and `re` character classes define them. */
module Text {
  import opened Wrappers

  // ---------------------------------------------------------------------------
  // Character classes
  // ---------------------------------------------------------------------------

  /** `\d`, restricted to the ASCII digits. */
  predicate IsDigit(c: char) {
    '0' <= c <= '9'
  }

  /** Python's `str.isspace()`; `\s`, `str.strip()` and `str.split()` all use it. */
  predicate IsSpace(c: char) {
    || c == ' '
    || ('\t' <= c <= '\r')
    || ('\U{1C}' <= c <= '\U{1F}')
    || c == '\U{85}' || c == '\U{A0}' || c == '\U{1680}'
    || ('\U{2000}' <= c <= '\U{200A}')
    || c == '\U{2028}' || c == '\U{2029}' || c == '\U{202F}' || c == '\U{205F}' || c == '\U{3000}'
  }

  predicate IsUpper(c: char) {
    'A' <= c <= 'Z'
  }

  /** `str.lower()` on one character (ASCII letters only). */
  function LowerChar(c: char): char {
    if IsUpper(c) then (c as int + 32) as char else c
  }

  function Lower(s: string): string {
    seq(|s|, i requires 0 <= i < |s| => LowerChar(s[i]))
  }

  predicate AllDigits(s: string) {
    forall i :: 0 <= i < |s| ==> IsDigit(s[i])
  }

  predicate AllSpace(s: string) {
    forall i :: 0 <= i < |s| ==> IsSpace(s[i])
  }

  predicate NoSpace(s: string) {
    forall i :: 0 <= i < |s| ==> !IsSpace(s[i])
  }

  predicate NoUpper(s: string) {
    forall i :: 0 <= i < |s| ==> !IsUpper(s[i])
  }

  predicate NoDigit(s: string) {
    forall i :: 0 <= i < |s| ==> !IsDigit(s[i])
  }

  /** `w` occurs in `s` starting at `i`. */
  predicate IsAt(s: string, i: nat, w: string) {
    i + |w| <= |s| && s[i..i + |w|] == w
  }

  lemma LowerIdempotent(s: string)
    ensures Lower(Lower(s)) == Lower(s)
  {
  }

  lemma LowerHasNoUpper(s: string)
    ensures NoUpper(Lower(s))
  {
  }

  /** Lower-casing neither creates nor removes digits and whitespace. */
  lemma LowerKeepsClasses(s: string)
    ensures forall i :: 0 <= i < |s| ==> (IsDigit(Lower(s)[i]) <==> IsDigit(s[i]))
    ensures forall i :: 0 <= i < |s| ==> (IsSpace(Lower(s)[i]) <==> IsSpace(s[i]))
  {
  }

  /** `s.replace(a, b)` for single characters. */
  function ReplaceChar(s: string, a: char, b: char): (r: string)
    ensures |r| == |s|
    ensures forall i :: 0 <= i < |s| ==> r[i] == (if s[i] == a then b else s[i])
  {
    seq(|s|, i requires 0 <= i < |s| => if s[i] == a then b else s[i])
  }

  // ---------------------------------------------------------------------------
  // Runs
  // ---------------------------------------------------------------------------

  /** `s[i..i + n]` is digits only and stops at a non-digit or at the end:
      what a greedy `\d+` or `\d*` takes from `i`. */
  predicate IsDigitRun(s: string, i: nat, n: nat) {
    && i + n <= |s|
    && (forall k :: i <= k < i + n ==> IsDigit(s[k]))
    && (i + n == |s| || !IsDigit(s[i + n]))
  }

  lemma {:induction false} DigitRunExists(s: string, i: nat)
    requires i <= |s|
    ensures exists n: nat :: IsDigitRun(s, i, n)
    decreases |s| - i
  {
    if i < |s| && IsDigit(s[i]) {
      DigitRunExists(s, i + 1);
      var n: nat :| IsDigitRun(s, i + 1, n);
      assert IsDigitRun(s, i, n + 1);
    } else {
      assert IsDigitRun(s, i, 0);
    }
  }

  /** Length of the longest run of digits starting at `i`. */
  function DigitRun(s: string, i: nat): (n: nat)
    requires i <= |s|
    ensures i + n <= |s|
    ensures forall k :: i <= k < i + n ==> IsDigit(s[k])
    ensures i + n == |s| || !IsDigit(s[i + n])
  {
    DigitRunExists(s, i);
    var n: nat :| IsDigitRun(s, i, n);
    n
  }

  /** A digit run that stops at a non-digit is the longest run. */
  lemma DigitRunExact(s: string, i: nat, j: nat)
    requires i <= j <= |s|
    requires forall k :: i <= k < j ==> IsDigit(s[k])
    requires j == |s| || !IsDigit(s[j])
    ensures DigitRun(s, i) == j - i && i + DigitRun(s, i) == j
  {
  }

  /** `s[i..i + n]` is whitespace only and stops at a non-space or at the
      end: what a greedy `\s*` takes from `i`. */
  predicate IsSpaceRun(s: string, i: nat, n: nat) {
    && i + n <= |s|
    && (forall k :: i <= k < i + n ==> IsSpace(s[k]))
    && (i + n == |s| || !IsSpace(s[i + n]))
  }

  lemma {:induction false} SpaceRunExists(s: string, i: nat)
    requires i <= |s|
    ensures exists n: nat :: IsSpaceRun(s, i, n)
    decreases |s| - i
  {
    if i < |s| && IsSpace(s[i]) {
      SpaceRunExists(s, i + 1);
      var n: nat :| IsSpaceRun(s, i + 1, n);
      assert IsSpaceRun(s, i, n + 1);
    } else {
      assert IsSpaceRun(s, i, 0);
    }
  }

  /** Length of the longest run of whitespace starting at `i`. */
  function SpaceRun(s: string, i: nat): (n: nat)
    requires i <= |s|
    ensures i + n <= |s|
    ensures forall k :: i <= k < i + n ==> IsSpace(s[k])
    ensures i + n == |s| || !IsSpace(s[i + n])
  {
    SpaceRunExists(s, i);
    var n: nat :| IsSpaceRun(s, i, n);
    n
  }

  /** A whitespace run that stops at a non-space is the longest run. */
  lemma SpaceRunExact(s: string, i: nat, j: nat)
    requires i <= j <= |s|
    requires forall k :: i <= k < j ==> IsSpace(s[k])
    requires j == |s| || !IsSpace(s[j])
    ensures SpaceRun(s, i) == j - i && i + SpaceRun(s, i) == j
  {
  }

  // ---------------------------------------------------------------------------
  // Stripping and collapsing whitespace
  // ---------------------------------------------------------------------------

  /** `str.lstrip()`. */
  function TrimLeft(s: string): (r: string)
    ensures |r| <= |s| && r == s[|s| - |r|..]
    ensures AllSpace(s[..|s| - |r|])
    ensures r == [] || !IsSpace(r[0])
  {
    if |s| > 0 && IsSpace(s[0]) then
      var r := TrimLeft(s[1..]);
      TrimLeftStep(s, r);
      r
    else s
  }

  /** One leading space more keeps `r` a suffix after an all-space prefix. */
  lemma TrimLeftStep(s: string, r: string)
    requires |s| > 0 && IsSpace(s[0])
    requires |r| <= |s| - 1 && r == s[1..][|s| - 1 - |r|..]
    requires AllSpace(s[1..][..|s| - 1 - |r|])
    ensures |r| <= |s| && r == s[|s| - |r|..]
    ensures AllSpace(s[..|s| - |r|])
  {
    var p, q := s[..|s| - |r|], s[1..][..|s| - 1 - |r|];
    forall i | 0 <= i < |p|
      ensures IsSpace(p[i])
    {
      if i > 0 {
        assert p[i] == q[i - 1];
      }
    }
  }

  /** `str.rstrip()`. */
  function TrimRight(s: string): (r: string)
    ensures |r| <= |s| && r == s[..|r|]
    ensures AllSpace(s[|r|..])
    ensures r == [] || !IsSpace(r[|r| - 1])
  {
    if |s| > 0 && IsSpace(s[|s| - 1]) then
      var t := s[..|s| - 1];
      var r := TrimRight(t);
      assert AllSpace(s[|r|..]) by {
        forall i | 0 <= i < |s| - |r|
          ensures IsSpace(s[|r|..][i])
        {
          if i < |t| - |r| {
            assert s[|r|..][i] == t[|r|..][i];
          }
        }
      }
      r
    else s
  }

  /** `str.strip()`. */
  function Strip(s: string): string {
    TrimRight(TrimLeft(s))
  }

  /** `re.sub(r'\s+', ' ', s)`: every maximal whitespace run becomes one space. */
  function Collapse(s: string): string
    decreases |s|
  {
    if s == [] then []
    else if IsSpace(s[0]) then " " + Collapse(TrimLeft(s))
    else [s[0]] + Collapse(s[1..])
  }

  /** Length of the longest whitespace-free prefix. */
  function WordLen(s: string): (n: nat)
    ensures n <= |s| && NoSpace(s[..n])
    ensures n == |s| || IsSpace(s[n])
  {
    if s == [] || IsSpace(s[0]) then 0 else 1 + WordLen(s[1..])
  }

  /** Every piece is non-empty and whitespace-free. */
  predicate WordList(ws: seq<string>) {
    forall i :: 0 <= i < |ws| ==> ws[i] != [] && NoSpace(ws[i])
  }

  /** `str.split()`: the maximal whitespace-free pieces of `s`, in order. */
  function Words(s: string): (ws: seq<string>)
    ensures WordList(ws)
    decreases |s|
  {
    var t := TrimLeft(s);
    if t == [] then []
    else
      var n := WordLen(t);
      assert n > 0;
      var rest := Words(t[n..]);
      WordListCons(t[..n], rest);
      [t[..n]] + rest
  }

  lemma WordListCons(w: string, ws: seq<string>)
    requires w != [] && NoSpace(w) && WordList(ws)
    ensures WordList([w] + ws)
  {
  }

  /** `' '.join(ws)`. */
  function JoinSpace(ws: seq<string>): string {
    if ws == [] then []
    else if |ws| == 1 then ws[0]
    else ws[0] + " " + JoinSpace(ws[1..])
  }

  /** The canonical spacing of `s`: its words separated by single spaces,
      nothing before the first or after the last. */
  function Squeeze(s: string): string {
    JoinSpace(Words(s))
  }

  /** No whitespace at either end, none inside except plain spaces, never two spaces in a row. */
  predicate Squeezed(s: string) {
    && (forall i :: 0 <= i < |s| && IsSpace(s[i]) ==> s[i] == ' ')
    && (s == [] || (!IsSpace(s[0]) && !IsSpace(s[|s| - 1])))
    && (forall i :: 0 < i < |s| && s[i] == ' ' ==> s[i - 1] != ' ')
  }

  /** " " if `s` ends in whitespace, "" otherwise. */
  function TrailingSpace(s: string): string {
    if s != [] && IsSpace(s[|s| - 1]) then " " else ""
  }

  lemma TrimLeftNoLead(s: string)
    requires s == [] || !IsSpace(s[0])
    ensures TrimLeft(s) == s
  {
  }

  lemma TrimRightNoTrail(s: string)
    requires s == [] || !IsSpace(s[|s| - 1])
    ensures TrimRight(s) == s
  {
  }

  /** Leading whitespace does not change the words. */
  lemma WordsSkipLead(s: string)
    ensures Words(s) == Words(TrimLeft(s))
  {
    TrimLeftNoLead(TrimLeft(s));
  }

  /** Collapse passes a whitespace-free prefix through unchanged. */
  lemma {:induction false} CollapseWord(s: string, n: nat)
    requires n <= |s| && NoSpace(s[..n])
    ensures Collapse(s) == s[..n] + Collapse(s[n..])
  {
    if n > 0 {
      HeadSplit(s, n);
      CollapseNonSpace(s);
      NoSpaceTail(s[..n]);
      CollapseWord(s[1..], n - 1);
      Assoc([s[0]], s[1..][..n - 1], Collapse(s[n..]));
    }
  }

  lemma CollapseNonSpace(s: string)
    requires s != [] && !IsSpace(s[0])
    ensures Collapse(s) == [s[0]] + Collapse(s[1..])
  {
  }

  lemma HeadSplit(s: string, n: nat)
    requires 0 < n <= |s|
    ensures s[..n][0] == s[0] && s[1..][..n - 1] == s[..n][1..]
    ensures s[..n] == [s[0]] + s[1..][..n - 1] && s[1..][n - 1..] == s[n..]
  {
  }

  lemma SliceAppend(t: string, b: string, n: nat)
    requires n <= |t|
    ensures (t + b)[..n] == t[..n]
    ensures (t + b)[n..] == t[n..] + b
  {
    var u, v := (t + b)[n..], t[n..] + b;
    forall k | 0 <= k < |u|
      ensures u[k] == v[k]
    {
      if k < |t| - n {
        assert u[k] == t[n + k];
      } else {
        assert u[k] == b[k - (|t| - n)];
      }
    }
  }

  lemma WordLenPositive(t: string)
    requires t != [] && !IsSpace(t[0])
    ensures WordLen(t) > 0
  {
  }

  lemma NoSpaceTail(w: string)
    requires w != [] && NoSpace(w)
    ensures NoSpace(w[1..])
  {
    forall k | 0 <= k < |w| - 1
      ensures !IsSpace(w[1..][k])
    {
      assert w[1..][k] == w[k + 1];
    }
  }

  /** The joined words of a non-empty word list start and end with a non-space. */
  lemma JoinSpaceEnds(ws: seq<string>)
    requires ws != [] && WordList(ws)
    ensures var j := JoinSpace(ws); j != [] && !IsSpace(j[0]) && !IsSpace(j[|j| - 1])
  {
    assert ws[0] != [];
    if |ws| > 1 {
      JoinSpaceEnds(ws[1..]);
      var j, k := JoinSpace(ws), JoinSpace(ws[1..]);
      assert j == ws[0] + " " + k;
      assert j[0] == ws[0][0];
      assert j[|j| - 1] == k[|k| - 1];
    }
  }

  /** A string starting with a non-space splits into its first word and the rest. */
  lemma WordsHead(s: string)
    requires s != [] && !IsSpace(s[0])
    ensures WordLen(s) > 0
    ensures Words(s) == [s[..WordLen(s)]] + Words(s[WordLen(s)..])
  {
    TrimLeftNoLead(s);
  }

  /** On a string without leading whitespace, collapsing yields the squeezed
      string plus one space if the original ended in whitespace. */
  lemma {:induction false} CollapseNoLead(s: string)
    requires s == [] || !IsSpace(s[0])
    ensures Collapse(s) == Squeeze(s) + TrailingSpace(s)
    decreases |s|
  {
    if s != [] {
      WordsHead(s);
      var n := WordLen(s);
      CollapseWord(s, n);
      var rest := s[n..];
      if rest == [] {
        CollapseLastWord(s, n);
      } else {
        var t := TrimLeft(rest);
        CollapseNoLead(t);
        CollapseInnerWord(s, n, t);
      }
    }
  }

  lemma CollapseLastWord(s: string, n: nat)
    requires 0 < n == |s| && NoSpace(s[..n])
    requires Words(s) == [s[..n]] + Words(s[n..])
    requires Collapse(s) == s[..n] + Collapse(s[n..])
    ensures Collapse(s) == Squeeze(s) + TrailingSpace(s)
  {
    assert s[..n] == s;
    assert s[n..] == [];
    assert Collapse(s) == s;
    assert Words(s) == [s];
    assert Squeeze(s) == s;
    assert !IsSpace(s[|s| - 1]) by {
      assert s[..n][|s| - 1] == s[|s| - 1];
    }
    assert TrailingSpace(s) == [];
  }

  lemma {:induction false} CollapseInnerWord(s: string, n: nat, t: string)
    requires 0 < n < |s| && NoSpace(s[..n]) && IsSpace(s[n])
    requires Words(s) == [s[..n]] + Words(s[n..])
    requires Collapse(s) == s[..n] + Collapse(s[n..])
    requires t == TrimLeft(s[n..])
    requires Collapse(t) == Squeeze(t) + TrailingSpace(t)
    ensures Collapse(s) == Squeeze(s) + TrailingSpace(s)
  {
    InnerSplit(s, n, t);
    if t == [] {
      InnerBlank(s, n);
    } else {
      InnerMore(s, n, t);
    }
  }

  /** Past the first word, Collapse and Words both skip the whitespace run. */
  lemma InnerSplit(s: string, n: nat, t: string)
    requires 0 < n < |s| && IsSpace(s[n]) && t == TrimLeft(s[n..])
    requires Words(s) == [s[..n]] + Words(s[n..])
    requires Collapse(s) == s[..n] + Collapse(s[n..])
    ensures Collapse(s) == s[..n] + (" " + Collapse(t))
    ensures Words(s) == [s[..n]] + Words(t)
  {
    var rest := s[n..];
    assert rest[0] == s[n];
    CollapseLead(rest);
    WordsSkipLead(rest);
  }

  lemma InnerBlank(s: string, n: nat)
    requires 0 < n < |s| && TrimLeft(s[n..]) == []
    requires Words(s) == [s[..n]] + Words([])
    requires Collapse(s) == s[..n] + (" " + Collapse([]))
    ensures Collapse(s) == Squeeze(s) + TrailingSpace(s)
  {
    TrimLeftEmpty(s[n..]);
    WordsSkipLead(s[n..]);
    CollapseBlankTail(s, n);
  }

  lemma InnerMore(s: string, n: nat, t: string)
    requires 0 < n < |s| && t != [] && t == TrimLeft(s[n..])
    requires Words(s) == [s[..n]] + Words(t)
    requires Collapse(s) == s[..n] + (" " + Collapse(t))
    requires Collapse(t) == Squeeze(t) + TrailingSpace(t)
    ensures Collapse(s) == Squeeze(s) + TrailingSpace(s)
  {
    TrailingOfTrim(s, n, t);
    SqueezeCons(s, s[..n], t);
    Combine(Collapse(s), s[..n], Collapse(t), Squeeze(t), TrailingSpace(t), Squeeze(s), TrailingSpace(s));
  }

  lemma Combine(cs: string, w: string, ct: string, qt: string, et: string, qs: string, es: string)
    requires cs == w + (" " + ct) && ct == qt + et
    requires qs == w + " " + qt && es == et
    ensures cs == qs + es
  {
  }

  /** Trimming leading whitespace off a suffix keeps the last character. */
  lemma TrailingOfTrim(s: string, n: nat, t: string)
    requires n < |s| && t != [] && t == TrimLeft(s[n..])
    ensures TrailingSpace(s) == TrailingSpace(t)
  {
    var rest := s[n..];
    assert t == rest[|rest| - |t|..];
    assert t[|t| - 1] == rest[|rest| - 1] == s[|s| - 1];
  }

  /** A word in front of a non-blank rest joins it with one space. */
  lemma SqueezeCons(s: string, w: string, t: string)
    requires t != [] && !IsSpace(t[0]) && Words(s) == [w] + Words(t)
    ensures Squeeze(s) == w + " " + Squeeze(t)
  {
    WordsHead(t);
    JoinSpaceCons(w, Words(t));
  }

  lemma TrimLeftEmpty(s: string)
    requires TrimLeft(s) == []
    ensures AllSpace(s)
  {
    assert s[..|s| - |TrimLeft(s)|] == s;
  }

  lemma {:induction false} CollapseBlankTail(s: string, n: nat)
    requires 0 < n < |s|
    requires AllSpace(s[n..])
    requires Words(s) == [s[..n]] + Words(s[n..]) && Words(s[n..]) == []
    requires Collapse(s) == s[..n] + (" " + Collapse([]))
    ensures Collapse(s) == Squeeze(s) + TrailingSpace(s)
  {
    assert Words(s) == [s[..n]];
    assert s[|s| - 1] == s[n..][|s| - 1 - n];
  }

  lemma JoinSpaceCons(w: string, ws: seq<string>)
    requires ws != []
    ensures JoinSpace([w] + ws) == w + " " + JoinSpace(ws)
  {
    assert ([w] + ws)[1..] == ws;
  }

  lemma CollapseLead(s: string)
    requires s != [] && IsSpace(s[0])
    ensures Collapse(s) == " " + Collapse(TrimLeft(s))
  {
  }

  lemma Assoc(a: string, b: string, c: string)
    ensures a + (b + c) == a + b + c
  {
  }

  lemma Regroup(a: string, b: string, c: string, d: string)
    ensures a + (b + (c + d)) == (a + b + c) + d
  {
  }

  /** Stripping spaces around a squeezed core gives the core back. */
  lemma {:induction false} StripPadded(a: string, x: string, b: string)
    requires AllSpace(a) && AllSpace(b)
    requires x == [] || (!IsSpace(x[0]) && !IsSpace(x[|x| - 1]))
    ensures Strip(a + x + b) == x
  {
    assert a + x + b == a + (x + b);
    TrimLeftSpaces(a, x + b);
    if x == [] {
      assert x + b == b;
      assert TrimRight([]) == [];
    } else {
      assert (x + b)[0] == x[0];
      TrimLeftNoLead(x + b);
      TrimRightSpaces(x, b);
      TrimRightNoTrail(x);
    }
  }

  lemma {:induction false} TrimLeftSpaces(a: string, y: string)
    requires AllSpace(a)
    ensures TrimLeft(a + y) == TrimLeft(y)
  {
    if a != [] {
      assert (a + y)[0] == a[0];
      assert (a + y)[1..] == a[1..] + y;
      TrimLeftSpaces(a[1..], y);
    } else {
      assert a + y == y;
    }
  }

  lemma {:induction false} TrimRightSpaces(y: string, b: string)
    requires AllSpace(b)
    ensures TrimRight(y + b) == TrimRight(y)
  {
    if b != [] {
      var n := |b| - 1;
      assert (y + b)[..|y + b| - 1] == y + b[..n];
      TrimRightSpaces(y, b[..n]);
    } else {
      assert y + b == y;
    }
  }

  /** `re.sub(r'\s+', ' ', s).strip()` is the canonical spacing of `s`. */
  lemma {:induction false} StripCollapse(s: string)
    ensures Strip(Collapse(s)) == Squeeze(s)
  {
    if s != [] && IsSpace(s[0]) {
      StripCollapseLead(s);
    } else {
      StripCollapseTight(s);
    }
  }

  lemma {:induction false} StripCollapseLead(s: string)
    requires s != [] && IsSpace(s[0])
    ensures Strip(Collapse(s)) == Squeeze(s)
  {
    WordsSkipLead(s);
    CollapseLead(s);
    StripSpaceCollapse(TrimLeft(s));
  }

  /** A space before the collapsed text is stripped away again. */
  lemma StripSpaceCollapse(t: string)
    requires t == [] || !IsSpace(t[0])
    ensures Strip(" " + Collapse(t)) == Squeeze(t)
  {
    CollapseNoLead(t);
    StripCollapsed(" ", t);
  }

  lemma {:induction false} StripCollapseTight(s: string)
    requires s == [] || !IsSpace(s[0])
    ensures Strip(Collapse(s)) == Squeeze(s)
  {
    CollapseNoLead(s);
    assert [] + (Squeeze(s) + TrailingSpace(s)) == Collapse(s);
    StripCollapsed([], s);
  }

  lemma StripCollapsed(a: string, t: string)
    requires AllSpace(a)
    ensures Strip(a + (Squeeze(t) + TrailingSpace(t))) == Squeeze(t)
  {
    var j, z := Squeeze(t), TrailingSpace(t);
    SqueezeEnds(t);
    Assoc(a, j, z);
    StripPadded(a, j, z);
  }

  lemma SqueezeEnds(s: string)
    ensures var j := Squeeze(s); j == [] || (!IsSpace(j[0]) && !IsSpace(j[|j| - 1]))
  {
    if Words(s) != [] {
      JoinSpaceEnds(Words(s));
    }
  }

  lemma {:induction false} WordLenSpaces(x: string, b: string)
    requires AllSpace(b)
    ensures WordLen(x + b) == WordLen(x)
  {
    if x != [] && !IsSpace(x[0]) {
      assert (x + b)[1..] == x[1..] + b;
      WordLenSpaces(x[1..], b);
    } else if x == [] {
      assert x + b == b;
    }
  }

  lemma {:induction false} TrimLeftAppend(x: string, b: string)
    requires TrimLeft(x) != []
    ensures TrimLeft(x + b) == TrimLeft(x) + b
  {
    if IsSpace(x[0]) {
      assert (x + b)[1..] == x[1..] + b;
      TrimLeftAppend(x[1..], b);
    }
  }

  /** Trailing whitespace does not change the words. */
  lemma {:induction false} WordsTrailing(x: string, b: string)
    requires AllSpace(b)
    ensures Words(x + b) == Words(x)
    decreases |x|
  {
    var t := TrimLeft(x);
    if t == [] {
      TrimLeftEmpty(x);
      TrimLeftSpaces(x, b);
      TrimLeftSpaces(b, []);
      assert b + [] == b;
      assert TrimLeft(x + b) == [];
    } else {
      TrimLeftAppend(x, b);
      WordLenSpaces(t, b);
      var n := WordLen(t);
      WordLenPositive(t);
      assert |t[n..]| < |x|;
      SliceAppend(t, b, n);
      WordsTrailing(t[n..], b);
      assert Words(x + b) == [t[..n]] + Words(t[n..] + b);
    }
  }

  lemma SplitAt(x: string, k: nat)
    requires k <= |x|
    ensures x == x[..k] + x[k..]
  {
  }

  /** Stripping does not change the words. */
  lemma {:induction false} WordsStrip(s: string)
    ensures Words(Strip(s)) == Words(s)
  {
    var t := TrimLeft(s);
    var u := TrimRight(t);
    WordsSkipLead(s);
    SplitAt(t, |u|);
    WordsTrailing(u, t[|u|..]);
  }

  /** The stripped string starts and ends with a non-space. */
  lemma StripEnds(s: string)
    ensures var u := Strip(s); u == [] || (!IsSpace(u[0]) && !IsSpace(u[|u| - 1]))
  {
    var t := TrimLeft(s);
    var u := TrimRight(t);
    if u != [] {
      assert u[0] == t[0];
    }
  }

  /** `re.sub(r'\s+', ' ', s.strip())` is the canonical spacing of `s`. */
  lemma {:induction false} CollapseStrip(s: string)
    ensures Collapse(Strip(s)) == Squeeze(s)
  {
    var u := Strip(s);
    StripEnds(s);
    CollapseNoLead(u);
    WordsStrip(s);
    assert TrailingSpace(u) == [];
    assert Squeeze(u) + [] == Squeeze(u);
  }

  lemma {:induction false} JoinSpaceSqueezed(ws: seq<string>)
    requires WordList(ws)
    ensures Squeezed(JoinSpace(ws))
  {
    if |ws| > 1 {
      var w, j := ws[0], JoinSpace(ws[1..]);
      JoinSpaceSqueezed(ws[1..]);
      JoinSpaceEnds(ws[1..]);
      var r := w + " " + j;
      assert r == JoinSpace(ws);
      forall i | 0 <= i < |r| && IsSpace(r[i])
        ensures r[i] == ' '
      {
        if i > |w| {
          assert r[i] == j[i - |w| - 1];
        }
      }
      forall i | 0 < i < |r| && r[i] == ' '
        ensures r[i - 1] != ' '
      {
        if i > |w| + 1 {
          assert r[i] == j[i - |w| - 1];
          assert r[i - 1] == j[i - |w| - 2];
        }
      }
      assert r[|r| - 1] == j[|j| - 1];
    }
  }

  /** The canonical spacing is squeezed. */
  lemma SqueezeIsSqueezed(s: string)
    ensures Squeezed(Squeeze(s))
  {
    JoinSpaceSqueezed(Words(s));
  }

  /** The canonical spacing is empty exactly for blank strings. */
  lemma SqueezeEmpty(s: string)
    ensures Squeeze(s) == [] <==> AllSpace(s)
  {
    if AllSpace(s) {
      assert TrimLeft(s) == [];
    }
    if Words(s) != [] {
      JoinSpaceEnds(Words(s));
    }
  }

  /** Stripping first does not change the canonical spacing. */
  lemma SqueezeStrip(s: string)
    ensures Squeeze(Strip(s)) == Squeeze(s)
  {
    WordsStrip(s);
  }

  /** Collapsing introduces no character other than a space. */
  lemma {:induction false} CollapseChars(s: string)
    ensures forall c :: c in Collapse(s) ==> c == ' ' || c in s
    decreases |s|
  {
    if s != [] {
      if IsSpace(s[0]) {
        CollapseChars(TrimLeft(s));
      } else {
        CollapseChars(s[1..]);
      }
    }
  }

  // ---------------------------------------------------------------------------
  // Decimal numerals and Python's float()
  // ---------------------------------------------------------------------------

  function DigitValue(c: char): nat
    requires IsDigit(c)
  {
    c as int - '0' as int
  }

  /** The value of a string of decimal digits. */
  function DigitsValue(s: string): nat
    requires AllDigits(s)
  {
    if s == [] then 0 else 10 * DigitsValue(s[..|s| - 1]) + DigitValue(s[|s| - 1])
  }

  function Pow10(n: nat): (r: nat)
    ensures r > 0
  {
    if n == 0 then 1 else 10 * Pow10(n - 1)
  }

  /** The exact value of the numeral `ip.fp` (an empty `fp` means no fraction). */
  function DecimalValue(ip: string, fp: string): (r: real)
    requires AllDigits(ip) && AllDigits(fp)
    ensures r >= 0.0
  {
    DigitsValue(ip) as real + DigitsValue(fp) as real / Pow10(|fp|) as real
  }

  /** `float()` of an unsigned literal: `12`, `12.`, `.5` or `12.50`. */
  function Unsigned(b: string): Option<real> {
    var n := DigitRun(b, 0);
    if n == |b| then
      if n == 0 then None
      else
        assert AllDigits(b);
        Some(DecimalValue(b, ""))
    else if b[n] != '.' || |b| == 1 then None
    else
      var ip, fp := b[..n], b[n + 1..];
      if !AllDigits(fp) then None
      else
        assert AllDigits(ip) by {
          forall k | 0 <= k < |ip|
            ensures IsDigit(ip[k])
          {
            assert ip[k] == b[k];
          }
        }
        Some(DecimalValue(ip, fp))
  }

  /** Python's `float(t)` for plain decimal literals: surrounding whitespace,
      an optional sign, then an unsigned literal. */
  function ParseFloat(t: string): Option<real> {
    var s := Strip(t);
    if |s| > 0 && s[0] == '-' then
      var m := Unsigned(s[1..]);
      if m.None? then None else Some(-m.value)
    else if |s| > 0 && s[0] == '+' then Unsigned(s[1..])
    else Unsigned(s)
  }

  /** A string that starts and ends with a non-space is its own strip. */
  lemma StripTight(t: string)
    requires t != [] && !IsSpace(t[0]) && !IsSpace(t[|t| - 1])
    ensures Strip(t) == t
  {
    TrimLeftNoLead(t);
    TrimRightNoTrail(t);
  }

  /** `float()` reads a run of digits as its value. */
  lemma ParseFloatInteger(ip: string)
    requires ip != [] && AllDigits(ip)
    ensures ParseFloat(ip) == Some(DecimalValue(ip, ""))
  {
    StripTight(ip);
    DigitRunExact(ip, 0, |ip|);
    assert ip[..|ip|] == ip;
  }

  /** `float()` reads a numeral `ip.fp` (digits on both sides) as its exact value. */
  lemma ParseFloatNumeral(ip: string, fp: string)
    requires ip != [] && fp != [] && AllDigits(ip) && AllDigits(fp)
    ensures ParseFloat(ip + "." + fp) == Some(DecimalValue(ip, fp))
  {
    var t := ip + "." + fp;
    assert t[0] == ip[0];
    assert t[|t| - 1] == fp[|fp| - 1];
    StripTight(t);
    UnsignedNumeral(ip, fp);
  }

  lemma UnsignedNumeral(ip: string, fp: string)
    requires ip != [] && fp != [] && AllDigits(ip) && AllDigits(fp)
    ensures Unsigned(ip + "." + fp) == Some(DecimalValue(ip, fp))
  {
    var t := ip + "." + fp;
    NumeralParts(ip, fp);
    assert forall k :: 0 <= k < |ip| ==> IsDigit(t[k]) by {
      forall k | 0 <= k < |ip|
        ensures IsDigit(t[k])
      {
        assert t[k] == t[..|ip|][k];
      }
    }
    DigitRunExact(t, 0, |ip|);
  }

  lemma NumeralParts(ip: string, fp: string)
    ensures var t := ip + "." + fp;
      t[..|ip|] == ip && t[|ip|] == '.' && t[|ip| + 1..] == fp
  {
  }

  /** Stripping only removes characters. */
  lemma StripChars(s: string)
    ensures forall c :: c in Strip(s) ==> c in s
  {
    var t := TrimLeft(s);
    SliceChars(s, |s| - |t|, |s|);
    SliceChars(t, 0, |TrimRight(t)|);
  }

  lemma SliceChars(s: string, i: nat, j: nat)
    requires i <= j <= |s|
    ensures forall c :: c in s[i..j] ==> c in s
  {
    forall c | c in s[i..j]
      ensures c in s
    {
      var k :| 0 <= k < j - i && s[i..j][k] == c;
      assert s[i + k] == c;
    }
  }

  // ---------------------------------------------------------------------------
  // String order
  // ---------------------------------------------------------------------------

  /** Python's `a <= b` on `str`: lexicographic by code point, a prefix first. */
  predicate LexLe(a: string, b: string)
    decreases |a|
  {
    a == [] || (b != [] && (a[0] < b[0] || (a[0] == b[0] && LexLe(a[1..], b[1..]))))
  }

  lemma {:induction false} LexLeTotal(a: string, b: string)
    ensures LexLe(a, b) || LexLe(b, a)
    decreases |a|
  {
    if a != [] && b != [] && a[0] == b[0] {
      LexLeTotal(a[1..], b[1..]);
    }
  }

  lemma {:induction false} LexLeTransitive(a: string, b: string, c: string)
    requires LexLe(a, b) && LexLe(b, c)
    ensures LexLe(a, c)
    decreases |a|
  {
    if a != [] && a[0] == b[0] && b[0] == c[0] {
      LexLeTransitive(a[1..], b[1..], c[1..]);
    }
  }
}

=== FILE: wrappers.dfy ===
/** Failure-compatible wrappers used throughout the model: a Python value that
    may be `None`, and an operation that may raise. */
module Wrappers {

  /** A value that may be absent (Python's `Optional[T]`). */
  datatype Option<+T> = None | Some(value: T)

  /** The outcome of an operation that either returns a value or raises. */
  datatype Result<+T, +E> = Success(value: T) | Failure(error: E)
}
